=== FILE: README.md ===
# FE_DACNTT attendance client, modelled in Dafny

FE_DACNTT is the React client of a university attendance system. Lecturers
open QR-code attendance sessions for a course, students check in by scanning
the code, and staff manage users, courses, semesters, subjects and leave
requests. This project models the parts of the client that make decisions:

- the mock back end (`src/mocks/handlers.js` with its store
  `src/mocks/db.js`);
- the domain models `Attendance`, `Course` and `User` with their `fromApi`
  fallback chains;
- the validating use cases for attendance, courses, users, authentication
  and leave requests;
- the aggregation inside `StatisticsCard`;
- the page window of the `Pagination` bar in `Table.jsx`;
- the page cursor and the form state of `useApi.js`;
- the route guards of `AppRouter.jsx`;
- the secretary rules and payload shaping of `UserManagement.jsx`;
- the local update of `LecturerLeaveRequests.jsx`;
- the formatters of `dateUtils.js`.

How JavaScript values are represented:

- **Values.** A JavaScript value is the datatype `Js.Value`: `undefined`,
  `null`, booleans, integral numbers, `NaN`, strings, arrays and plain
  objects. Truthiness, `||`, `===`, `Number`, `parseInt`, `String`,
  `indexOf`, `split`, `trim` and the other built-ins the code relies on are
  pure functions over it.
- **Errors.** A thrown error is the `Failure` of a `Result`. That includes
  the `TypeError` of reading a property of `null`.
- **Awaits.** Every awaited repository call becomes a function parameter of
  type `Value -> Result<Value, Exception>`, so a contract can say what is
  passed to the back end and what comes back.
- **Mock handlers.** Each mock handler is a pure function from the stored
  collections to the new collections and a `Response` (status and body).
- **Supplied values.** The clock readings, UUIDs and ISO timestamps the
  handlers use are supplied as arguments.
- **Numbers.** They are integers. `Math.round(a / b * 100)` is exact
  round-half-up on rationals, and its result `Js.Rounded` also has the two
  infinities and `NaN` a division by zero yields. `+` concatenates when
  either side is a string.
- **Strings.** A string is a sequence of code points; its JavaScript
  `length` and its `<` order are taken on its UTF-16 code units (`Js.Utf16`).

The central invariant of the mock is that a course has at most one OPEN
session. start-session, close-session and check-in each preserve it.

## Model

| member | source | states |
|---|---|---|
| MockAttendance.CloseOpenOfCourse | src/mocks/handlers.js:566-571 | the session list keeps its length; exactly the OPEN sessions whose courseId is Number(courseId) become CLOSED, and every other session is untouched |
| MockAttendance.OnlyClosingPreserves | src/mocks/handlers.js:566-571 | a change that keeps every course id and opens no session keeps "at most one OPEN session per course" |
| MockAttendance.StartSession | src/mocks/handlers.js:557-591 | start-session always answers 200, stores the collection, and grows it by exactly one session |
| MockAttendance.StartSessionNewSession | src/mocks/handlers.js:573-586 | the appended session is OPEN, has no end time, counts 0 present, has no records, has courseId Number(courseId) and carries the generated token; the response body is that session |
| MockAttendance.StartSessionClosesOnlyThatCourse | src/mocks/handlers.js:566-571 | sessions of other courses are unchanged; no earlier session of the course is still OPEN; only statuses change |
| MockAttendance.StartSessionPreservesInvariant | src/mocks/handlers.js:566-586 | if every course had at most one OPEN session before, the same holds after, and the new session is the only OPEN one of its course |
| MockAttendance.CloseSession | src/mocks/handlers.js:594-613 | the answer is 200 or 404; 404 exactly when no session has the id as id or sessionId, and then nothing changes |
| MockAttendance.CloseSessionKnown | src/mocks/handlers.js:602-612 | the first session with the id becomes CLOSED with the given end time, whatever its prior status; every other session is unchanged |
| MockAttendance.CloseSessionPreservesInvariant | src/mocks/handlers.js:594-613 | close-session keeps at most one OPEN session per course |
| MockAttendance.CheckIn | src/mocks/handlers.js:616-656 | the answer is 200 exactly when a session list exists and some session is OPEN with a qrCodeData equal to the token; a 400 changes nothing |
| MockAttendance.CheckInAppendsOne | src/mocks/handlers.js:625-646 | a check-in appends one PRESENT record to the first matching session, sets presentCount to the record count, and leaves all other sessions and fields as they were |
| MockAttendance.CheckInIgnoresCourse | src/mocks/handlers.js:616-632 | the submitted courseId has no effect on the outcome |
| MockAttendance.CheckInTwice | src/mocks/handlers.js:635-646 | there is no duplicate check: a second check-in with the same token succeeds and adds a second record |
| MockAttendance.CheckInPreservesInvariant | src/mocks/handlers.js:616-656 | check-in changes no status and no course id, so the one-OPEN-per-course invariant is kept |
| MockAttendance.EntryOf | src/mocks/handlers.js:670-675 | a history entry is PRESENT exactly when the session has at least one record (of any student), with the first record's time; otherwise ABSENT with no check-in time |
| MockAttendance.HistoryEntries | src/mocks/handlers.js:667-675 | entry k is the entry of the k-th stored session of the course, and there is one entry per such session |
| MockAttendance.HistoryEntriesAppend | src/mocks/handlers.js:667-675 | the history of two runs of stored sessions is the history of the first run followed by that of the second, so the entries follow the stored order |
| MockAttendance.HistoryEntriesOne | src/mocks/handlers.js:667-675 | one stored session gives its entry when it belongs to the course and no entry otherwise |
| MockAttendance.History | src/mocks/handlers.js:659-679 | history answers 200, changes nothing, and gives an empty list when no sessions are stored |
| MockAttendance.HistoryCoversCourse | src/mocks/handlers.js:667-675 | every session of the course has its entry in the history, and every entry comes from a session of the course |
| MockAttendance.NonNumericCourseNeverMatches | src/mocks/handlers.js:568-576 | a session started for a non-numeric course id gets courseId NaN and afterwards matches no course id |
| MockDb.GetDb | src/mocks/db.js:269-286 | with nothing readable stored the seed is returned; otherwise stored top-level fields override the seed, seed fields missing from storage stay, and sessions and attendanceRecords default to empty lists |
| MockDb.GuaranteedCollectionsAreLists | src/mocks/db.js:278-279 | sessions and attendanceRecords are always present as lists |
| MockDb.SaveThenGet | src/mocks/db.js:275-286 | reading back a saved database that has every seed key and both collections as lists returns it unchanged |
| MockDb.MaxNumber | src/mocks/db.js:316 | Math.max is NaN exactly when some argument is NaN; otherwise it bounds every argument and is one of them |
| MockDb.ItemId | src/mocks/db.js:316 | item.id or 0 as a number; a null item throws |
| MockDb.ItemIds | src/mocks/db.js:316 | the ids of all items in order, or the TypeError of a null item |
| MockDb.GetNextId | src/mocks/db.js:312-318 | 1 for a missing, falsy or empty collection; a success is always a number; the exact value is stated by `MockDb.NextOfList` |
| MockDb.NextIdIsFresh | src/mocks/db.js:314-317 | over a non-empty list of objects with numeric or missing ids the next id is the largest id (a missing one counting 0) plus one: larger than every id, one more than some item's, and strictly equal to none |
| MockDb.IdsOfObjects | src/mocks/db.js:316 | over objects with numeric or missing ids the id list never throws and holds each id, 0 for a missing one |
| MockDb.NextOfList | src/mocks/db.js:312-318 | over a non-empty list whose ids are numbers the next id is their maximum plus one |
| MockDirectory.QueryInt | src/mocks/handlers.js:82-83 | parseInt of the parameter or the fallback; the result is never 0 when the fallback is not |
| MockDirectory.QueryAbsent | src/mocks/handlers.js:82-83 | an absent page or size takes its fallback |
| MockDirectory.QueryZero | src/mocks/handlers.js:83 | size=0 also falls back to 100 |
| MockDirectory.RoleToMatch | src/mocks/handlers.js:89 | the role to match always starts with ROLE_, and ROLE_ is added only when missing |
| MockDirectory.RoleToMatchPrefixed | src/mocks/handlers.js:89 | asking for X and for ROLE_X selects the same role |
| MockDirectory.MatchingUsers | src/mocks/handlers.js:88-91 | no or an empty role keeps every user; otherwise every kept user is a listed user with the prefixed role and every listed user with that role is kept |
| MockDirectory.MatchingUsersRoles | src/mocks/handlers.js:90 | every kept user has the prefixed role and every user with it is kept |
| MockDirectory.MatchingUsersAppend | src/mocks/handlers.js:88-91 | the users of two lists are matched list by list, in order, and a single user is kept exactly when it has the role asked for |
| MockDirectory.MatchingUsersCount | src/mocks/handlers.js:88-91 | a user with the role asked for is kept as often as it is listed; any other user is dropped |
| MockDirectory.PageOf | src/mocks/handlers.js:94-105 | the page reports number, size and total; totalPages is the ceiling of total over size; the content is the slice from page times size to the next page boundary, cut to the list |
| MockDirectory.ListUsers | src/mocks/handlers.js:78-106 | totalElements is the number of matched users and totalPages the least page count holding them; page and size are the parsed parameters, 0 and 100 when missing and 100 for a size of 0; the content is the matched users from page times size to the next page boundary, and empty past the last page |
| MockDirectory.PageWindow | src/mocks/handlers.js:94-95 | a page starting inside the list holds the users from its start to the next page boundary, cut to the list; a page starting past the end is empty |
| MockDirectory.ListUsersDefaults | src/mocks/handlers.js:82-95 | without page and size the answer is page 0 of size 100 holding the first 100 matched users |
| MockDirectory.RecordsJson | src/mocks/handlers.js:98-105 | the listed users are sent as the same objects in the same order |
| MockDirectory.EveryUserOnOnePage | src/mocks/handlers.js:94-102 | every matched user appears on exactly one page, at its position modulo the size, and that page exists |
| MockDirectory.Spread | src/mocks/handlers.js:147-151 | the merged user has the keys of both objects; update fields win, other user fields stay, and fullName is the rebuilt name |
| MockDirectory.UpdateUser | src/mocks/handlers.js:140-157 | PUT answers 200 or 404; 404 with null body exactly when no user has the id, and then nothing changes; courses and the number of users never change |
| MockDirectory.UpdateUserMerges | src/mocks/handlers.js:144-155 | the first user with the id is replaced by the merge and returned; all other users stay |
| MockDirectory.UpdateWithoutNames | src/mocks/handlers.js:149-150 | without new names the full name is rebuilt from the stored first and last names |
| MockDirectory.RosterHas | src/mocks/handlers.js:486 | on a roster of objects the check says whether some entry has the student code; a found entry counts by its truthiness; a null entry before it throws |
| MockDirectory.RosterEntry | src/mocks/handlers.js:491-497 | the roster entry copies exactly id, studentCode, firstName, lastName and email from the student |
| MockDirectory.Enroll | src/mocks/handlers.js:481-498 | the course gets the roster with the entry appended, and currentStudents equals the new roster length; other fields stay |
| MockDirectory.RegisterAt | src/mocks/handlers.js:481-502 | users never change; a non-200 answer changes nothing; a 200 replaces only that course by its enrolled version |
| MockDirectory.RegisterStudent | src/mocks/handlers.js:465-503 | a missing course answers 404 Course not found before the student is looked at; any non-200 answer changes nothing |
| MockDirectory.RegisterFinds | src/mocks/handlers.js:469-470 | the handler acts on the first course with the id and the first user with the code |
| MockDirectory.RegisterStudentAppends | src/mocks/handlers.js:481-498 | a successful registration enrols the student in that course only |
| MockDirectory.RegisterAtTwice | src/mocks/handlers.js:486-488 | a student already on the roster is refused with 400 Already registered |
| MockDirectory.RegisterStudentTwice | src/mocks/handlers.js:465-488 | a second registration of the same student leaves the database unchanged with 400 |
| MockDirectory.RegisterUnknownStudent | src/mocks/handlers.js:472-478 | a known course with an unknown student answers 404 Student not found |
| MockDirectory.RegisterWithoutCode | src/mocks/handlers.js:469-498 | with no studentCode in the body the first user without a code is enrolled |
| AttendanceModel.AttendanceSession.AttendanceRate | src/domain/models/Attendance.js:77-80 | the number 0 of students gives 0; numeric counts over a positive total give the whole percentage nearest to present plus late, halves upward; a null total divides by zero and gives Infinity, or NaN when nobody came |
| AttendanceModel.AttendanceSession.TimeRange | src/domain/models/Attendance.js:66-71 | empty without a start time; otherwise the formatted start, " - ", and the formatted end, or Đang mở for a missing end |
| AttendanceModel.PlainTimeRange | src/domain/models/Attendance.js:66-71 | a session with plain start and end times shows each cut to a prefix that is still a plain time, joined by " - ", and the same whatever the Date reading |
| AttendanceModel.AttendanceSession.FormattedDate | src/domain/models/Attendance.js:58-60 | the session date as dd/MM/yyyy, and - exactly for a missing date or an invalid one |
| AttendanceModel.AttendanceSession.IsOpen | src/domain/models/Attendance.js:42-44 | open exactly when the status is the string OPEN |
| AttendanceModel.AttendanceSession.IsClosed | src/domain/models/Attendance.js:50-52 | closed exactly when the status is the string CLOSED |
| AttendanceModel.NewSession | src/domain/models/Attendance.js:8-36 | each argument is kept when given, and an undefined one takes its default: null ids and times, empty texts, status CLOSED, counts 0 |
| AttendanceModel.NewSessionDefaults | src/domain/models/Attendance.js:8-36 | a session built with no arguments is closed, has a null id, numeric counts and rate 0 |
| AttendanceModel.SessionFromApi | src/domain/models/Attendance.js:87-103 | id falls back to sessionId and date to startTime; a missing status gives CLOSED; status, courseId and presentCount are taken as given |
| AttendanceModel.SessionFromResponse | src/domain/models/Attendance.js:87-103 | fromApi throws exactly on a missing response and reads an object as above |
| AttendanceModel.SessionRoundTrip | src/domain/models/Attendance.js:87-103 | fromApi of a session's own fields gives the session back exactly when the session is reloadable |
| AttendanceModel.SessionStatusExclusive | src/domain/models/Attendance.js:42-52 | isOpen and isClosed never both hold, and one of them holds exactly for the two session statuses |
| AttendanceModel.SessionRateBounds | src/domain/models/Attendance.js:77-80 | when present plus late is at most a positive class size the rate is a whole number in 0..100, and 100 for a full class |
| AttendanceModel.AttendanceRecord.StatusText | src/domain/models/Attendance.js:167-175 | the label of one of the four statuses, any other status unchanged |
| AttendanceModel.AttendanceRecord.StatusColor | src/domain/models/Attendance.js:181-189 | an unknown status is shown grey |
| AttendanceModel.AttendanceRecord.FormattedCheckInTime | src/domain/models/Attendance.js:195-197 | - for a missing check-in time; a plain time stays a plain time; any other time is - exactly when it is not a valid date |
| AttendanceModel.AttendanceRecord.IsPresent | src/domain/models/Attendance.js:135-137 | present exactly when the status is the string PRESENT |
| AttendanceModel.AttendanceRecord.IsAbsent | src/domain/models/Attendance.js:143-145 | absent exactly when the status is the string ABSENT |
| AttendanceModel.AttendanceRecord.IsLate | src/domain/models/Attendance.js:151-153 | late exactly when the status is the string LATE |
| AttendanceModel.AttendanceRecord.IsExcused | src/domain/models/Attendance.js:159-161 | excused exactly when the status is the string EXCUSED |
| AttendanceModel.NewRecord | src/domain/models/Attendance.js:111-129 | each argument is kept when given, and an undefined one takes its default: null ids and check-in time, empty texts, status ABSENT |
| AttendanceModel.RecordFromApi | src/domain/models/Attendance.js:204-215 | status falls back to attendanceStatus and then to ABSENT; studentId is taken as given |
| AttendanceModel.RecordFromResponse | src/domain/models/Attendance.js:204-215 | fromApi throws exactly on a missing item |
| AttendanceModel.RecordStatusClassification | src/domain/models/Attendance.js:135-175 | the four predicates are pairwise exclusive, one holds exactly for the four statuses, and then the text is a label |
| AttendanceModel.StatusLabelsDistinct | src/domain/models/Attendance.js:167-175 | two statuses share a label only when they are the same |
| AttendanceModel.RecordMissingStatusIsAbsent | src/domain/models/Attendance.js:118 | a record without either status field is absent and reads Vắng mặt |
| AttendanceModel.StudentStatistics.AttendedRate | src/domain/models/Attendance.js:249-252 | the number 0 of sessions gives 0; numeric counts over a positive total give the nearest whole percentage of present plus late sessions; a null total gives Infinity, or NaN for no sessions attended |
| AttendanceModel.StudentStatistics.AbsenceRate | src/domain/models/Attendance.js:258-261 | the number 0 of sessions gives 0; numeric counts over a positive total give the nearest whole percentage of absent sessions; a null total gives Infinity, or NaN for no absence |
| AttendanceModel.StatisticsFromApi | src/domain/models/Attendance.js:268-280 | each present key is taken as given, and isBanned defaults to false |
| AttendanceModel.NewStatistics | src/domain/models/Attendance.js:223-243 | each argument is kept when given, and an undefined one takes its default: null id, empty texts, counts 0, isBanned false |
| AttendanceModel.StatisticsRatesBounds | src/domain/models/Attendance.js:249-261 | when the counts fit a positive total both rates are whole numbers in 0..100 and add up to at most 101 |
| AttendanceModel.StatisticsRatesReach101 | src/domain/models/Attendance.js:249-261 | rounding can make the two rates add up to 101 (13 and 88 for 1, 0 and 7 out of 8) |
| AttendanceModel.TextTotalConverted | src/domain/models/Attendance.js:77-80 | a total sent as a non-zero numeric string is converted by the division, giving the rate of the number |
| AttendanceModel.TextCountConcatenated | src/domain/models/Attendance.js:77-80 | a present count sent as "3" is concatenated with 1 late into 31, so 40 students give 78 |
| CourseModel.Course.Day | src/domain/models/Course.js:50-60 | a day constant shows its Vietnamese name, any other value itself |
| CourseModel.Course.ScheduleText | src/domain/models/Course.js:50-62 | the text is the day name (or the raw day), " (", the start and end times as they print joined by " - ", and ")" |
| CourseModel.Course.IsFull | src/domain/models/Course.js:68-70 | `>=` after ToPrimitive (an array or object becomes its text): two numbers compare as numbers; operands not both strings go through Number, NaN never full; two strings are full exactly when equal or the maximum sorts first |
| CourseModel.ScheduleShowsDay | src/domain/models/Course.js:50-62 | a known day shows its Vietnamese name and an unknown one its own text, before " ("; the brackets hold "start - end" |
| CourseModel.SameTimesSameSchedule | src/domain/models/Course.js:50-62 | the schedule depends only on the day and the two times |
| CourseModel.DayNamesDistinct | src/domain/models/Course.js:234-242 | every day constant has a name, and different days have different names |
| CourseModel.Course.AvailableSlots | src/domain/models/Course.js:76-78 | max of 0 and capacity minus enrolled when both are numbers: never negative, and the exact difference when positive |
| CourseModel.FullIffNoSlots | src/domain/models/Course.js:68-78 | when the two counts are not both strings after ToPrimitive a course is full exactly when it has no slot left |
| CourseModel.StringCountsDisagree | src/domain/models/Course.js:68-78 | with counts "9" of "10" the course is full, since "9" sorts after "10", yet one slot is left |
| CourseModel.ArrayCountDisagrees | src/domain/models/Course.js:68-78 | an enrolled count sent as the array ["9"] against a maximum "10" compares as text and is full, yet one slot is left |
| CourseModel.ChosenLecturer | src/domain/models/Course.js:88-93 | a truthy lecturer is the first of a non-empty lecturers list or the single lecturer field |
| CourseModel.FirstLecturerWins | src/domain/models/Course.js:88-93 | a non-empty lecturers list wins over the lecturer field, for the name and the id |
| CourseModel.LecturerName | src/domain/models/Course.js:120-123 | the lecturer's full name has no surrounding spaces |
| CourseModel.CourseFromApi | src/domain/models/Course.js:112-131 | lecturerName is the trimmed first and last name of the chosen lecturer, else lecturerName or empty; subjectName, subjectCode, semesterName and room are each a string or truthy, never a falsy non-string, because of their empty-string fallbacks |
| CourseModel.CourseFromResponse | src/domain/models/Course.js:85-138 | fromApi throws exactly on a missing response |
| CourseModel.Construct | src/domain/models/Course.js:6-44 | the constructor keeps every given field and gives each undefined one its default: null, empty text or 0 |
| CourseModel.StudentCountFallback | src/domain/models/Course.js:96-98 | currentStudents falls back to the length of students, then 0 |
| CourseModel.CourseTakesEnrolledCount | src/domain/models/Course.js:96-98 | the course's enrolled count is the fallback chain |
| CourseModel.EnrolledCountCases | src/domain/models/Course.js:96-98 | the fallback chain gives currentStudents, the students length, or 0 |
| CourseModel.CapacityFallback | src/domain/models/Course.js:100-103 | maxStudents falls back to capacity, then maxEnrollment, then 0 |
| CourseModel.NestedObjectsFirst | src/domain/models/Course.js:111-133 | a truthy nested subject id or name, semester id or name, or lecturer id wins over the flat key; subjectName, subjectCode and semesterName are the chains nested, then flat, then empty; a falsy nested id leaves the flat subjectId, semesterId or lecturerId, null when undefined; credits fall back to the subject's |
| CourseModel.CourseFromApiReads | src/domain/models/Course.js:85-138 | the fields read as given with their defaults: id, code, name, day, times, room and capacity |
| CourseModel.CourseToJson | src/domain/models/Course.js:144-158 | toJson has exactly the eleven writable keys |
| CourseModel.CourseJsonFields | src/domain/models/Course.js:144-158 | toJson carries each field's value and no capacity or maxEnrollment |
| CourseModel.CourseJsonRoundTrip | src/domain/models/Course.js:85-158 | reading toJson back keeps id, code, name, day and times, defaults room and capacity, and keeps the schedule text |
| CourseModel.SemesterToJson | src/domain/models/Course.js:189-196 | a semester's JSON is name, year, startDate and endDate |
| CourseModel.SemesterFromApi | src/domain/models/Course.js:164-187 | fromApi keeps each defined field, defaults a missing id or year to null, and leaves no field undefined |
| CourseModel.SemesterJsonRoundTrip | src/domain/models/Course.js:179-196 | toJson of fromApi of an object returns its name, year and dates, dropping the id |
| CourseModel.SemesterReload | src/domain/models/Course.js:179-196 | reading a semester's JSON back gives the same semester without its id |
| CourseModel.SubjectToJson | src/domain/models/Course.js:224-230 | a subject's JSON is subjectCode, name and credits |
| CourseModel.SubjectFromApi | src/domain/models/Course.js:202-223 | fromApi keeps each defined field, defaults missing credits to 0, and leaves no field undefined |
| CourseModel.SubjectReload | src/domain/models/Course.js:215-230 | reading a subject's JSON back gives the same subject without its id |
| UserModel.User.DisplayName | src/domain/models/User.js:73-75 | the full name, or the username when it is empty |
| UserModel.User.RoleDisplayText | src/domain/models/User.js:81-89 | the label of a known role, any other role unchanged |
| UserModel.Construct | src/domain/models/User.js:6-35 | every given field is kept and an undefined one takes its default: null id, codes, department and dates, empty texts, role STUDENT, enabled true; an empty fullName is replaced by the trimmed first and last name |
| UserModel.User.IsAdmin | src/domain/models/User.js:41-43 | an admin exactly when the role is the string ADMIN |
| UserModel.User.IsLecturer | src/domain/models/User.js:49-51 | a lecturer exactly when the role is the string LECTURER |
| UserModel.User.IsStudent | src/domain/models/User.js:57-59 | a student exactly when the role is the string STUDENT |
| UserModel.User.IsSecretary | src/domain/models/User.js:65-67 | a secretary exactly when the role is the string SECRETARY |
| UserModel.NormalizeRole | src/domain/models/User.js:98-101 | a missing role becomes STUDENT and one leading ROLE_ is removed; a non-string role throws |
| UserModel.NormalizeRoleOnce | src/domain/models/User.js:98-101 | exactly one prefix is removed, and a role without it is kept |
| UserModel.NormalizeRoleIdempotent | src/domain/models/User.js:98-101 | normalising a normalised role without a second prefix changes nothing |
| UserModel.UserFromApi | src/domain/models/User.js:96-117 | fromApi fails exactly when the role does; the role is normalised; enabled defaults to true only when undefined; a given fullName is kept |
| UserModel.UserFromResponse | src/domain/models/User.js:96-117 | fromApi of a missing response throws |
| UserModel.FullNameFromParts | src/domain/models/User.js:27 | without fullName the name is the trimmed join of the parts, and with no parts either the display name is the username |
| UserModel.JoinedNameEmpty | src/domain/models/User.js:27 | two empty parts join to the empty name |
| UserModel.RolePredicatesExclusive | src/domain/models/User.js:41-67 | at most one role predicate holds, exactly one for the four roles, and then the role has a label |
| UserModel.PrefixedRoleRecognised | src/domain/models/User.js:98-101 | a ROLE_-prefixed role from the back end satisfies the same predicate as the bare one |
| UserModel.UserToJson | src/domain/models/User.js:123-133 | toJson has exactly the seven keys the back end accepts |
| UserModel.UserJsonRoundTrip | src/domain/models/User.js:96-133 | reading toJson back keeps id, username, email, role, both codes and the display name |
| UseCaseSupport.RequireFields | src/usecases/courses/courseUseCases.js:17-22 | passes exactly when every field is truthy; else fails naming the first falsy field |
| UseCaseSupport.FirstMissingFieldNamed | src/usecases/courses/courseUseCases.js:17-22 | the error names the first falsy field when all earlier fields are present |
| UseCaseSupport.ListFrom | src/usecases/attendance/attendanceUseCases.js:105 | an array is kept, an object gives its content or an empty list, a missing response throws |
| UseCaseSupport.ContentOf | src/usecases/courses/courseUseCases.js:29 | content, else data, else the response itself; a missing response throws |
| UseCaseSupport.MapAll | src/usecases/attendance/attendanceUseCases.js:80 | map succeeds exactly when every call does, keeping order; else the first error in list order |
| UseCaseSupport.MapIfList | src/usecases/courses/courseUseCases.js:30-32 | a non-array content gives an empty list |
| UseCaseSupport.PagingOf | src/usecases/courses/courseUseCases.js:36-38 | total falls back to the count, page to 0 and totalPages to 1 |
| AttendanceUseCases.StartSession | src/usecases/attendance/attendanceUseCases.js:10-17 | a missing courseId throws before any call; otherwise the repository's error is passed on or its answer read as a session |
| AttendanceUseCases.CloseSession | src/usecases/attendance/attendanceUseCases.js:22-30 | a missing courseId throws before any call; otherwise the repository's answer |
| AttendanceUseCases.CheckIn | src/usecases/attendance/attendanceUseCases.js:37-68 | a missing token is reported before a missing course; otherwise the repository's answer or error, unchanged |
| AttendanceUseCases.CheckInValidationFirst | src/usecases/attendance/attendanceUseCases.js:40-46 | failed validation consults no repository, and a missing token wins |
| AttendanceUseCases.ListItems | src/usecases/attendance/attendanceUseCases.js:79 | an array, else its content, else an empty list |
| AttendanceUseCases.SessionsByCourse | src/usecases/attendance/attendanceUseCases.js:73-81 | a missing courseId throws; errors pass on; the items are read as sessions |
| AttendanceUseCases.SessionsByCourseReadsEach | src/usecases/attendance/attendanceUseCases.js:79-80 | every session of a plain list is read with fromApi, in order |
| AttendanceUseCases.SessionRecords | src/usecases/attendance/attendanceUseCases.js:86-94 | a missing sessionId throws; errors pass on; the items are read as records |
| AttendanceUseCases.SessionRecordsFromPage | src/usecases/attendance/attendanceUseCases.js:92-93 | the content of a page is read record by record, missing statuses as absent |
| AttendanceUseCases.StudentHistory | src/usecases/attendance/attendanceUseCases.js:99-106 | a missing courseId throws; otherwise the list of the answer |
| AttendanceUseCases.UpdateRecord | src/usecases/attendance/attendanceUseCases.js:111-123 | a missing record id is reported before a bad status; a valid update sends only the status |
| AttendanceUseCases.UpdateRecordStatuses | src/usecases/attendance/attendanceUseCases.js:115-119 | the accepted statuses are exactly the four record statuses |
| CourseUseCases.CreateCourse | src/usecases/courses/courseUseCases.js:16-25 | the first missing field is reported; with all six present the answer is read as a course |
| CourseUseCases.CreateCourseNamesFirstMissing | src/usecases/courses/courseUseCases.js:17-22 | the error names the first missing field in the fixed order, and no repository is consulted |
| CourseUseCases.GetCourses | src/usecases/courses/courseUseCases.js:27-40 | errors pass on; the paging is read with its defaults |
| CourseUseCases.GetCoursesDefaults | src/usecases/courses/courseUseCases.js:36-38 | page defaults to 0, totalPages to 1 and total to the number of courses |
| CourseUseCases.RegisterStudentToCourse | src/usecases/courses/courseUseCases.js:56-62 | both ids are required; then exactly the two ids are sent |
| CourseUseCases.RegisterStudent | src/usecases/courses/courseUseCases.js:64-71 | studentCode and courseId are both required; then exactly those two are sent |
| CourseUseCases.StatFromRaw | src/usecases/courses/courseUseCases.js:106-123 | reshaping an entry throws exactly on a null entry |
| CourseUseCases.BanRule | src/usecases/courses/courseUseCases.js:107-110 | banned exactly when banned or isBanned is true or the absence percentage (0 when missing) is at least 20 |
| CourseUseCases.BanRuleEdges | src/usecases/courses/courseUseCases.js:107-110 | only the boolean true counts as a flag; 20 percent bans and 19 does not |
| CourseUseCases.AbsentSessionsFallback | src/usecases/courses/courseUseCases.js:119 | absentCount wins whenever defined, even 0; else absentSessions; else 0 |
| CourseUseCases.RawDetails | src/usecases/courses/courseUseCases.js:102-104 | studentStats if a list, else studentDetails if a list, else empty |
| CourseUseCases.BannedCount | src/usecases/courses/courseUseCases.js:126-128 | the length of the list of banned entries that filter keeps; so at most the number of entries, and 0 exactly when nobody is banned |
| CourseUseCases.GetCourseStatistics | src/usecases/courses/courseUseCases.js:97-132 | errors pass on; studentStats and studentDetails are the same list |
| CourseUseCases.StatisticsMapping | src/usecases/courses/courseUseCases.js:102-130 | one reshaped entry per raw entry, in order; totalBanned is the back end's number or the banned count |
| CourseUseCases.StatisticsOfNothing | src/usecases/courses/courseUseCases.js:99-130 | a null answer gives no students and no bans |
| CourseUseCases.CreateSemester | src/usecases/courses/courseUseCases.js:169-176 | name, startDate and endDate are required; then the answer is read as a semester |
| CourseUseCases.CreateSubject | src/usecases/courses/courseUseCases.js:193-200 | subjectCode, name and credits are required; then the answer is read as a subject |
| CourseUseCases.ZeroCreditsRejected | src/usecases/courses/courseUseCases.js:194-197 | 0 credits are rejected as missing |
| CourseUseCases.SemesterCompleteReachesRepository | src/usecases/courses/courseUseCases.js:170-175 | a complete semester reaches the repository, whose error is passed on |
| UserUseCases.CheckNewUser | src/usecases/users/userUseCases.js:7-27 | passes exactly when the five fields are present, the role is valid, and the role's code is present; each failure has its own message, in that order |
| UserUseCases.CreateUser | src/usecases/users/userUseCases.js:6-31 | a failed check throws before any call; otherwise the answer is read as a user |
| UserUseCases.ValidRolesAreUserRoles | src/usecases/users/userUseCases.js:15-19 | the accepted roles are exactly the four user roles, and staff need no code |
| UserUseCases.MissingRoleIsRequiredField | src/usecases/users/userUseCases.js:7-12 | a missing role is reported as a missing field, not an invalid one |
| UserUseCases.RoleMatchIsContainment | src/usecases/users/userUseCases.js:46-59 | the role filter is exactly upper-cased containment; the equality tests add nothing |
| UserUseCases.RoleFilterIsLoose | src/usecases/users/userUseCases.js:50-57 | filtering on LECTURER also keeps a role that merely contains it |
| UserUseCases.GetUsers | src/usecases/users/userUseCases.js:34-67 | errors pass on; total falls back to the list length and totalPages to 1 |
| UserUseCases.GetUsersFilter | src/usecases/users/userUseCases.js:37-66 | without a role all users are kept; with one, the result equals `Js.Filter` of the users whose upper-cased role contains the upper-cased filter, so order and repeats are kept, and total is their count |
| UserUseCases.GetUserById | src/usecases/users/userUseCases.js:69-73 | a falsy id throws; otherwise the answer is read as a user |
| UserUseCases.UpdateUser | src/usecases/users/userUseCases.js:75-79 | a falsy id throws; otherwise the answer is read as a user |
| UserUseCases.DeleteUser | src/usecases/users/userUseCases.js:81-84 | a falsy id throws; otherwise errors pass on and success resolves to nothing |
| UserUseCases.ResetPassword | src/usecases/users/userUseCases.js:86-90 | an empty username throws; otherwise the repository's answer |
| UserUseCases.IdGuardsBeforeRepository | src/usecases/users/userUseCases.js:70-87 | a falsy id consults no repository |
| AuthUseCases.Login | src/usecases/auth/authUseCases.js:14-34 | an empty username or password throws before the call |
| AuthUseCases.MatchEmail | src/usecases/auth/authUseCases.js:53-56 | the scan accepts exactly the strings of the form non-empty@non-empty.non-empty without whitespace or a second @ |
| AuthUseCases.ScanRejects | src/usecases/auth/authUseCases.js:53 | a string whose scan finds no @ followed by a dot and a tail does not have the shape |
| AuthUseCases.NoMatchWithBadChar | src/usecases/auth/authUseCases.js:53 | whitespace anywhere rules out the shape |
| AuthUseCases.NoMatchWithTwoAts | src/usecases/auth/authUseCases.js:53 | two @ rule out the shape |
| AuthUseCases.NoMatchWithLeadingAt | src/usecases/auth/authUseCases.js:53 | an empty local part rules out the shape |
| AuthUseCases.EmailExamples | src/usecases/auth/authUseCases.js:53 | a@b.c matches; a@b, @b.c, a@.c, a@b., a@b@c.d and a b@c.d do not |
| AuthUseCases.NotShape | src/usecases/auth/authUseCases.js:53 | a domain with no dot after its first character does not match |
| AuthUseCases.CheckSignUp | src/usecases/auth/authUseCases.js:45-61 | required fields first, then the e-mail shape, then a password whose length, compared with `<` against 6, is not shorter |
| AuthUseCases.RegisterStudent | src/usecases/auth/authUseCases.js:43-66 | a failed check throws before any call; otherwise the repository's answer |
| AuthUseCases.StringPasswordLength | src/usecases/auth/authUseCases.js:59-61 | a string password passes exactly when it has at least six UTF-16 code units, the unit of a JavaScript string length |
| AuthUseCases.AstralPasswordPasses | src/usecases/auth/authUseCases.js:59-61 | three emoji make a password of six code units, which passes |
| AuthUseCases.NumericPasswordPasses | src/usecases/auth/authUseCases.js:59-61 | a numeric password has no length and so is never too short |
| AuthUseCases.EmailBeforePassword | src/usecases/auth/authUseCases.js:53-61 | a bad e-mail is reported before a short password |
| LeaveRequestUseCases.RequestPayload | src/usecases/leave_requests/leaveRequestUseCases.js:18-23 | the request carries exactly the four fields |
| LeaveRequestUseCases.CreateRequest | src/usecases/leave_requests/leaveRequestUseCases.js:10-25 | a missing form throws |
| LeaveRequestUseCases.CreateRequestChecks | src/usecases/leave_requests/leaveRequestUseCases.js:13-23 | the first missing of courseId, reason, requestDate and type names the error without a call; a complete form sends the four fields |
| LeaveRequestUseCases.CreateRequestDropsExtras | src/usecases/leave_requests/leaveRequestUseCases.js:18-23 | other form fields never reach the repository |
| LeaveRequestUseCases.MyRequests | src/usecases/leave_requests/leaveRequestUseCases.js:31-34 | always an empty list |
| LeaveRequestUseCases.RequestsByCourse | src/usecases/leave_requests/leaveRequestUseCases.js:41-45 | courseId is required; errors pass on; only an array answer is kept |
| LeaveRequestUseCases.PagedResponseIsDropped | src/usecases/leave_requests/leaveRequestUseCases.js:44 | a paged object answer comes out empty |
| LeaveRequestUseCases.UpdateStatus | src/usecases/leave_requests/leaveRequestUseCases.js:53-59 | requestId first, then status in APPROVED or REJECTED, then the call |
| LeaveRequestUseCases.OnlyDecisionsPass | src/usecases/leave_requests/leaveRequestUseCases.js:54-55 | PENDING and every other status are refused without a call |
| StatisticsCard.RawList | src/presentation/components/features/StatisticsCard.jsx:9 | studentStats, else studentDetails, else an empty list; always truthy |
| StatisticsCard.BannedFlag | src/presentation/components/features/StatisticsCard.jsx:14 | the truthiness of isBanned |
| StatisticsCard.CountTrue | src/presentation/components/features/StatisticsCard.jsx:14 | the number of true flags, counted with multiplicity; 0 exactly when none is set |
| StatisticsCard.BannedTotal | src/presentation/components/features/StatisticsCard.jsx:14 | filter on a non-list throws |
| StatisticsCard.Presence | src/presentation/components/features/StatisticsCard.jsx:20-22 | 100 minus the absence percentage, which throws exactly on a null entry |
| StatisticsCard.Average | src/presentation/components/features/StatisticsCard.jsx:18-25 | 0 for no students; reduce on a non-list throws |
| StatisticsCard.Summarize | src/presentation/components/features/StatisticsCard.jsx:5-33 | the list and its length; totalBanned is the given number or the banned count |
| StatisticsCard.Card | src/presentation/components/features/StatisticsCard.jsx:35-37 | no statistics shows the loading note, otherwise the figures |
| StatisticsCard.CardOfNothing | src/presentation/components/features/StatisticsCard.jsx:7-25 | no statistics gives all zeros and an empty list |
| StatisticsCard.SummaryOfList | src/presentation/components/features/StatisticsCard.jsx:9-25 | over a list of objects the total is its length, the banned count counts truthy flags, and an empty list averages 0 |
| StatisticsCard.BannedOfObjects | src/presentation/components/features/StatisticsCard.jsx:14 | over objects the banned count is the number of truthy flags |
| StatisticsCard.AverageOfObjects | src/presentation/components/features/StatisticsCard.jsx:18-25 | over objects the average never throws and is 0 for none |
| StatisticsCard.AverageBounds | src/presentation/components/features/StatisticsCard.jsx:18-25 | percentages in 0..100 give an average in 0..100 |
| StatisticsCard.PresenceInRange | src/presentation/components/features/StatisticsCard.jsx:21 | a percentage in 0..100 gives a presence in 0..100 |
| StatisticsCard.AverageOfPresences | src/presentation/components/features/StatisticsCard.jsx:18-25 | the average is the rounded mean of the presences |
| StatisticsCard.BadgePartition | src/presentation/components/features/StatisticsCard.jsx:145-149 | red from 20, yellow above 0, green otherwise |
| StatisticsCard.BadgeOf | src/presentation/components/features/StatisticsCard.jsx:145-149 | a missing or falsy percentage is green; a numeric string is converted, red from 20 and yellow above 0; a non-numeric string is green |
| StatisticsCard.WarningOffered | src/presentation/components/features/StatisticsCard.jsx:102 | with a numeric total the warning is offered exactly when it is positive, and never with a falsy total |
| StatisticsCard.WarningIffFlagged | src/presentation/components/features/StatisticsCard.jsx:13-15 | without a given total the warning action is offered exactly when some student is flagged |
| StatisticsCard.StatJson | src/presentation/components/features/StatisticsCard.jsx:14-21 | the card sees each reshaped entry's flag and percentage |
| StatisticsCard.CardOfUseCase | src/presentation/components/features/StatisticsCard.jsx:9-15 | fed the use case's output, the card counts its students and shows its totalBanned |
| StatisticsCard.RedBadgeMeansBanned | src/presentation/components/features/StatisticsCard.jsx:145-149 | a red badge is only shown on a banned student |
| Pagination.Range | src/presentation/components/common/Table.jsx:141-143 | the consecutive pages from start to end |
| Pagination.PageList | src/presentation/components/common/Table.jsx:141-143 | the loop pushes exactly those pages |
| Pagination.Render | src/presentation/components/common/Table.jsx:124-220 | nothing is shown exactly when there is at most one page |
| Pagination.WindowSize | src/presentation/components/common/Table.jsx:133-139 | the window lies within the pages and holds min(5, totalPages) of them |
| Pagination.WindowHoldsCurrent | src/presentation/components/common/Table.jsx:133-139 | the window holds the current page |
| Pagination.PagesExist | src/presentation/components/common/Table.jsx:133-143 | every shown page exists and they ascend by one |
| Pagination.ShortcutsAndGaps | src/presentation/components/common/Table.jsx:165-204 | a shortcut appears exactly when its page is not shown, and an ellipsis exactly when a page is hidden |
| Pagination.ArrowsStayInRange | src/presentation/components/common/Table.jsx:150-211 | previous is disabled exactly on the first page, next on the last, and an enabled arrow leads to a page that exists |
| Pagination.Examples | src/presentation/components/common/Table.jsx:124-220 | sample bars over twelve pages, and none over one |
| UseApi.NextPage | src/presentation/hooks/useApi.js:80-84 | increments exactly before the last page |
| UseApi.PrevPage | src/presentation/hooks/useApi.js:86-90 | decrements exactly after the first page |
| UseApi.GoToPage | src/presentation/hooks/useApi.js:92-96 | moves exactly to a page that exists |
| UseApi.MovesStayInRange | src/presentation/hooks/useApi.js:50-96 | the moves keep the page in range, and next and previous undo each other |
| UseApi.EndsAreFixed | src/presentation/hooks/useApi.js:80-96 | the last page has no next, the first no previous, and the initial state moves nowhere |
| UseApi.FetchRequest | src/presentation/hooks/useApi.js:58-62 | the given params win; page and size are filled in only when absent |
| UseApi.NullPageIsSent | src/presentation/hooks/useApi.js:58-62 | a null page in the params is sent as null |
| UseApi.ItemsOf | src/presentation/hooks/useApi.js:65 | reading the items throws exactly on a missing result |
| UseApi.ReadFetch | src/presentation/hooks/useApi.js:63-69 | the list or empty, totalPages defaulting to 1, page to 0, total to the count |
| UseApi.FetchShapes | src/presentation/hooks/useApi.js:63-69 | a plain array is taken whole; an object without a list gives no data |
| UseApi.NewForm | src/presentation/hooks/useApi.js:123-126 | a new form holds the initial values with no errors and nothing touched |
| UseApi.HandleChange | src/presentation/hooks/useApi.js:128-134 | only the named field changes, to checked for a checkbox and to value otherwise |
| UseApi.HandleBlur | src/presentation/hooks/useApi.js:136-142 | only the named field is marked touched |
| UseApi.SetValue | src/presentation/hooks/useApi.js:144-149 | only the named field changes, to the given value |
| UseApi.SetFieldError | src/presentation/hooks/useApi.js:151-156 | only the named field's error changes, to the given error |
| UseApi.ChangeIsSetValue | src/presentation/hooks/useApi.js:128-149 | a change event sets its field as setValue would, with the value or, for a checkbox, the checked state |
| UseApi.ResetForgetsFieldError | src/presentation/hooks/useApi.js:151-162 | a reset after setFieldError is a plain reset, and setting the same error twice is setting it once |
| UseApi.Reset | src/presentation/hooks/useApi.js:158-162 | back to the initial values with no errors and nothing touched |
| UseApi.ResetForgetsEdits | src/presentation/hooks/useApi.js:128-162 | a reset after any edit gives the fresh form, and a second reset changes nothing |
| UseApi.CheckboxStoresChecked | src/presentation/hooks/useApi.js:130-131 | a checkbox stores its checked state, any other input its value |
| UseApi.FieldError | src/presentation/hooks/useApi.js:169-177 | a required empty value gets the rule's message or the default; an optional empty value without a custom rule gets none; a truthy value shorter than a truthy minLength gets the Tối thiểu message with that length; any error is truthy |
| UseApi.PatternOrCustomError | src/presentation/hooks/useApi.js:173-176 | once required and minLength pass, an error from the pattern or custom rule is the rule's message or Giá trị không hợp lệ, and is truthy; an empty value without a custom rule gets none |
| UseApi.RecordedFields | src/presentation/hooks/useApi.js:166-178 | a field has an error exactly when some rule for it fails |
| UseApi.RecordedLastWins | src/presentation/hooks/useApi.js:166-178 | a field's recorded error is its failing entry's error |
| UseApi.Validate | src/presentation/hooks/useApi.js:164-181 | the loop records exactly those errors, and the form is valid exactly when no rule fails |
| UseApi.RuleOrder | src/presentation/hooks/useApi.js:169-177 | required is checked before minLength, which only applies to a non-empty value and counts UTF-16 code units |
| AppRouter.NormalizeRole | src/presentation/router/AppRouter.jsx:39-42 | null for a missing role; otherwise the first ROLE_ anywhere is removed |
| AppRouter.NormalizationsAgreeOnPrefix | src/presentation/router/AppRouter.jsx:39-42 | on a leading ROLE_ the router and the user model agree |
| AppRouter.NormalizationsDiffer | src/presentation/router/AppRouter.jsx:39-42 | on an inner ROLE_ they differ |
| AppRouter.PlainRoleKept | src/presentation/router/AppRouter.jsx:39-42 | a role without ROLE_ is kept |
| AppRouter.Dashboard | src/presentation/router/AppRouter.jsx:62-69 | exactly the four roles have a dashboard; staff share the admin one |
| AppRouter.Protected | src/presentation/router/AppRouter.jsx:47-73 | loading first, then login when signed out; renders exactly when the role is allowed or no role is required; otherwise the role's dashboard or login |
| AppRouter.SignedInDashboard | src/presentation/router/AppRouter.jsx:85-94 | the dashboard of a signed-in user with a role |
| AppRouter.Public | src/presentation/router/AppRouter.jsx:78-95 | signed-in users with a dashboard go there; everyone else sees the page |
| AppRouter.Smart | src/presentation/router/AppRouter.jsx:100-117 | the same, but login instead of the page |
| AppRouter.PathMatchesPointwise | src/presentation/router/AppRouter.jsx:126-196 | a path matches a pattern exactly when they have as many segments and each literal segment equals its pattern up to ASCII letter case, each parameter segment being non-empty |
| AppRouter.AnyMatchesIff | src/presentation/router/AppRouter.jsx:126-196 | a group matches when one of its routes does |
| AppRouter.NoMatchFallsBack | src/presentation/router/AppRouter.jsx:194-196 | when no route from a layout on matches the path (ignoring ASCII letter case) the lookup lands on the `*` redirect |
| AppRouter.FirstMatchWins | src/presentation/router/AppRouter.jsx:126-196 | the first group with a matching route decides |
| AppRouter.GuardFrom | src/presentation/router/AppRouter.jsx:126-196 | the guard a path lands on is that of a layout at or after the given one, or the `*` redirect |
| AppRouter.NoneMatchFirst | src/presentation/router/AppRouter.jsx:126-196 | no route of a group matches a path whose first segment none of its patterns accepts |
| AppRouter.Visit | src/presentation/router/AppRouter.jsx:47-196 | loading first, whatever the page; a redirect goes to login or a dashboard; the `*` and default routes never render a page; a signed-out user is sent to login from a guarded page and sees a public one |
| AppRouter.PathMatchIgnoresCase | src/presentation/router/AppRouter.jsx:126-196 | two paths differing only in ASCII letter case match the same patterns |
| AppRouter.AnyMatchesIgnoresCase | src/presentation/router/AppRouter.jsx:126-196 | the same holds for a layout's list of routes |
| AppRouter.GuardFromIgnoresCase | src/presentation/router/AppRouter.jsx:126-196 | the layout a path lands on does not depend on letter case |
| AppRouter.LoginInAnyCase | src/presentation/router/AppRouter.jsx:126-134 | /Login lands on the public login page like /login |
| AppRouter.TargetGuards | src/presentation/router/AppRouter.jsx:126-181 | login is public and each dashboard is behind its group's roles |
| AppRouter.DashboardAdmitsRole | src/presentation/router/AppRouter.jsx:62-68 | every dashboard a role is sent to admits that role |
| AppRouter.RedirectsSettle | src/presentation/router/AppRouter.jsx:47-196 | following a redirect renders, so there is no redirect loop |
| AppRouter.RedirectTarget | src/presentation/router/AppRouter.jsx:47-117 | a redirect goes to the user's dashboard or to login |
| AppRouter.LoginRenders | src/presentation/router/AppRouter.jsx:78-95 | login renders for users without a dashboard |
| AppRouter.DashboardRenders | src/presentation/router/AppRouter.jsx:47-73 | a user's own dashboard renders for them |
| AppRouter.SignedOutGoesToLogin | src/presentation/router/AppRouter.jsx:47-117 | a signed-out user is sent to login, which renders |
| AppRouter.SecretaryNormalized | src/presentation/router/AppRouter.jsx:39-42 | the secretary role normalises the same with or without the prefix |
| AppRouter.SecretaryIsStaff | src/presentation/router/AppRouter.jsx:61-72 | a secretary passes the staff guard |
| UserManagement.StaffRoleIff | src/presentation/pages/admin/UserManagement.jsx:130 | the staff roles are exactly ADMIN and SECRETARY |
| UserManagement.NameParts | src/presentation/pages/admin/UserManagement.jsx:84-88 | the first name is the first space-free token of the trimmed name; with a space, first and rest rejoin to it |
| UserManagement.NameSplit | src/presentation/pages/admin/UserManagement.jsx:80-92 | the split applies only when both names are empty and the full name is set |
| UserManagement.NamePartsRejoin | src/presentation/pages/admin/UserManagement.jsx:84-88 | trimming the rejoined parts gives the trimmed full name |
| UserManagement.OpenForm | src/presentation/pages/admin/UserManagement.jsx:75-121 | a new user gets the empty form; an edit fills the split names and the role and clears the password |
| UserManagement.EditKeepsFullName | src/presentation/pages/admin/UserManagement.jsx:80-134 | opening and saving an edit keeps the trimmed full name |
| UserManagement.BasePayload | src/presentation/pages/admin/UserManagement.jsx:136-144 | the six fields always sent, with the rebuilt full name |
| UserManagement.OptionalKeys | src/presentation/pages/admin/UserManagement.jsx:145-154 | password only when set; a code only for its role and when set |
| UserManagement.Payload | src/presentation/pages/admin/UserManagement.jsx:134-154 | the payload's keys and values |
| UserManagement.PayloadOptionalFields | src/presentation/pages/admin/UserManagement.jsx:145-154 | which optional fields a payload carries |
| UserManagement.Submit | src/presentation/pages/admin/UserManagement.jsx:123-171 | a secretary creating staff is refused; otherwise update or create with the payload |
| UserManagement.SecretaryCannotCreateStaff | src/presentation/pages/admin/UserManagement.jsx:130-132 | that refusal makes no call |
| UserManagement.Delete | src/presentation/pages/admin/UserManagement.jsx:173-193 | a secretary deleting staff is refused; otherwise the delete use case |
| UserManagement.SecretaryCannotDeleteStaff | src/presentation/pages/admin/UserManagement.jsx:175-178 | that refusal makes no call |
| UserManagement.HiddenActionsMatchDeleteGuard | src/presentation/pages/admin/UserManagement.jsx:248-252 | a row has no actions exactly when deleting it would be refused |
| UserManagement.RoleOptions | src/presentation/pages/admin/UserManagement.jsx:296-306 | every option is a user role with its label |
| UserManagement.OptionsMatchSubmitGuard | src/presentation/pages/admin/UserManagement.jsx:296-306 | a role is offered exactly when submitting it is allowed |
| LecturerLeaveRequests.LoadRequests | src/presentation/pages/lecturer/LecturerLeaveRequests.jsx:34-51 | no course clears the list; a failed load keeps it |
| LecturerLeaveRequests.EmptySelectionClears | src/presentation/pages/lecturer/LecturerLeaveRequests.jsx:35-38 | clearing the choice ignores the back end |
| LecturerLeaveRequests.IsPendingIff | src/presentation/pages/lecturer/LecturerLeaveRequests.jsx:124 | pending exactly for status PENDING or null |
| LecturerLeaveRequests.Badges | src/presentation/pages/lecturer/LecturerLeaveRequests.jsx:143-145 | at most one badge, present exactly for the three known states |
| LecturerLeaveRequests.RowActions | src/presentation/pages/lecturer/LecturerLeaveRequests.jsx:148-155 | approve and reject buttons exactly for pending requests |
| LecturerLeaveRequests.WithStatus | src/presentation/pages/lecturer/LecturerLeaveRequests.jsx:62 | only the status changes |
| LecturerLeaveRequests.Updated | src/presentation/pages/lecturer/LecturerLeaveRequests.jsx:61-63 | only the requests with the id get the new status |
| LecturerLeaveRequests.Notice | src/presentation/pages/lecturer/LecturerLeaveRequests.jsx:58-67 | the toast for approval, rejection and failure |
| LecturerLeaveRequests.HandleAction | src/presentation/pages/lecturer/LecturerLeaveRequests.jsx:54-69 | success updates the list locally, failure leaves it |
| LecturerLeaveRequests.OnlyStatusChanges | src/presentation/pages/lecturer/LecturerLeaveRequests.jsx:61-68 | length, order, other requests and other fields are unchanged |
| LecturerLeaveRequests.DecidedIsSettled | src/presentation/pages/lecturer/LecturerLeaveRequests.jsx:61-63 | a decided request is no longer pending and offers no buttons |
| LecturerLeaveRequests.DecisionIdempotent | src/presentation/pages/lecturer/LecturerLeaveRequests.jsx:61-63 | repeating a decision changes nothing |
| LecturerLeaveRequests.RenderType | src/presentation/pages/lecturer/LecturerLeaveRequests.jsx:72-78 | ABSENCE and LATE get labels, other types pass through, and a missing type reads Nghỉ học |
| LecturerLeaveRequests.RenderTypeTotal | src/presentation/pages/lecturer/LecturerLeaveRequests.jsx:72-78 | a rendered type is never empty, and a missing type reads as an absence |
| DateUtils.FormatTime | src/utils/dateUtils.js:30-54 | - for a falsy input; a plain time stays a plain time without going through Date (the exact cut is `DateUtils.PlainTimeIsPrefix`); any other input is - exactly for an invalid date and otherwise the HH:mm of the date |
| DateUtils.PlainTimeIsPrefix | src/utils/dateUtils.js:35-39 | a plain time is cut just before its second colon: the result is a prefix of the input holding exactly one colon, with no colon on either side of it |
| DateUtils.FormatTimeIdempotent | src/utils/dateUtils.js:35-40 | formatting a plain time twice changes nothing |
| DateUtils.FormatDate | src/utils/dateUtils.js:11-22 | - exactly for a falsy input or an invalid date; otherwise the dd/MM/yyyy of the date |
| DateUtils.FormatDateTime | src/utils/dateUtils.js:61-68 | - exactly for a falsy input or an invalid date; otherwise the date and the formatTime text joined by a space |
| DateUtils.TwoDigits | src/utils/dateUtils.js:17-18 | padStart(2, '0') gives at least two characters, and for a number below 100 exactly two digits that read back as the number |
| DateUtils.DateText | src/utils/dateUtils.js:17-21 | the shown date has at least six characters |
| DateUtils.ClockText | src/utils/dateUtils.js:50-53 | the shown time has at least five characters |
| DateUtils.DateTextReads | src/utils/dateUtils.js:17-21 | a calendar date shows two digits of day, /, two digits of month, / and the year, and day and month read back from the text |
| DateUtils.ClockTextReads | src/utils/dateUtils.js:50-53 | a time of day shows as five characters HH:mm that read back as the hours and minutes |
| DateUtils.PlainTimeIgnoresDate | src/utils/dateUtils.js:35-40 | a plain time shows the same whatever the Date reading |
| DateUtils.DateTimeOfMoment | src/utils/dateUtils.js:61-68 | a valid date from a text that is not a plain time shows as dd/MM/yyyy HH:mm |
| Js.StrictEqualsSound | src/mocks/handlers.js:568 | === implies equality, and NaN equals nothing |
| Js.ToNumber | src/mocks/handlers.js:576 | Number gives a number or NaN |
| Js.NumberOfIntText | src/mocks/handlers.js:576 | Number reads back an integer's decimal text |
| Js.NumberOfWord | src/mocks/handlers.js:576 | Number of a word is NaN |
| Js.ParseIntText | src/mocks/handlers.js:82-83 | parseInt gives a number or NaN |
| Js.ParseInt | src/mocks/handlers.js:82-83 | parseInt of a value is a number or NaN |
| Js.ParseIntNonNumeric | src/mocks/handlers.js:82-83 | parseInt of a word is NaN |
| Js.ParseIntNull | src/mocks/handlers.js:82-83 | parseInt of a missing parameter is NaN |
| Js.SliceWindow | src/mocks/handlers.js:95 | slice with non-negative bounds is the window cut to the list |
| Js.FloorDiv | src/mocks/handlers.js:102 | Math.floor of a quotient |
| Js.CeilDiv | src/mocks/handlers.js:102 | Math.ceil of a quotient |
| Js.RoundDiv | src/domain/models/Attendance.js:79 | Math.round of a quotient, halves upward |
| Js.PercentBounds | src/domain/models/Attendance.js:79 | a ratio in 0..1 rounds to a percentage in 0..100 |
| Js.PercentSum | src/domain/models/Attendance.js:249-261 | two complementary percentages add to at most 101 |
| Js.PercentEnds | src/domain/models/Attendance.js:79 | none is 0 percent and all is 100 |
| Js.Member | src/mocks/db.js:316 | property access throws exactly on null or undefined; a string's length is its number of UTF-16 code units |
| Js.LengthOf | src/presentation/hooks/useApi.js:171 | length of arrays, and of strings in UTF-16 code units |
| Js.CompareNumbers | src/presentation/hooks/useApi.js:171 | comparisons on numbers; undefined and NaN compare false |
| Js.Utf16 | src/presentation/hooks/useApi.js:171 | the UTF-16 code units of a string: between one and two per character in total, exactly one per character when none is astral, each below 0x10000 |
| Js.AstralLength | src/presentation/hooks/useApi.js:171 | three emoji are three characters but six code units |
| Js.UnitsOrderTotal | src/domain/models/Course.js:69 | the code-unit order of strings is a strict total order |
| Js.PrefixBefore | src/domain/models/Course.js:69 | a proper prefix sorts before the longer string |
| Js.TextComparison | src/domain/models/Course.js:69 | strings compare as text: "9" >= "10" holds and "10" < "9" |
| Js.StringsCompareTotally | src/domain/models/Course.js:69 | on strings >= is the negation of <, and holds exactly for equal strings or a smaller right side |
| Js.Utf16Injective | src/domain/models/Course.js:69 | different strings have different code units |
| Js.Primitive | src/domain/models/Course.js:69 | ToPrimitive makes an array or object its text and keeps every other value, without changing its Number reading |
| Js.LessThan | src/domain/models/Course.js:69 | `<`: when both sides are strings after ToPrimitive they compare by UTF-16 code units; otherwise as numbers, false when either is NaN |
| Js.AtLeast | src/domain/models/Course.js:69 | `>=`: when both sides are strings after ToPrimitive it is the negation of the code-unit order; otherwise numeric, false when either is NaN |
| Js.TextsCompareTotally | src/domain/models/Course.js:69 | when both sides are strings after ToPrimitive, >= is the negation of < and holds exactly for equal texts or a smaller right side |
| Js.NineAndTen | src/mocks/handlers.js:576 | Number reads "9" as 9 and "10" as 10 |
| Js.ArrayNineAgainstTen | src/domain/models/Course.js:69 | the array ["9"] becomes the text "9" and so is >= "10", although its Number is 9 |
| Js.CompareWithNumber | src/presentation/components/features/StatisticsCard.jsx:145-149 | with a number on one side, < and >= are numeric on the other side, NaN comparing false |
| Js.FalsyNumber | src/presentation/components/features/StatisticsCard.jsx:102 | a falsy value converts to 0 or NaN |
| Js.NumberOfDigits | src/mocks/handlers.js:576 | Number of a non-empty digit string is its decimal value |
| Js.Plus | src/domain/models/Attendance.js:79 | a string, array or object operand makes + concatenate the two texts; otherwise the Number sum, NaN when either side is not a number |
| Js.RoundedPercent | src/domain/models/Attendance.js:79 | Math.round of a quotient times 100: NaN exactly for a non-number or 0 over 0; a non-zero divisor gives the whole percentage; 0 as divisor gives the infinity of the dividend's sign |
| Js.Props | src/domain/models/Attendance.js:87-103 | destructuring throws exactly on null or undefined |
| Js.FindIndex | src/mocks/handlers.js:144 | the first index satisfying the test, or none |
| Js.Filter | src/mocks/handlers.js:90 | a kept element satisfies the test and comes from the list, every satisfying element is kept, and a one-element list is kept exactly when it passes; with `Js.FilterAppend` this fixes order and multiplicity |
| Js.FilterAppend | src/mocks/handlers.js:90 | filtering a concatenation concatenates the filtered parts, in order |
| Js.FilterMultiplicity | src/mocks/handlers.js:90 | a kept element occurs as often as in the list, a rejected one never |
| Js.FilterCongruent | src/usecases/users/userUseCases.js:46-59 | two tests that agree on every element filter alike |
| Js.FilterCount | src/mocks/handlers.js:90 | a filter keeping everything is the identity |
| Strings.IndexOf | src/presentation/router/AppRouter.jsx:41 | the first occurrence, or none |
| Strings.ContainsIff | src/usecases/users/userUseCases.js:57 | includes means some occurrence |
| Strings.CharIndex | src/utils/dateUtils.js:36 | the first occurrence of a character, or none |
| Strings.Split | src/utils/dateUtils.js:36 | split gives at least one piece, none containing the separator |
| Strings.JoinSplit | src/presentation/pages/admin/UserManagement.jsx:84-87 | joining a split with its separator gives the string back |
| Strings.SplitSingle | src/utils/dateUtils.js:36-37 | a string without the separator is one piece |
| Strings.Trim | src/presentation/pages/admin/UserManagement.jsx:84 | trim drops exactly the leading and trailing whitespace |
| Strings.TrimIdempotent | src/presentation/pages/admin/UserManagement.jsx:84 | trimming twice is trimming once |
| Strings.ToUpper | src/usecases/users/userUseCases.js:47 | upper-casing maps every character |

## Left out

- The clock and randomness. `Date.now()` ids, `toISOString` times and `generateUUID` tokens are arguments of the handlers.
- The fabricated random statistics and the index-based record statuses of the mock are not modelled. They depend on `Math.random` and a position counter.
- JWT creation and decoding are not modelled, and `Auth.js` is not part of this model. Encoding is not decision logic.
- `logoutUseCase`, `checkAuthUseCase`, `getCurrentUserUseCase` and `getMeUseCase` are not modelled. They only read or clear local storage or call the back end.
- Local storage writes (`saveDB`, `resetDB`) are not modelled. They are I/O. What a write leaves behind is covered by `MockDb.SaveThenGet`.
- The JSON round trip of `saveDB` and `getDB` is not modelled: `MockDb.SaveThenGet` reads back the stored value itself, while `JSON.stringify` turns `NaN` (a session started for a non-numeric course) into `null` and drops `undefined` fields.
- The axios client, the repository implementations and Excel export are not modelled. They are I/O with no decisions.
- React rendering is not modelled: layouts, modals, toasts as UI, QR camera and canvas.
- Floating point is not modelled. Numbers are integers, and percentages are exact rational round-half-up. Infinity and NaN are kept only where a rate divides by zero or by a non-number.
- How `new Date(input)` parses its input, and the local time zone, are not modelled. The reading is the parameter `DateUtils.DateReader`: an invalid date, or the fields the getters return.
- The second `/courses/my-courses` handler is not modelled. It is shadowed by the first.
- The mock's plain CRUD handlers are not modelled: subjects, semesters and courses, by-lecturer, by-student, course statistics, session lists, session records and record update. They only look up or replace an element.
- The login, GET/DELETE user and reset-password handlers are not modelled either. They are lookups without state changes beyond removal.
- `useApi` `execute` and `refresh`, and the default props of `Pagination`, are not modelled. They hold loading flags and re-issue the same fetch.
- The thin get, update and delete use cases of courses, semesters and subjects are not modelled. Each one calls the repository unchanged.
- Object-literal lookups are modelled as finite maps: `renderType`, the day names of `getScheduleText`, `getRoleDisplayText` and `getStatusText` read a key such as `constructor` or `toString` from `Object.prototype` in JavaScript, which the model passes through unchanged instead.
- `handleAction`'s use of `error.response.data.message` is not modelled; only the default message is.
- The course options, the type badge colour and `fetchUsers` of the admin page are not modelled. They are display only.
- `handleResetPassword` of the admin page is not modelled. It is a confirmation and a call of `ResetPassword`.
- React Router's route ranking is replaced by the first match in table order. The table has no overlapping patterns, so the two agree.
- Route matching takes a path as its list of segments. Percent-decoding, trailing slashes and case folding of non-ASCII letters are not modelled; every pattern of the table is lower-case ASCII, and letter case is ignored for ASCII letters.
- `useForm`'s `validate` schema is a sequence of field and rule pairs. An object's keys are unique, and the sequence may repeat a field.
- Strings.ToUpper: upper-cases ASCII letters only, because `toUpperCase` over Unicode is not modelled.
- AttendanceModel.AttendanceRecord.StatusColor: only the grey fallback for an unknown status is stated, because the colour classes are display only.
- DateUtils.FormatTime: states that a plain time stays a plain time; the exact cut is stated by `DateUtils.PlainTimeIsPrefix`.
- CourseModel.FullIffNoSlots: requires that the two counts are not both strings after ToPrimitive, because then `isFull` compares them as text while `getAvailableSlots` subtracts them as numbers; `CourseModel.StringCountsDisagree` shows "9" of "10" full with one slot left, and `CourseModel.ArrayCountDisagrees` the same for the array ["9"].

=== FILE: app_router.dfy ===
/** The routing decisions of `router/AppRouter.jsx`: role normalisation, the
    three route guards (`ProtectedRoute`, `PublicRoute`, `SmartRedirect`), and
    the route table that puts each page behind one of them. A path is given by
    its segments: `/admin/dashboard` is `["admin", "dashboard"]`, `/` is `[]`. */
module AppRouter {
  import opened Wrappers
  import opened Js
  import Strings
  import UserModel

  type Path = seq<string>

  const LoginPath: Path := ["login"]
  const AdminHome: Path := ["admin", "dashboard"]
  const LecturerHome: Path := ["lecturer", "dashboard"]
  const StudentHome: Path := ["student", "dashboard"]

  /** The redirect targets: the login page and the three dashboards. */
  predicate IsTarget(p: Path) {
    p == LoginPath || p == AdminHome || p == LecturerHome || p == StudentHome
  }

  /** `normalizeRole(role)`: `null` for a missing role, otherwise the first
      `ROLE_` anywhere in it removed; only a string has `replace`. */
  function NormalizeRole(role: Value): (r: Result<Value, Exception>)
    ensures !Truthy(role) ==> r == Success(Null)
    ensures Truthy(role) && !role.Str? ==> r == Failure(TypeError)
    ensures role.Str? && Truthy(role) ==> r == Success(Str(Strings.ReplaceFirst(role.s, "ROLE_", "")))
  {
    if !Truthy(role) then Success(Null)
    else if role.Str? then Success(Str(Strings.ReplaceFirst(role.s, "ROLE_", "")))
    else Failure(TypeError)
  }

  /** On a role that starts with `ROLE_` this agrees with the user model's
      normalisation. */
  lemma NormalizationsAgreeOnPrefix(base: string)
    ensures NormalizeRole(Str("ROLE_" + base)) == Success(Str(base))
    ensures UserModel.NormalizeRole(Str("ROLE_" + base)) == Success(base)
  {
    assert Strings.OccursAt("ROLE_" + base, "ROLE_", 0);
    assert Strings.IndexOf("ROLE_" + base, "ROLE_") == Some(0);
    assert ("ROLE_" + base)[..0] + "" + ("ROLE_" + base)[5..] == base;
    UserModel.NormalizeRoleOnce(base);
  }

  /** On a role that holds `ROLE_` further in, the two differ: the router
      removes it, the user model keeps the role as it is. */
  lemma NormalizationsDiffer()
    ensures NormalizeRole(Str("X_ROLE_ADMIN")) == Success(Str("X_ADMIN"))
    ensures UserModel.NormalizeRole(Str("X_ROLE_ADMIN")) == Success("X_ROLE_ADMIN")
  {
    var s := "X_ROLE_ADMIN";
    assert !Strings.OccursAt(s, "ROLE_", 0) by { assert s[0..5][0] == 'X'; }
    assert !Strings.OccursAt(s, "ROLE_", 1) by { assert s[1..6][0] == '_'; }
    assert Strings.OccursAt(s, "ROLE_", 2) by { assert s[2..7] == "ROLE_"; }
    assert Strings.IndexFrom(s, "ROLE_", 2) == Some(2);
    assert Strings.IndexFrom(s, "ROLE_", 1) == Some(2);
    assert Strings.IndexOf(s, "ROLE_") == Some(2);
    assert s[..2] + "" + s[7..] == "X_ADMIN";
    assert !Strings.StartsWith(s, UserModel.RolePrefix) by {
      assert s[0] != UserModel.RolePrefix[0];
    }
  }

  /** A role without `ROLE_` in it is left as it is. */
  lemma PlainRoleKept(role: string)
    requires role != "" && !Strings.Contains(role, "ROLE_")
    ensures NormalizeRole(Str(role)) == Success(Str(role))
  {
  }

  /** The dashboard of a normalised role, if it has one. */
  function Dashboard(role: Value): (r: Option<Path>)
    ensures r.Some? <==> role in {Str("ADMIN"), Str("SECRETARY"), Str("LECTURER"), Str("STUDENT")}
    ensures r == Some(AdminHome) <==> role == Str("ADMIN") || role == Str("SECRETARY")
    ensures r.Some? ==> IsTarget(r.value)
  {
    if StrictEquals(role, Str("ADMIN")) || StrictEquals(role, Str("SECRETARY")) then Some(AdminHome)
    else if StrictEquals(role, Str("LECTURER")) then Some(LecturerHome)
    else if StrictEquals(role, Str("STUDENT")) then Some(StudentHome)
    else None
  }

  /** What `useAuth()` supplies to a guard. */
  datatype Auth = Auth(isAuthenticated: Value, isLoading: Value, user: Value)

  /** What a guard renders: the loading page, a redirect, or the page itself. */
  datatype Decision = Loading | Redirect(to: Path) | Render

  /** `ProtectedRoute`: loading, then the login redirect, then the role check;
      a role outside `allowedRoles` goes to its own dashboard, or to login. */
  function Protected(auth: Auth, allowedRoles: seq<string>): (r: Result<Decision, Exception>)
    ensures Truthy(auth.isLoading) ==> r == Success(Loading)
    ensures !Truthy(auth.isLoading) && !Truthy(auth.isAuthenticated) ==> r == Success(Redirect(LoginPath))
    ensures r == Success(Render) <==>
      !Truthy(auth.isLoading) && Truthy(auth.isAuthenticated)
      && NormalizeRole(Field(auth.user, "role")).Success?
      && (|allowedRoles| == 0 || IncludesStr(allowedRoles, NormalizeRole(Field(auth.user, "role")).value))
    ensures r.Success? && r.value.Redirect? && Truthy(auth.isAuthenticated) ==>
      NormalizeRole(Field(auth.user, "role")).Success?
      && |allowedRoles| > 0 && !IncludesStr(allowedRoles, NormalizeRole(Field(auth.user, "role")).value)
      && r.value.to == Dashboard(NormalizeRole(Field(auth.user, "role")).value).GetOr(LoginPath)
    ensures r.Success? && r.value.Redirect? ==> IsTarget(r.value.to)
  {
    if Truthy(auth.isLoading) then Success(Loading)
    else if !Truthy(auth.isAuthenticated) then Success(Redirect(LoginPath))
    else
      var role :- NormalizeRole(Field(auth.user, "role"));
      if |allowedRoles| > 0 && !IncludesStr(allowedRoles, role) then
        Success(Redirect(Dashboard(role).GetOr(LoginPath)))
      else Success(Render)
  }

  /** The dashboard of a signed-in user with a role, if the role has one. */
  function SignedInDashboard(auth: Auth): (r: Result<Option<Path>, Exception>)
    ensures !Truthy(auth.isAuthenticated) || !Truthy(Field(auth.user, "role")) ==> r == Success(None)
    ensures Truthy(auth.isAuthenticated) && Truthy(Field(auth.user, "role")) ==>
      r == (if Field(auth.user, "role").Str? then Success(Dashboard(NormalizeRole(Field(auth.user, "role")).value))
            else Failure(TypeError))
  {
    if Truthy(auth.isAuthenticated) && Truthy(Field(auth.user, "role")) then
      var role :- NormalizeRole(Field(auth.user, "role"));
      Success(Dashboard(role))
    else Success(None)
  }

  /** `PublicRoute`: a signed-in user with a known role goes to the dashboard;
      everyone else sees the page. */
  function Public(auth: Auth): (r: Result<Decision, Exception>)
    ensures Truthy(auth.isLoading) ==> r == Success(Loading)
    ensures !Truthy(auth.isLoading) && !Truthy(auth.isAuthenticated) ==> r == Success(Render)
    ensures !Truthy(auth.isLoading) && SignedInDashboard(auth).Success? ==>
      r == Success(if SignedInDashboard(auth).value.Some? then Redirect(SignedInDashboard(auth).value.value) else Render)
    ensures r.Success? && r.value.Redirect? ==> IsTarget(r.value.to)
  {
    if Truthy(auth.isLoading) then Success(Loading)
    else
      var target :- SignedInDashboard(auth);
      Success(if target.Some? then Redirect(target.value) else Render)
  }

  /** `SmartRedirect`: the same mapping, but login instead of the page. */
  function Smart(auth: Auth): (r: Result<Decision, Exception>)
    ensures Truthy(auth.isLoading) ==> r == Success(Loading)
    ensures !Truthy(auth.isLoading) && SignedInDashboard(auth).Success? ==>
      r == Success(Redirect(SignedInDashboard(auth).value.GetOr(LoginPath)))
    ensures r.Success? ==> r.value != Render
    ensures r.Success? && r.value.Redirect? ==> IsTarget(r.value.to)
  {
    if Truthy(auth.isLoading) then Success(Loading)
    else
      var target :- SignedInDashboard(auth);
      Success(Redirect(target.GetOr(LoginPath)))
  }

  /** The guard a route is behind. */
  datatype Guard = PublicGuard | ProtectedGuard(allowedRoles: seq<string>) | SmartGuard

  /** A layout route of `AppRoutes`: the guard wrapping its layout and the
      paths of its child routes. A pattern segment starting with `:` matches
      any non-empty segment. */
  datatype Layout = Layout(guard: Guard, patterns: seq<Path>)

  const StaffRoles: seq<string> := ["ADMIN", "SECRETARY"]

  /** The route table of `AppRoutes`, in order: the public pages, the three
      guarded sections, and the default routes (`/`, `/dashboard` and the `*`
      fallback) that all render `SmartRedirect`. */
  const Layouts: seq<Layout> := [
    Layout(PublicGuard, [["login"], ["register"]]),
    Layout(ProtectedGuard(StaffRoles), [
      ["admin", "dashboard"], ["admin", "users"], ["admin", "semesters"],
      ["admin", "subjects"], ["admin", "courses"], ["admin", "profile"]]),
    Layout(ProtectedGuard(["LECTURER"]), [
      ["lecturer", "dashboard"], ["lecturer", "courses", ":courseId"],
      ["lecturer", "leave-requests"], ["lecturer", "profile"]]),
    Layout(ProtectedGuard(["STUDENT"]), [
      ["student", "dashboard"], ["student", "checkin"], ["student", "history"],
      ["student", "leave-requests"], ["student", "profile"]]),
    Layout(SmartGuard, [[], ["dashboard"]])]

  /** Two segments that differ at most in the case of ASCII letters. No route
      of the table sets `caseSensitive`, so each is matched by a regular
      expression with the `i` flag; outside Unicode mode that flag folds a
      character onto an ASCII letter only when the character is one, so for the
      ASCII patterns of the table it is exactly this comparison. */
  predicate SameIgnoringCase(a: string, b: string) {
    |a| == |b| && forall k :: 0 <= k < |a| ==> Strings.UpperChar(a[k]) == Strings.UpperChar(b[k])
  }

  /** A parameter segment matches any non-empty segment, a literal one the
      same word in any letter case. */
  predicate SegmentMatches(pattern: string, segment: string) {
    if |pattern| > 0 && pattern[0] == ':' then segment != "" else SameIgnoringCase(pattern, segment)
  }

  /** A path matches a pattern segment by segment. */
  predicate PathMatches(pattern: Path, path: Path) {
    if |pattern| == 0 then |path| == 0
    else |path| > 0 && SegmentMatches(pattern[0], path[0]) && PathMatches(pattern[1..], path[1..])
  }

  lemma {:induction false} PathMatchesPointwise(pattern: Path, path: Path)
    ensures PathMatches(pattern, path) <==>
      |pattern| == |path| && forall k :: 0 <= k < |path| ==> SegmentMatches(pattern[k], path[k])
    decreases |pattern|
  {
    if |pattern| > 0 && |path| > 0 {
      PathMatchesPointwise(pattern[1..], path[1..]);
    }
    if |pattern| == |path| > 0 {
      assert forall k :: 1 <= k < |path| ==> pattern[1..][k - 1] == pattern[k] && path[1..][k - 1] == path[k];
    }
  }

  /** Some child route of a layout matches the path. */
  predicate AnyMatches(patterns: seq<Path>, path: Path) {
    |patterns| > 0 && (PathMatches(patterns[0], path) || AnyMatches(patterns[1..], path))
  }

  lemma {:induction false} AnyMatchesIff(patterns: seq<Path>, path: Path)
    ensures AnyMatches(patterns, path) <==> exists j :: 0 <= j < |patterns| && PathMatches(patterns[j], path)
  {
    if |patterns| > 0 {
      AnyMatchesIff(patterns[1..], path);
      if exists j :: 0 <= j < |patterns| && PathMatches(patterns[j], path) {
        var j :| 0 <= j < |patterns| && PathMatches(patterns[j], path);
        if j > 0 {
          assert patterns[1..][j - 1] == patterns[j];
        }
      }
    }
  }

  /** The guard of the first layout from index `i` on with a matching child,
      else the `*` fallback. */
  function GuardFrom(path: Path, i: nat): (g: Guard)
    requires i <= |Layouts|
    ensures g == SmartGuard || exists k :: i <= k < |Layouts| && Layouts[k].guard == g
    decreases |Layouts| - i
  {
    if i == |Layouts| then SmartGuard
    else if AnyMatches(Layouts[i].patterns, path) then Layouts[i].guard
    else GuardFrom(path, i + 1)
  }

  /** With no matching route from index `i` on, the lookup falls back. */
  lemma {:induction false} NoMatchFallsBack(path: Path, i: nat)
    requires i <= |Layouts|
    requires forall k, j :: i <= k < |Layouts| && 0 <= j < |Layouts[k].patterns| ==>
      !PathMatches(Layouts[k].patterns[j], path)
    ensures GuardFrom(path, i) == SmartGuard
    decreases |Layouts| - i
  {
    if i < |Layouts| {
      AnyMatchesIff(Layouts[i].patterns, path);
      NoMatchFallsBack(path, i + 1);
    }
  }

  /** The first layout with a matching child decides, whatever comes after it. */
  lemma {:induction false} FirstMatchWins(path: Path, i: nat, k: nat, j: nat)
    requires i <= k < |Layouts| && j < |Layouts[k].patterns| && PathMatches(Layouts[k].patterns[j], path)
    requires forall k', j' :: i <= k' < k && 0 <= j' < |Layouts[k'].patterns| ==>
      !PathMatches(Layouts[k'].patterns[j'], path)
    ensures GuardFrom(path, i) == Layouts[k].guard
    decreases k - i
  {
    AnyMatchesIff(Layouts[i].patterns, path);
    if i < k {
      FirstMatchWins(path, i + 1, k, j);
    }
  }

  /** Paths whose segments differ only in letter case. */
  predicate SamePathIgnoringCase(a: Path, b: Path) {
    |a| == |b| && forall k :: 0 <= k < |a| ==> SameIgnoringCase(a[k], b[k])
  }

  lemma {:induction false} PathMatchIgnoresCase(pattern: Path, a: Path, b: Path)
    requires SamePathIgnoringCase(a, b)
    ensures PathMatches(pattern, a) == PathMatches(pattern, b)
    decreases |pattern|
  {
    if |pattern| > 0 && |a| > 0 {
      assert SameIgnoringCase(a[0], b[0]);
      assert SamePathIgnoringCase(a[1..], b[1..]) by {
        forall k | 0 <= k < |a[1..]| ensures SameIgnoringCase(a[1..][k], b[1..][k]) {
          assert a[1..][k] == a[k + 1] && b[1..][k] == b[k + 1];
        }
      }
      PathMatchIgnoresCase(pattern[1..], a[1..], b[1..]);
    }
  }

  lemma {:induction false} AnyMatchesIgnoresCase(patterns: seq<Path>, a: Path, b: Path)
    requires SamePathIgnoringCase(a, b)
    ensures AnyMatches(patterns, a) == AnyMatches(patterns, b)
  {
    if |patterns| > 0 {
      PathMatchIgnoresCase(patterns[0], a, b);
      AnyMatchesIgnoresCase(patterns[1..], a, b);
    }
  }

  /** The layout lookup does not depend on letter case. */
  lemma {:induction false} GuardFromIgnoresCase(a: Path, b: Path, i: nat)
    requires i <= |Layouts| && SamePathIgnoringCase(a, b)
    ensures GuardFrom(a, i) == GuardFrom(b, i)
    decreases |Layouts| - i
  {
    if i < |Layouts| {
      AnyMatchesIgnoresCase(Layouts[i].patterns, a, b);
      GuardFromIgnoresCase(a, b, i + 1);
    }
  }

  /** `/Login` lands on the login page like `/login`. */
  lemma LoginInAnyCase()
    ensures GuardOf(["Login"]) == PublicGuard
  {
    assert SameIgnoringCase("login", "Login");
  }

  /** The guard of the page a path lands on. */
  function GuardOf(path: Path): Guard {
    GuardFrom(path, 0)
  }

  /** The decision for a visit to a path. */
  function Visit(auth: Auth, path: Path): (r: Result<Decision, Exception>)
    ensures Truthy(auth.isLoading) ==> r == Success(Loading)
    ensures r.Success? && r.value.Redirect? ==> IsTarget(r.value.to)
    ensures GuardOf(path) == SmartGuard ==> r != Success(Render)
    ensures GuardOf(path).ProtectedGuard? && !Truthy(auth.isLoading) && !Truthy(auth.isAuthenticated) ==>
      r == Success(Redirect(LoginPath))
    ensures GuardOf(path) == PublicGuard && !Truthy(auth.isLoading) && !Truthy(auth.isAuthenticated) ==>
      r == Success(Render)
  {
    match GuardOf(path)
    case PublicGuard => Public(auth)
    case ProtectedGuard(allowed) => Protected(auth, allowed)
    case SmartGuard => Smart(auth)
  }

  /** Where each redirect target lands in the table. */
  lemma TargetGuards()
    ensures GuardOf(LoginPath) == PublicGuard
    ensures GuardOf(AdminHome) == ProtectedGuard(StaffRoles)
    ensures GuardOf(LecturerHome) == ProtectedGuard(["LECTURER"])
    ensures GuardOf(StudentHome) == ProtectedGuard(["STUDENT"])
  {
    assert AnyMatches(Layouts[0].patterns, LoginPath);
    NoneMatchFirst(Layouts[0].patterns, AdminHome);
    assert AnyMatches(Layouts[1].patterns, AdminHome);
    LecturerHomeGuard();
    StudentHomeGuard();
  }

  /** No child route matches a path whose first segment none of them accepts. */
  lemma {:induction false} NoneMatchFirst(patterns: seq<Path>, path: Path)
    requires |path| > 0
    requires forall j :: 0 <= j < |patterns| ==> |patterns[j]| > 0 && !SegmentMatches(patterns[j][0], path[0])
    ensures !AnyMatches(patterns, path)
    decreases |patterns|
  {
    if |patterns| > 0 {
      assert forall j :: 1 <= j < |patterns| ==> patterns[1..][j - 1] == patterns[j];
      NoneMatchFirst(patterns[1..], path);
    }
  }

  lemma LecturerHomeGuard()
    ensures GuardOf(LecturerHome) == ProtectedGuard(["LECTURER"])
  {
    NoneMatchFirst(Layouts[0].patterns, LecturerHome);
    NoneMatchFirst(Layouts[1].patterns, LecturerHome);
    assert AnyMatches(Layouts[2].patterns, LecturerHome);
  }

  lemma StudentHomeGuard()
    ensures GuardOf(StudentHome) == ProtectedGuard(["STUDENT"])
  {
    NoneMatchFirst(Layouts[0].patterns, StudentHome);
    NoneMatchFirst(Layouts[1].patterns, StudentHome);
    NoneMatchFirst(Layouts[2].patterns, StudentHome);
    assert AnyMatches(Layouts[3].patterns, StudentHome);
  }

  /** Every dashboard a role is sent to admits that role. */
  lemma DashboardAdmitsRole(role: Value)
    requires Dashboard(role).Some?
    ensures GuardOf(Dashboard(role).value).ProtectedGuard?
    ensures IncludesStr(GuardOf(Dashboard(role).value).allowedRoles, role)
  {
    TargetGuards();
    if role == Str("ADMIN") || role == Str("SECRETARY") {
      assert Dashboard(role) == Some(AdminHome);
      assert IncludesStr(StaffRoles, role);
    } else if role == Str("LECTURER") {
      assert Dashboard(role) == Some(LecturerHome);
      assert IncludesStr(["LECTURER"], role);
    } else {
      assert Dashboard(role) == Some(StudentHome);
      assert IncludesStr(["STUDENT"], role);
    }
  }

  /** No redirect loop: whenever the guard of a page redirects a user whose
      role can be normalised, the page it redirects to renders for that same
      user. */
  lemma RedirectsSettle(auth: Auth, path: Path)
    requires NormalizeRole(Field(auth.user, "role")).Success?
    requires Visit(auth, path).Success? && Visit(auth, path).value.Redirect?
    ensures Visit(auth, Visit(auth, path).value.to) == Success(Render)
  {
    var role := NormalizeRole(Field(auth.user, "role")).value;
    RedirectTarget(auth, path);
    if Visit(auth, path).value.to == LoginPath {
      LoginRenders(auth);
    } else {
      DashboardRenders(auth);
    }
  }

  /** A redirect goes to login for a user without a dashboard, and to the
      dashboard of the user's role otherwise. */
  lemma RedirectTarget(auth: Auth, path: Path)
    requires NormalizeRole(Field(auth.user, "role")).Success?
    requires Visit(auth, path).Success? && Visit(auth, path).value.Redirect?
    ensures !Truthy(auth.isLoading)
    ensures var to := Visit(auth, path).value.to;
      var role := NormalizeRole(Field(auth.user, "role")).value;
      (to == LoginPath && (!Truthy(auth.isAuthenticated) || Dashboard(role).None?))
      || (Truthy(auth.isAuthenticated) && Dashboard(role) == Some(to))
  {
    var role := NormalizeRole(Field(auth.user, "role")).value;
    if !Truthy(Field(auth.user, "role")) {
      assert role == Null;
    }
  }

  /** Login renders for a signed-out user and for one whose role has no
      dashboard. */
  lemma LoginRenders(auth: Auth)
    requires !Truthy(auth.isLoading) && NormalizeRole(Field(auth.user, "role")).Success?
    requires !Truthy(auth.isAuthenticated) || Dashboard(NormalizeRole(Field(auth.user, "role")).value).None?
    ensures Visit(auth, LoginPath) == Success(Render)
  {
    TargetGuards();
    if !Truthy(Field(auth.user, "role")) {
      assert NormalizeRole(Field(auth.user, "role")).value == Null;
    }
  }

  /** A user's own dashboard renders for them. */
  lemma DashboardRenders(auth: Auth)
    requires !Truthy(auth.isLoading) && Truthy(auth.isAuthenticated)
    requires NormalizeRole(Field(auth.user, "role")).Success?
    requires Dashboard(NormalizeRole(Field(auth.user, "role")).value).Some?
    ensures Visit(auth, Dashboard(NormalizeRole(Field(auth.user, "role")).value).value) == Success(Render)
  {
    DashboardAdmitsRole(NormalizeRole(Field(auth.user, "role")).value);
  }

  /** A signed-out user is sent to login from every protected page and from
      the default routes, and login renders for them. */
  lemma SignedOutGoesToLogin(auth: Auth, allowedRoles: seq<string>)
    requires !Truthy(auth.isLoading) && !Truthy(auth.isAuthenticated)
    ensures Protected(auth, allowedRoles) == Success(Redirect(LoginPath))
    ensures Smart(auth) == Success(Redirect(LoginPath))
    ensures Visit(auth, LoginPath) == Success(Render)
  {
    TargetGuards();
  }

  /** A role without the letter `O` has no `ROLE_` to remove. */
  lemma NoOWithoutPrefix(s: string)
    requires 'O' !in s
    ensures Strings.IndexOf(s, "ROLE_") == None
  {
    forall i | 0 <= i <= |s| ensures !Strings.OccursAt(s, "ROLE_", i) {
      if i + 5 <= |s| {
        assert s[i..i + 5][1] == s[i + 1];
      }
    }
  }

  /** The secretary role, with or without the prefix, normalises to `SECRETARY`. */
  lemma SecretaryNormalized()
    ensures NormalizeRole(Str("ROLE_SECRETARY")) == Success(Str("SECRETARY"))
    ensures NormalizeRole(Str("SECRETARY")) == Success(Str("SECRETARY"))
  {
    NormalizationsAgreeOnPrefix("SECRETARY");
    assert "ROLE_" + "SECRETARY" == "ROLE_SECRETARY";
    PlainSecretary();
  }

  lemma PlainSecretary()
    ensures NormalizeRole(Str("SECRETARY")) == Success(Str("SECRETARY"))
  {
    var s := "SECRETARY";
    assert 'O' !in s;
    NoOWithoutPrefix(s);
  }

  /** A secretary passes the staff guard, with or without the prefix. */
  lemma SecretaryIsStaff(auth: Auth, user: Record)
    requires !Truthy(auth.isLoading) && Truthy(auth.isAuthenticated) && auth.user == Obj(user)
    requires Get(user, "role") == Str("ROLE_SECRETARY") || Get(user, "role") == Str("SECRETARY")
    ensures Protected(auth, StaffRoles) == Success(Render)
  {
    SecretaryNormalized();
    assert Field(auth.user, "role") == Get(user, "role");
    assert IncludesStr(StaffRoles, Str("SECRETARY"));
  }
}

=== FILE: attendance_model.dfy ===
/** The attendance entities of `domain/models/Attendance.js`: a session, one
    student's record in a session, and a student's statistics in a course. Each
    class keeps whatever values its constructor is given, so the fields are
    JavaScript values; `fromApi` maps a back-end object onto the constructor. */
module AttendanceModel {
  import opened Wrappers
  import opened Js
  import DateUtils
  import Strings

  /** SESSION_STATUS. */
  const SessionStatuses: seq<string> := ["OPEN", "CLOSED"]

  /** ATTENDANCE_STATUS. */
  const AttendanceStatuses: seq<string> := ["PRESENT", "ABSENT", "LATE", "EXCUSED"]

  datatype AttendanceSession = AttendanceSession(
    id: Value,
    courseId: Value,
    courseName: Value,
    status: Value,
    qrCodeData: Value,
    startTime: Value,
    endTime: Value,
    date: Value,
    totalStudents: Value,
    presentCount: Value,
    absentCount: Value,
    lateCount: Value,
    excusedCount: Value)
  {
    /** `isOpen()`: the status is exactly the string OPEN. */
    function IsOpen(): (r: bool)
      ensures r <==> status == Str("OPEN")
    {
      StrictEquals(status, Str("OPEN"))
    }

    /** `isClosed()`: the status is exactly the string CLOSED. */
    function IsClosed(): (r: bool)
      ensures r <==> status == Str("CLOSED")
    {
      StrictEquals(status, Str("CLOSED"))
    }

    /** `getFormattedDate()`: the session date as dd/MM/yyyy, '-' when it is
        missing or not a valid date. */
    function FormattedDate(read: DateUtils.DateReader): (r: string)
      ensures r == "-" <==> !Truthy(date) || read(date).Invalid?
      ensures Truthy(date) && read(date).Moment? ==> r == DateUtils.DateText(read(date))
    {
      DateUtils.FormatDate(date, read)
    }

    /** The counts the rate is usually computed on: all three are numbers. */
    predicate HasNumericCounts() {
      totalStudents.Num? && presentCount.Num? && lateCount.Num?
    }

    /** `getAttendanceRate()`: 0 when the total is the number 0; otherwise
        `Math.round(((presentCount + lateCount) / totalStudents) * 100)` with
        JavaScript's `+` and division. On numbers and a positive total this is
        the whole percentage nearest to the share of present and late students;
        a `null` total is not caught by the guard and divides by zero. */
    function AttendanceRate(): (r: Rounded)
      ensures totalStudents == Num(0) ==> r == Whole(0)
      ensures HasNumericCounts() && totalStudents.n > 0 ==>
        r.Whole? && 2 * r.n * totalStudents.n - totalStudents.n <= 200 * (presentCount.n + lateCount.n)
        < 2 * r.n * totalStudents.n + totalStudents.n
      ensures totalStudents.Null? && presentCount.Num? && lateCount.Num? ==>
        (presentCount.n + lateCount.n > 0 ==> r == PlusInfinity)
        && (presentCount.n + lateCount.n == 0 ==> r == NotANumber)
    {
      if StrictEquals(totalStudents, Num(0)) then Whole(0)
      else RoundedPercent(Plus(presentCount, lateCount), totalStudents)
    }

    /** `getTimeRange()`: empty without a start time, otherwise "start - end",
        with 'Đang mở' (still open) standing for a missing end time. */
    function TimeRange(read: DateUtils.DateReader): (r: string)
      ensures !Truthy(startTime) ==> r == ""
      ensures Truthy(startTime) && !Truthy(endTime) ==>
        r == DateUtils.FormatTime(startTime, read) + " - " + "Đang mở"
      ensures Truthy(startTime) && Truthy(endTime) ==>
        r == DateUtils.FormatTime(startTime, read) + " - " + DateUtils.FormatTime(endTime, read)
    {
      if !Truthy(startTime) then ""
      else
        var start := DateUtils.FormatTime(startTime, read);
        var end := if Truthy(endTime) then DateUtils.FormatTime(endTime, read) else "Đang mở";
        start + " - " + end
    }
  }

  /** A session whose start and end are plain time strings shows each cut to
      hours and minutes, joined by " - ", whatever the `Date` reading. */
  lemma PlainTimeRange(s: AttendanceSession, a: string, b: string, d1: DateUtils.DateReader, d2: DateUtils.DateReader)
    requires s.startTime == Str(a) && s.endTime == Str(b)
    requires DateUtils.IsPlainTime(a) && DateUtils.IsPlainTime(b)
    ensures s.TimeRange(d1) == s.TimeRange(d2)
    ensures exists t, u :: (s.TimeRange(d1) == t + " - " + u && t <= a && u <= b
      && DateUtils.IsPlainTime(t) && DateUtils.IsPlainTime(u))
  {
    assert Truthy(s.startTime) && Truthy(s.endTime) by { assert a != "" && b != ""; }
    DateUtils.PlainTimeIgnoresDate(a, d1, d2);
    DateUtils.PlainTimeIgnoresDate(b, d1, d2);
    DateUtils.PlainTimeIsPrefix(a, d1);
    DateUtils.PlainTimeIsPrefix(b, d1);
    var t := DateUtils.FormatTime(Str(a), d1);
    var u := DateUtils.FormatTime(Str(b), d1);
    assert s.TimeRange(d1) == t + " - " + u;
  }

  /** `new AttendanceSession(args)`: every missing (`undefined`) argument takes its default. */
  function NewSession(args: Record): (s: AttendanceSession)
    ensures KeptOrDefault(Get(args, "id"), s.id, Null)
      && KeptOrDefault(Get(args, "courseId"), s.courseId, Null)
      && KeptOrDefault(Get(args, "courseName"), s.courseName, Str(""))
      && KeptOrDefault(Get(args, "status"), s.status, Str("CLOSED"))
      && KeptOrDefault(Get(args, "qrCodeData"), s.qrCodeData, Str(""))
      && KeptOrDefault(Get(args, "startTime"), s.startTime, Null)
      && KeptOrDefault(Get(args, "endTime"), s.endTime, Null)
      && KeptOrDefault(Get(args, "date"), s.date, Null)
      && KeptOrDefault(Get(args, "totalStudents"), s.totalStudents, Num(0))
      && KeptOrDefault(Get(args, "presentCount"), s.presentCount, Num(0))
      && KeptOrDefault(Get(args, "absentCount"), s.absentCount, Num(0))
      && KeptOrDefault(Get(args, "lateCount"), s.lateCount, Num(0))
      && KeptOrDefault(Get(args, "excusedCount"), s.excusedCount, Num(0))
  {
    AttendanceSession(
      Default(Get(args, "id"), Null),
      Default(Get(args, "courseId"), Null),
      Default(Get(args, "courseName"), Str("")),
      Default(Get(args, "status"), Str("CLOSED")),
      Default(Get(args, "qrCodeData"), Str("")),
      Default(Get(args, "startTime"), Null),
      Default(Get(args, "endTime"), Null),
      Default(Get(args, "date"), Null),
      Default(Get(args, "totalStudents"), Num(0)),
      Default(Get(args, "presentCount"), Num(0)),
      Default(Get(args, "absentCount"), Num(0)),
      Default(Get(args, "lateCount"), Num(0)),
      Default(Get(args, "excusedCount"), Num(0)))
  }

  /** A session built with no arguments is closed, has no id and counts nothing. */
  lemma NewSessionDefaults()
    ensures var s := NewSession(map[]);
      s.IsClosed() && !s.IsOpen() && s.id == Null && s.HasNumericCounts() && s.AttendanceRate() == Whole(0)
  {
  }

  /** `AttendanceSession.fromApi(data)` on an object: the constructor applied
      to the object's fields. The id falls back to `sessionId` when `id` is
      falsy and the date to `startTime` when `date` is. */
  function SessionFromApi(data: Record): (s: AttendanceSession)
    ensures Truthy(Get(data, "id")) ==> s.id == data["id"]
    ensures !Truthy(Get(data, "id")) ==> s.id == Default(Get(data, "sessionId"), Null)
    ensures Truthy(Get(data, "date")) ==> s.date == data["date"]
    ensures !Truthy(Get(data, "date")) ==> s.date == Default(Get(data, "startTime"), Null)
    ensures Get(data, "status").Undefined? ==> s.IsClosed()
    ensures !Get(data, "status").Undefined? ==> s.status == data["status"]
    ensures !Get(data, "courseId").Undefined? ==> s.courseId == data["courseId"]
    ensures !Get(data, "presentCount").Undefined? ==> s.presentCount == data["presentCount"]
  {
    AttendanceSession(
      Default(Or(Get(data, "id"), Get(data, "sessionId")), Null),
      Default(Get(data, "courseId"), Null),
      Default(Get(data, "courseName"), Str("")),
      Default(Get(data, "status"), Str("CLOSED")),
      Default(Get(data, "qrCodeData"), Str("")),
      Default(Get(data, "startTime"), Null),
      Default(Get(data, "endTime"), Null),
      Default(Or(Get(data, "date"), Get(data, "startTime")), Null),
      Default(Get(data, "totalStudents"), Num(0)),
      Default(Get(data, "presentCount"), Num(0)),
      Default(Get(data, "absentCount"), Num(0)),
      Default(Get(data, "lateCount"), Num(0)),
      Default(Get(data, "excusedCount"), Num(0)))
  }

  /** `AttendanceSession.fromApi(response)` on whatever the back end returned:
      `null` or `undefined` makes the property reads throw. */
  function SessionFromResponse(response: Value): (r: Result<AttendanceSession, Exception>)
    ensures r.Failure? <==> response.Undefined? || response.Null?
    ensures response.Obj? ==> r == Success(SessionFromApi(response.fields))
  {
    var data :- Props(response);
    Success(SessionFromApi(data))
  }

  /** The object a session would be sent back as, one key per field. */
  function SessionToRecord(s: AttendanceSession): Record {
    map[
      "id" := s.id, "courseId" := s.courseId, "courseName" := s.courseName,
      "status" := s.status, "qrCodeData" := s.qrCodeData, "startTime" := s.startTime,
      "endTime" := s.endTime, "date" := s.date, "totalStudents" := s.totalStudents,
      "presentCount" := s.presentCount, "absentCount" := s.absentCount,
      "lateCount" := s.lateCount, "excusedCount" := s.excusedCount]
  }

  /** No field holds `undefined`, the id is truthy or `null`, and a falsy date
      equals the start time: then `fromApi` reads the session back unchanged. */
  predicate Reloadable(s: AttendanceSession) {
    && !s.courseId.Undefined? && !s.courseName.Undefined? && !s.status.Undefined?
    && !s.qrCodeData.Undefined? && !s.startTime.Undefined? && !s.endTime.Undefined?
    && !s.totalStudents.Undefined? && !s.presentCount.Undefined? && !s.absentCount.Undefined?
    && !s.lateCount.Undefined? && !s.excusedCount.Undefined?
    && (Truthy(s.id) || s.id.Null?)
    && (Truthy(s.date) || s.date == s.startTime)
  }

  /** `fromApi` reads back a reloadable session, and only a reloadable one. */
  lemma SessionRoundTrip(s: AttendanceSession)
    ensures SessionFromApi(SessionToRecord(s)) == s <==> Reloadable(s)
  {
  }

  /** A session is never both open and closed; with a status of either
      constant it is exactly one of them. */
  lemma SessionStatusExclusive(s: AttendanceSession)
    ensures !(s.IsOpen() && s.IsClosed())
    ensures IncludesStr(SessionStatuses, s.status) <==> s.IsOpen() || s.IsClosed()
  {
  }

  /** A rate over counts that do not exceed the class size is a percentage. */
  lemma {:induction false} SessionRateBounds(s: AttendanceSession)
    requires s.HasNumericCounts()
    requires 0 <= s.presentCount.n && 0 <= s.lateCount.n
    requires s.presentCount.n + s.lateCount.n <= s.totalStudents.n
    ensures s.AttendanceRate().Whole? && 0 <= s.AttendanceRate().n <= 100
    ensures s.totalStudents.n > 0 && s.presentCount.n + s.lateCount.n == s.totalStudents.n ==>
      s.AttendanceRate() == Whole(100)
  {
    if s.totalStudents.n > 0 {
      PercentBounds(s.presentCount.n + s.lateCount.n, s.totalStudents.n);
      if s.presentCount.n + s.lateCount.n == s.totalStudents.n {
        PercentEnds(s.totalStudents.n);
      }
    }
  }

  /** A total sent as a numeric string is converted by the division: the rate
      is that of the same session with the number itself. */
  lemma TextTotalConverted(s: AttendanceSession, t: string)
    requires s.totalStudents == Str(t) && StringToNumber(t).Num? && StringToNumber(t).n != 0
    requires s.presentCount.Num? && s.lateCount.Num?
    ensures s.AttendanceRate() == s.(totalStudents := StringToNumber(t)).AttendanceRate()
    ensures s.AttendanceRate() == Whole(Percent(s.presentCount.n + s.lateCount.n, StringToNumber(t).n))
  {
  }

  /** A count sent as a string is concatenated, not added: "3" and 1 present
      and late out of 40 read as 31 out of 40, which rounds to 78. */
  lemma TextCountConcatenated(s: AttendanceSession)
    requires s.presentCount == Str("3") && s.lateCount == Num(1) && s.totalStudents == Num(40)
    ensures s.AttendanceRate() == Whole(78)
  {
    ThreeAndOne();
    assert Percent(31, 40) == RoundDiv(3100, 40) == FloorDiv(6240, 80) == 78;
  }

  lemma ThreeAndOne()
    ensures ToNumber(Plus(Str("3"), Num(1))) == Num(31)
  {
    OneText();
    assert Plus(Str("3"), Num(1)) == Str("3" + "1");
    assert "3" + "1" == "31";
    ThirtyOne();
  }

  lemma OneText()
    ensures Text(Num(1)) == "1"
  {
    assert Strings.NatText(1) == ['0' + 1 as char];
  }

  lemma ThirtyOne()
    ensures ToNumber(Str("31")) == Num(31)
  {
    var t := "31";
    assert AllDigits(t) by {
      assert IsDigit(t[0]) && IsDigit(t[1]);
    }
    NumberOfDigits(t);
    assert t[..1] == "3" && t[..1][..0] == "";
  }

  /** The Vietnamese label of an attendance status key, if it has one. */
  function StatusLabel(key: string): Option<string> {
    if key == "PRESENT" then Some("Có mặt")
    else if key == "ABSENT" then Some("Vắng mặt")
    else if key == "LATE" then Some("Đi trễ")
    else if key == "EXCUSED" then Some("Có phép")
    else None
  }

  /** The colour classes of an attendance status key, if it has them. */
  function StatusColorClasses(key: string): Option<string> {
    if key == "PRESENT" then Some("text-green-600 bg-green-100")
    else if key == "ABSENT" then Some("text-red-600 bg-red-100")
    else if key == "LATE" then Some("text-yellow-600 bg-yellow-100")
    else if key == "EXCUSED" then Some("text-blue-600 bg-blue-100")
    else None
  }

  datatype AttendanceRecord = AttendanceRecord(
    id: Value,
    sessionId: Value,
    studentId: Value,
    studentCode: Value,
    studentName: Value,
    checkInTime: Value,
    status: Value,
    note: Value)
  {
    /** `isPresent()`: the status is exactly the string PRESENT. */
    function IsPresent(): (r: bool)
      ensures r <==> status == Str("PRESENT")
    {
      StrictEquals(status, Str("PRESENT"))
    }

    /** `isAbsent()`: the status is exactly the string ABSENT. */
    function IsAbsent(): (r: bool)
      ensures r <==> status == Str("ABSENT")
    {
      StrictEquals(status, Str("ABSENT"))
    }

    /** `isLate()`: the status is exactly the string LATE. */
    function IsLate(): (r: bool)
      ensures r <==> status == Str("LATE")
    {
      StrictEquals(status, Str("LATE"))
    }

    /** `isExcused()`: the status is exactly the string EXCUSED. */
    function IsExcused(): (r: bool)
      ensures r <==> status == Str("EXCUSED")
    {
      StrictEquals(status, Str("EXCUSED"))
    }

    /** `getStatusText()`: the object lookup converts the status to a property
        key, so anything printing as a known status gets its label; any other
        status is shown as it is. */
    function StatusText(): (r: Value)
      ensures StatusLabel(Text(status)).Some? ==> r == Str(StatusLabel(Text(status)).value)
      ensures StatusLabel(Text(status)).None? ==> r == status
    {
      match StatusLabel(Text(status))
      case Some(shown) => Str(shown)
      case None => status
    }

    /** `getFormattedCheckInTime()`: the check-in time as HH:mm, '-' when it
        is missing; a plain time string is cut without going through `Date`. */
    function FormattedCheckInTime(read: DateUtils.DateReader): (r: string)
      ensures !Truthy(checkInTime) ==> r == "-"
      ensures checkInTime.Str? && DateUtils.IsPlainTime(checkInTime.s) ==> DateUtils.IsPlainTime(r)
      ensures Truthy(checkInTime) && !(checkInTime.Str? && DateUtils.IsPlainTime(checkInTime.s)) ==>
        (r == "-" <==> read(checkInTime).Invalid?)
    {
      DateUtils.FormatTime(checkInTime, read)
    }

    /** `getStatusColor()`: grey for an unknown status. */
    function StatusColor(): (r: string)
      ensures StatusColorClasses(Text(status)).None? ==> r == "text-gray-600 bg-gray-100"
    {
      StatusColorClasses(Text(status)).GetOr("text-gray-600 bg-gray-100")
    }
  }

  /** `new AttendanceRecord(args)`. */
  function NewRecord(args: Record): (r: AttendanceRecord)
    ensures KeptOrDefault(Get(args, "id"), r.id, Null)
      && KeptOrDefault(Get(args, "sessionId"), r.sessionId, Null)
      && KeptOrDefault(Get(args, "studentId"), r.studentId, Null)
      && KeptOrDefault(Get(args, "studentCode"), r.studentCode, Str(""))
      && KeptOrDefault(Get(args, "studentName"), r.studentName, Str(""))
      && KeptOrDefault(Get(args, "checkInTime"), r.checkInTime, Null)
      && KeptOrDefault(Get(args, "status"), r.status, Str("ABSENT"))
      && KeptOrDefault(Get(args, "note"), r.note, Str(""))
  {
    AttendanceRecord(
      Default(Get(args, "id"), Null),
      Default(Get(args, "sessionId"), Null),
      Default(Get(args, "studentId"), Null),
      Default(Get(args, "studentCode"), Str("")),
      Default(Get(args, "studentName"), Str("")),
      Default(Get(args, "checkInTime"), Null),
      Default(Get(args, "status"), Str("ABSENT")),
      Default(Get(args, "note"), Str("")))
  }

  /** `AttendanceRecord.fromApi(data)`: the status falls back to `attendanceStatus`
      when `status` is falsy, and to ABSENT when that is missing too. */
  function RecordFromApi(data: Record): (r: AttendanceRecord)
    ensures Truthy(Get(data, "status")) ==> r.status == data["status"]
    ensures !Truthy(Get(data, "status")) && !Get(data, "attendanceStatus").Undefined? ==>
      r.status == data["attendanceStatus"]
    ensures !Truthy(Get(data, "status")) && Get(data, "attendanceStatus").Undefined? ==> r.IsAbsent()
    ensures !Get(data, "studentId").Undefined? ==> r.studentId == data["studentId"]
  {
    NewRecord(map[
      "id" := Get(data, "id"),
      "sessionId" := Get(data, "sessionId"),
      "studentId" := Get(data, "studentId"),
      "studentCode" := Get(data, "studentCode"),
      "studentName" := Get(data, "studentName"),
      "checkInTime" := Get(data, "checkInTime"),
      "status" := Or(Get(data, "status"), Get(data, "attendanceStatus")),
      "note" := Get(data, "note")])
  }

  /** `AttendanceRecord.fromApi` on a list element of any shape. */
  function RecordFromResponse(item: Value): (r: Result<AttendanceRecord, Exception>)
    ensures r.Failure? <==> item.Undefined? || item.Null?
    ensures item.Obj? ==> r == Success(RecordFromApi(item.fields))
  {
    var data :- Props(item);
    Success(RecordFromApi(data))
  }

  /** Exactly one status predicate holds for each ATTENDANCE_STATUS constant and
      none for any other status; each constant is shown by its own label. */
  lemma RecordStatusClassification(r: AttendanceRecord)
    ensures IncludesStr(AttendanceStatuses, r.status) <==>
      r.IsPresent() || r.IsAbsent() || r.IsLate() || r.IsExcused()
    ensures !(r.IsPresent() && r.IsAbsent()) && !(r.IsPresent() && r.IsLate())
    ensures !(r.IsPresent() && r.IsExcused()) && !(r.IsAbsent() && r.IsLate())
    ensures !(r.IsAbsent() && r.IsExcused()) && !(r.IsLate() && r.IsExcused())
    ensures IncludesStr(AttendanceStatuses, r.status) ==>
      r.StatusText().Str? && r.StatusText() != r.status
  {
  }

  /** The four labels are distinct, so the label tells the status apart. */
  lemma StatusLabelsDistinct(a: string, b: string)
    requires StatusLabel(a).Some? && StatusLabel(b).Some?
    ensures StatusLabel(a) == StatusLabel(b) <==> a == b
  {
  }

  /** A record read from an object with a falsy status and no
      `attendanceStatus` is an absence. */
  lemma RecordMissingStatusIsAbsent(data: Record)
    requires !Truthy(Get(data, "status"))
    requires Get(data, "attendanceStatus").Undefined?
    ensures RecordFromApi(data).IsAbsent()
    ensures RecordFromApi(data).StatusText() == Str("Vắng mặt")
  {
  }

  datatype StudentStatistics = StudentStatistics(
    studentId: Value,
    studentCode: Value,
    studentName: Value,
    totalSessions: Value,
    presentSessions: Value,
    absentSessions: Value,
    lateSessions: Value,
    excusedSessions: Value,
    isBanned: Value)
  {
    predicate HasNumericTotals() {
      totalSessions.Num? && presentSessions.Num? && absentSessions.Num? && lateSessions.Num?
    }

    /** `getAttendanceRate()`: attended (present or late) sessions as the nearest
        whole percentage of all sessions, under the same JavaScript arithmetic
        as the session rate; 0 when the total is the number 0. */
    function AttendedRate(): (r: Rounded)
      ensures totalSessions == Num(0) ==> r == Whole(0)
      ensures HasNumericTotals() && totalSessions.n > 0 ==>
        r.Whole? && 2 * r.n * totalSessions.n - totalSessions.n <= 200 * (presentSessions.n + lateSessions.n)
        < 2 * r.n * totalSessions.n + totalSessions.n
      ensures totalSessions.Null? && presentSessions.Num? && lateSessions.Num? ==>
        (presentSessions.n + lateSessions.n > 0 ==> r == PlusInfinity)
        && (presentSessions.n + lateSessions.n == 0 ==> r == NotANumber)
    {
      if StrictEquals(totalSessions, Num(0)) then Whole(0)
      else RoundedPercent(Plus(presentSessions, lateSessions), totalSessions)
    }

    /** `getAbsenceRate()`: absent sessions as the nearest whole percentage;
        here no addition is involved, so a numeric string count is converted. */
    function AbsenceRate(): (r: Rounded)
      ensures totalSessions == Num(0) ==> r == Whole(0)
      ensures HasNumericTotals() && totalSessions.n > 0 ==>
        r.Whole? && 2 * r.n * totalSessions.n - totalSessions.n <= 200 * absentSessions.n
        < 2 * r.n * totalSessions.n + totalSessions.n
      ensures totalSessions.Null? && absentSessions.Num? ==>
        (absentSessions.n > 0 ==> r == PlusInfinity) && (absentSessions.n == 0 ==> r == NotANumber)
    {
      if StrictEquals(totalSessions, Num(0)) then Whole(0)
      else RoundedPercent(absentSessions, totalSessions)
    }
  }

  /** `new StudentStatistics(args)`. */
  function NewStatistics(args: Record): (r: StudentStatistics)
    ensures KeptOrDefault(Get(args, "studentId"), r.studentId, Null)
      && KeptOrDefault(Get(args, "studentCode"), r.studentCode, Str(""))
      && KeptOrDefault(Get(args, "studentName"), r.studentName, Str(""))
      && KeptOrDefault(Get(args, "totalSessions"), r.totalSessions, Num(0))
      && KeptOrDefault(Get(args, "presentSessions"), r.presentSessions, Num(0))
      && KeptOrDefault(Get(args, "absentSessions"), r.absentSessions, Num(0))
      && KeptOrDefault(Get(args, "lateSessions"), r.lateSessions, Num(0))
      && KeptOrDefault(Get(args, "excusedSessions"), r.excusedSessions, Num(0))
      && KeptOrDefault(Get(args, "isBanned"), r.isBanned, Bool(false))
  {
    StudentStatistics(
      Default(Get(args, "studentId"), Null),
      Default(Get(args, "studentCode"), Str("")),
      Default(Get(args, "studentName"), Str("")),
      Default(Get(args, "totalSessions"), Num(0)),
      Default(Get(args, "presentSessions"), Num(0)),
      Default(Get(args, "absentSessions"), Num(0)),
      Default(Get(args, "lateSessions"), Num(0)),
      Default(Get(args, "excusedSessions"), Num(0)),
      Default(Get(args, "isBanned"), Bool(false)))
  }

  /** `StudentStatistics.fromApi(data)`: each key is taken as it is, defaulted when missing. */
  function StatisticsFromApi(data: Record): (r: StudentStatistics)
    ensures forall k :: k in StatisticsKeys && !Get(data, k).Undefined? ==> StatisticsField(r, k) == data[k]
    ensures Get(data, "isBanned").Undefined? ==> r.isBanned == Bool(false)
  {
    NewStatistics(map k | k in StatisticsKeys :: Get(data, k))
  }

  const StatisticsKeys: set<string> := {
    "studentId", "studentCode", "studentName", "totalSessions", "presentSessions",
    "absentSessions", "lateSessions", "excusedSessions", "isBanned" }

  /** The field of a statistics object called `key`. */
  function StatisticsField(r: StudentStatistics, key: string): Value {
    if key == "studentId" then r.studentId
    else if key == "studentCode" then r.studentCode
    else if key == "studentName" then r.studentName
    else if key == "totalSessions" then r.totalSessions
    else if key == "presentSessions" then r.presentSessions
    else if key == "absentSessions" then r.absentSessions
    else if key == "lateSessions" then r.lateSessions
    else if key == "excusedSessions" then r.excusedSessions
    else if key == "isBanned" then r.isBanned
    else Undefined
  }

  /** When present, late and absent sessions do not exceed all sessions, both
      rates are percentages, and rounding can make them add up to 101 but no more. */
  lemma {:induction false} StatisticsRatesBounds(r: StudentStatistics)
    requires r.HasNumericTotals()
    requires 0 <= r.presentSessions.n && 0 <= r.lateSessions.n && 0 <= r.absentSessions.n
    requires r.presentSessions.n + r.lateSessions.n + r.absentSessions.n <= r.totalSessions.n
    ensures r.AttendedRate().Whole? && r.AbsenceRate().Whole?
    ensures 0 <= r.AttendedRate().n <= 100 && 0 <= r.AbsenceRate().n <= 100
    ensures r.AttendedRate().n + r.AbsenceRate().n <= 101
  {
    var t := r.totalSessions.n;
    if t > 0 {
      var a := r.presentSessions.n + r.lateSessions.n;
      var b := r.absentSessions.n;
      PercentBounds(a, t);
      PercentBounds(b, t);
      PercentSum(a, b, t);
    }
  }

  /** One present and seven absent out of eight sessions: 13% and 88%. */
  lemma StatisticsRatesReach101()
    ensures var r := NewStatistics(map[
        "totalSessions" := Num(8), "presentSessions" := Num(1), "absentSessions" := Num(7)]);
      r.AttendedRate() == Whole(13) && r.AbsenceRate() == Whole(88)
      && r.AttendedRate().n + r.AbsenceRate().n == 101
  {
    var r := NewStatistics(map[
        "totalSessions" := Num(8), "presentSessions" := Num(1), "absentSessions" := Num(7)]);
    assert r.totalSessions == Num(8) && r.presentSessions == Num(1);
    assert r.lateSessions == Num(0) && r.absentSessions == Num(7);
    assert Percent(1, 8) == RoundDiv(100, 8) == FloorDiv(208, 16) == 13;
    assert Percent(7, 8) == RoundDiv(700, 8) == FloorDiv(1408, 16) == 88;
  }
}

=== FILE: attendance_use_cases.dfy ===
/** The attendance use cases of `usecases/attendance/attendanceUseCases.js`:
    argument checks in front of the repository calls, and the normalisation of
    list responses into sessions and records. */
module AttendanceUseCases {
  import opened Wrappers
  import opened Js
  import opened UseCaseSupport
  import opened AttendanceModel

  const NoCourseId: Exception := Error("Course ID không được để trống")
  const NoSessionId: Exception := Error("Session ID không được để trống")
  const BadQrCode: Exception := Error("Mã QR không hợp lệ")
  const NoCourseChosen: Exception := Error("Vui lòng chọn lớp học")
  const NoRecordId: Exception := Error("Record ID không được để trống")
  const BadStatus: Exception := Error("Trạng thái không hợp lệ")

  /** `startSessionUseCase(courseId)`: the repository gets `{ courseId }` and
      its response is read as a session. */
  function StartSession(courseId: Value, startSession: Call): (r: Result<AttendanceSession, Exception>)
    ensures !Truthy(courseId) ==> r == Failure(NoCourseId)
    ensures Truthy(courseId) && startSession(Obj(map["courseId" := courseId])).Failure? ==>
      r == Failure(startSession(Obj(map["courseId" := courseId])).error)
    ensures Truthy(courseId) && startSession(Obj(map["courseId" := courseId])).Success? ==>
      r == SessionFromResponse(startSession(Obj(map["courseId" := courseId])).value)
  {
    if !Truthy(courseId) then Failure(NoCourseId) else
    var response :- startSession(Obj(map["courseId" := courseId]));
    SessionFromResponse(response)
  }

  /** `closeSessionUseCase(courseId)`: the repository gets `{ courseId }` (not a
      session id) and its response is returned as it is. */
  function CloseSession(courseId: Value, closeSession: Call): (r: Result<Value, Exception>)
    ensures !Truthy(courseId) ==> r == Failure(NoCourseId)
    ensures Truthy(courseId) ==> r == closeSession(Obj(map["courseId" := courseId]))
  {
    if !Truthy(courseId) then Failure(NoCourseId) else
    closeSession(Obj(map["courseId" := courseId]))
  }

  /** The request `checkInUseCase` sends: the token, the course, and no location. */
  function CheckInPayload(qrCodeData: Value, courseId: Value): Value {
    Obj(map["qrCodeData" := qrCodeData, "courseId" := courseId, "latitude" := Null, "longitude" := Null])
  }

  /** `checkInUseCase(checkInData)`: the token is checked before the course,
      and whatever the repository answers, success or error, is passed on. */
  function CheckIn(checkInData: Value, checkIn: Call): (r: Result<Value, Exception>)
    ensures (checkInData.Undefined? || checkInData.Null?) ==> r == Failure(TypeError)
    ensures checkInData.Obj? ==>
      var qr := Get(checkInData.fields, "qrCodeData");
      var course := Get(checkInData.fields, "courseId");
      (!Truthy(qr) ==> r == Failure(BadQrCode))
      && (Truthy(qr) && !Truthy(course) ==> r == Failure(NoCourseChosen))
      && (Truthy(qr) && Truthy(course) ==> r == checkIn(CheckInPayload(qr, course)))
  {
    var data :- Props(checkInData);
    var qr := Get(data, "qrCodeData");
    var course := Get(data, "courseId");
    if !Truthy(qr) then Failure(BadQrCode) else
    if !Truthy(course) then Failure(NoCourseChosen) else
    checkIn(CheckInPayload(qr, course))
  }

  /** With neither a token nor a course, the missing token is reported, and
      no repository is consulted for any invalid request. */
  lemma CheckInValidationFirst(checkInData: Record, one: Call, other: Call)
    requires !Truthy(Get(checkInData, "qrCodeData")) || !Truthy(Get(checkInData, "courseId"))
    ensures CheckIn(Obj(checkInData), one) == CheckIn(Obj(checkInData), other)
    ensures !Truthy(Get(checkInData, "qrCodeData")) ==> CheckIn(Obj(checkInData), one) == Failure(BadQrCode)
  {
  }

  /** A list use case's response as a list: an array is itself, otherwise its
      `content`, otherwise empty. */
  function ListItems(response: Value): (r: Result<seq<Value>, Exception>)
    ensures response.Arr? ==> r == Success(response.items)
    ensures response.Obj? && Get(response.fields, "content").Arr? ==>
      r == Success(Get(response.fields, "content").items)
    ensures response.Obj? && !Truthy(Get(response.fields, "content")) ==> r == Success([])
    ensures response.Obj? && Truthy(Get(response.fields, "content")) && !Get(response.fields, "content").Arr? ==>
      r == Failure(TypeError)
    ensures (response.Undefined? || response.Null?) ==> r == Failure(TypeError)
  {
    var list :- ListFrom(response);
    if list.Arr? then Success(list.items) else Failure(TypeError)
  }

  /** `getSessionsByCourseUseCase(courseId)`. */
  function SessionsByCourse(courseId: Value, getSessions: Call): (r: Result<seq<AttendanceSession>, Exception>)
    ensures !Truthy(courseId) ==> r == Failure(NoCourseId)
    ensures Truthy(courseId) && getSessions(courseId).Failure? ==> r == Failure(getSessions(courseId).error)
    ensures Truthy(courseId) && getSessions(courseId).Success? && ListItems(getSessions(courseId).value).Success? ==>
      r == MapAll(ListItems(getSessions(courseId).value).value, SessionFromResponse)
  {
    if !Truthy(courseId) then Failure(NoCourseId) else
    var response :- getSessions(courseId);
    var items :- ListItems(response);
    MapAll(items, SessionFromResponse)
  }

  /** Every session of a plain list of objects is read with `fromApi`, in order. */
  lemma SessionsByCourseReadsEach(courseId: Value, getSessions: Call, items: seq<Value>)
    requires Truthy(courseId) && getSessions(courseId) == Success(Arr(items))
    requires forall k :: 0 <= k < |items| ==> items[k].Obj?
    ensures SessionsByCourse(courseId, getSessions).Success?
    ensures var ss := SessionsByCourse(courseId, getSessions).value;
      |ss| == |items| && forall k :: 0 <= k < |items| ==> ss[k] == SessionFromApi(items[k].fields)
  {
  }

  /** `getSessionRecordsUseCase(sessionId)`. */
  function SessionRecords(sessionId: Value, getRecords: Call): (r: Result<seq<AttendanceRecord>, Exception>)
    ensures !Truthy(sessionId) ==> r == Failure(NoSessionId)
    ensures Truthy(sessionId) && getRecords(sessionId).Failure? ==> r == Failure(getRecords(sessionId).error)
    ensures Truthy(sessionId) && getRecords(sessionId).Success? && ListItems(getRecords(sessionId).value).Success? ==>
      r == MapAll(ListItems(getRecords(sessionId).value).value, RecordFromResponse)
  {
    if !Truthy(sessionId) then Failure(NoSessionId) else
    var response :- getRecords(sessionId);
    var items :- ListItems(response);
    MapAll(items, RecordFromResponse)
  }

  /** A paged response of records is read from its `content`, and records
      without a status come out ABSENT. */
  lemma SessionRecordsFromPage(sessionId: Value, getRecords: Call, page: Record, items: seq<Record>)
    requires Truthy(sessionId) && getRecords(sessionId) == Success(Obj(page))
    requires Get(page, "content") == Arr(seq(|items|, k requires 0 <= k < |items| => Obj(items[k])))
    ensures SessionRecords(sessionId, getRecords).Success?
    ensures var rs := SessionRecords(sessionId, getRecords).value;
      |rs| == |items|
      && forall k :: 0 <= k < |items| ==> (rs[k] == RecordFromApi(items[k])
        && (!Truthy(Get(items[k], "status")) && Get(items[k], "attendanceStatus").Undefined? ==> rs[k].IsAbsent()))
  {
    var content := seq(|items|, k requires 0 <= k < |items| => Obj(items[k]));
    assert ListItems(Obj(page)) == Success(content);
    forall k | 0 <= k < |items|
      ensures !Truthy(Get(items[k], "status")) && Get(items[k], "attendanceStatus").Undefined? ==>
        RecordFromApi(items[k]).IsAbsent()
    {
      if !Truthy(Get(items[k], "status")) && Get(items[k], "attendanceStatus").Undefined? {
        RecordMissingStatusIsAbsent(items[k]);
      }
    }
  }

  /** `getStudentHistoryUseCase(courseId)`: the list is returned without any
      reading, so a truthy non-list `content` comes back as it is. */
  function StudentHistory(courseId: Value, getHistory: Call): (r: Result<Value, Exception>)
    ensures !Truthy(courseId) ==> r == Failure(NoCourseId)
    ensures Truthy(courseId) && getHistory(courseId).Success? ==> r == ListFrom(getHistory(courseId).value)
    ensures r.Success? ==> Truthy(r.value)
  {
    if !Truthy(courseId) then Failure(NoCourseId) else
    var response :- getHistory(courseId);
    ListFrom(response)
  }

  /** The statuses a record may be updated to. */
  const ValidStatuses: seq<string> := ["PRESENT", "ABSENT", "EXCUSED", "LATE"]

  /** The repository call of an update: the record id and the request body. */
  type UpdateCall = (Value, Value) -> Result<Value, Exception>

  /** `updateRecordUseCase(recordId, status)`: a missing record id is reported
      before an invalid status. */
  function UpdateRecord(recordId: Value, status: Value, updateRecord: UpdateCall): (r: Result<Value, Exception>)
    ensures !Truthy(recordId) ==> r == Failure(NoRecordId)
    ensures Truthy(recordId) && !IncludesStr(ValidStatuses, status) ==> r == Failure(BadStatus)
    ensures Truthy(recordId) && IncludesStr(ValidStatuses, status) ==>
      r == updateRecord(recordId, Obj(map["status" := status]))
  {
    if !Truthy(recordId) then Failure(NoRecordId) else
    if !IncludesStr(ValidStatuses, status) then Failure(BadStatus) else
    updateRecord(recordId, Obj(map["status" := status]))
  }

  /** The accepted statuses are exactly the four record statuses of the model. */
  lemma UpdateRecordStatuses(recordId: Value, s: string, updateRecord: UpdateCall)
    requires Truthy(recordId)
    ensures s in AttendanceStatuses ==> UpdateRecord(recordId, Str(s), updateRecord) == updateRecord(recordId, Obj(map["status" := Str(s)]))
    ensures s in AttendanceStatuses <==> IncludesStr(ValidStatuses, Str(s))
  {
  }
}

=== FILE: auth_use_cases.dfy ===
/** The authentication use cases of `usecases/auth/authUseCases.js`: the login
    input check and the student sign-up validation chain (required fields, the
    e-mail pattern, the password length). */
module AuthUseCases {
  import opened Wrappers
  import opened Js
  import opened UseCaseSupport
  import Strings

  const NoCredentials: Exception := Error("Username và password không được để trống")
  const BadEmail: Exception := Error("Email không đúng định dạng")
  const ShortPassword: Exception := Error("Mật khẩu phải có ít nhất 6 ký tự")

  /** The repository's login call: username and password. */
  type LoginCall = (Value, Value) -> Result<Value, Exception>

  /** `loginUseCase(username, password)` up to the response it reads: both
      credentials must be non-empty before the repository is asked. */
  function Login(username: Value, password: Value, login: LoginCall): (r: Result<Value, Exception>)
    ensures !Truthy(username) || !Truthy(password) ==> r == Failure(NoCredentials)
    ensures Truthy(username) && Truthy(password) ==> r == login(username, password)
  {
    if !(Truthy(username) && Truthy(password)) then Failure(NoCredentials) else
    login(username, password)
  }

  /** A character of the class `[^\s@]`. */
  predicate Plain(c: char) {
    !Strings.IsWhitespace(c) && c != '@'
  }

  /** The language of `/^[^\s@]+@[^\s@]+\.[^\s@]+$/`: one `@` with something
      before it, and after it a `.` with something on both sides; no whitespace
      and no other `@` anywhere. */
  predicate EmailShape(s: string) {
    exists i, j :: 0 < i && i + 1 < j && j + 1 < |s| && s[i] == '@' && s[j] == '.'
      && forall k :: 0 <= k < |s| && k != i ==> Plain(s[k])
  }

  /** A left-to-right scan deciding the pattern: it remembers the `@` and the
      first `.` at least two places after it. */
  method MatchEmail(s: string) returns (ok: bool)
    ensures ok <==> EmailShape(s)
  {
    var at: int := -1;
    var dot: int := -1;
    var k := 0;
    while k < |s|
      invariant 0 <= k <= |s|
      invariant forall m :: 0 <= m < k ==> !Strings.IsWhitespace(s[m])
      invariant at == -1 ==> forall m :: 0 <= m < k ==> s[m] != '@'
      invariant at != -1 ==> 0 < at < k && s[at] == '@'
      invariant at != -1 ==> forall m :: 0 <= m < k && m != at ==> s[m] != '@'
      invariant at == -1 ==> dot == -1
      invariant dot != -1 ==> at + 2 <= dot < k && s[dot] == '.'
      invariant dot != -1 ==> forall m :: at + 2 <= m < dot ==> s[m] != '.'
      invariant at != -1 && dot == -1 ==> forall m :: at + 2 <= m < k ==> s[m] != '.'
    {
      var c := s[k];
      if Strings.IsWhitespace(c) {
        NoMatchWithBadChar(s, k);
        return false;
      }
      if c == '@' {
        if at != -1 {
          NoMatchWithTwoAts(s, at, k);
          return false;
        }
        if k == 0 {
          NoMatchWithLeadingAt(s);
          return false;
        }
        at := k;
      } else if c == '.' && at != -1 && dot == -1 && k >= at + 2 {
        dot := k;
      }
      k := k + 1;
    }
    ok := at != -1 && dot != -1 && dot + 1 < |s|;
    if ok {
      assert forall m :: 0 <= m < |s| && m != at ==> Plain(s[m]);
      assert 0 < at && at + 1 < dot && dot + 1 < |s| && s[at] == '@' && s[dot] == '.';
    } else {
      ScanRejects(s, at, dot);
    }
  }

  /** What the scan knows at the end when it found no `@`, no `.` after it, or
      nothing after that `.`: then no split of the string fits the pattern. */
  lemma ScanRejects(s: string, at: int, dot: int)
    requires forall m :: 0 <= m < |s| ==> !Strings.IsWhitespace(s[m])
    requires at == -1 ==> forall m :: 0 <= m < |s| ==> s[m] != '@'
    requires at != -1 ==> 0 < at < |s| && s[at] == '@'
    requires at != -1 ==> forall m :: 0 <= m < |s| && m != at ==> s[m] != '@'
    requires at == -1 ==> dot == -1
    requires dot != -1 ==> at + 2 <= dot < |s| && s[dot] == '.'
    requires dot != -1 ==> forall m :: at + 2 <= m < dot ==> s[m] != '.'
    requires at != -1 && dot == -1 ==> forall m :: at + 2 <= m < |s| ==> s[m] != '.'
    requires !(at != -1 && dot != -1 && dot + 1 < |s|)
    ensures !EmailShape(s)
  {
  }

  lemma NoMatchWithBadChar(s: string, k: nat)
    requires k < |s| && Strings.IsWhitespace(s[k])
    ensures !EmailShape(s)
  {
  }

  lemma NoMatchWithTwoAts(s: string, a: nat, b: nat)
    requires a < b < |s| && s[a] == '@' && s[b] == '@'
    ensures !EmailShape(s)
  {
  }

  lemma NoMatchWithLeadingAt(s: string)
    requires |s| > 0 && s[0] == '@'
    ensures !EmailShape(s)
  {
  }

  /** A few strings on each side of the pattern. */
  lemma EmailExamples()
    ensures EmailShape("a@b.c")
    ensures !EmailShape("a@b") && !EmailShape("@b.c") && !EmailShape("a@.c") && !EmailShape("a@b.")
    ensures !EmailShape("a@b@c.d") && !EmailShape("a b@c.d")
  {
    var s := "a@b.c";
    assert 0 < 1 && 1 + 1 < 3 && 3 + 1 < |s| && s[1] == '@' && s[3] == '.';
    assert forall k :: 0 <= k < |s| && k != 1 ==> Plain(s[k]);
    NoMatchWithLeadingAt("@b.c");
    NoMatchWithTwoAts("a@b@c.d", 1, 3);
    NoMatchWithBadChar("a b@c.d", 1);
    NotShape("a@b");
    NotShape("a@.c");
    NotShape("a@b.");
  }

  /** Strings too short after the `@` to hold both parts. */
  lemma NotShape(s: string)
    requires |s| >= 2 && s[1] == '@' && (forall k :: 0 <= k < |s| && k != 1 ==> s[k] != '@')
    requires forall k :: 3 <= k < |s| - 1 ==> s[k] != '.'
    ensures !EmailShape(s)
  {
  }

  /** The fields a sign-up needs, in the order they are checked. */
  const SignUpRequired: seq<string> := ["username", "password", "email", "fullName", "studentCode"]

  /** The checks of `registerStudentUseCase` on an object: required fields,
      then the e-mail pattern (on `String(email)`), then the password length. A
      password without a `length` (a number, say) passes the length check,
      since `undefined < 6` is false. */
  function CheckSignUp(data: Record): (r: Outcome<Exception>)
    ensures RequireFields(data, SignUpRequired).Fail? ==> r == RequireFields(data, SignUpRequired)
    ensures RequireFields(data, SignUpRequired).Pass? && !EmailShape(Text(Get(data, "email"))) ==> r == Fail(BadEmail)
    ensures RequireFields(data, SignUpRequired).Pass? && EmailShape(Text(Get(data, "email"))) ==>
      (r == Fail(ShortPassword) <==> LessThan(LengthOf(Get(data, "password")), Num(6)))
      && (r.Pass? <==> !LessThan(LengthOf(Get(data, "password")), Num(6)))
  {
    if RequireFields(data, SignUpRequired).Fail? then RequireFields(data, SignUpRequired)
    else
      assert Truthy(Get(data, SignUpRequired[1])) && Truthy(Get(data, SignUpRequired[2]));
      if !EmailShape(Text(Get(data, "email"))) then Fail(BadEmail)
      else
        if LessThan(LengthOf(Get(data, "password")), Num(6)) then Fail(ShortPassword) else Pass
  }

  /** `registerStudentUseCase(studentData)`: the repository's answer is passed on. */
  function RegisterStudent(studentData: Value, registerStudent: Call): (r: Result<Value, Exception>)
    ensures (studentData.Undefined? || studentData.Null?) ==> r == Failure(TypeError)
    ensures studentData.Obj? && CheckSignUp(studentData.fields).Fail? ==>
      r == Failure(CheckSignUp(studentData.fields).error)
    ensures studentData.Obj? && CheckSignUp(studentData.fields).Pass? ==> r == registerStudent(studentData)
  {
    var data :- Props(studentData);
    :- CheckSignUp(data);
    registerStudent(studentData)
  }

  /** The password check counts the UTF-16 code units of a string password:
      five are too few and six are enough, once the e-mail is well formed. */
  lemma StringPasswordLength(data: Record, p: string)
    requires RequireFields(data, SignUpRequired).Pass? && EmailShape(Text(Get(data, "email")))
    requires Get(data, "password") == Str(p)
    ensures CheckSignUp(data) == Fail(ShortPassword) <==> |Utf16(p)| < 6
    ensures CheckSignUp(data).Pass? <==> |Utf16(p)| >= 6
  {
    CompareNumbers(|Utf16(p)|, 6);
  }

  /** Three characters beyond U+FFFF make a long enough password: each counts twice. */
  lemma AstralPasswordPasses(data: Record)
    requires RequireFields(data, SignUpRequired).Pass? && EmailShape(Text(Get(data, "email")))
    requires Get(data, "password") == Str("😀😀😀")
    ensures CheckSignUp(data).Pass?
  {
    AstralLength();
    StringPasswordLength(data, "😀😀😀");
  }

  /** A numeric password, however small, passes the length check: a number has
      no `length`, and `undefined < 6` is false. */
  lemma NumericPasswordPasses(data: Record, n: int)
    requires RequireFields(data, SignUpRequired).Pass? && EmailShape(Text(Get(data, "email")))
    requires Get(data, "password") == Num(n)
    ensures CheckSignUp(data).Pass?
  {
  }

  /** A bad e-mail is reported before a short password. */
  lemma EmailBeforePassword(data: Record)
    requires RequireFields(data, SignUpRequired).Pass? && !EmailShape(Text(Get(data, "email")))
    requires Get(data, "password") == Str("1")
    ensures CheckSignUp(data) == Fail(BadEmail)
  {
  }
}

=== FILE: course_model.dfy ===
/** The course entities of `domain/models/Course.js`: a course section, a
    semester and a subject. The constructors keep whatever values they are given,
    so the fields are JavaScript values; `fromApi` normalises the several shapes
    in which the back end describes a course. */
module CourseModel {
  import opened Wrappers
  import opened Js
  import Strings

  /** DAYS_OF_WEEK. */
  const DaysOfWeek: seq<string> :=
    ["MONDAY", "TUESDAY", "WEDNESDAY", "THURSDAY", "FRIDAY", "SATURDAY", "SUNDAY"]

  /** The Vietnamese name of a day key, if it is one of DAYS_OF_WEEK. */
  function DayName(key: string): Option<string> {
    if key == "MONDAY" then Some("Thứ 2")
    else if key == "TUESDAY" then Some("Thứ 3")
    else if key == "WEDNESDAY" then Some("Thứ 4")
    else if key == "THURSDAY" then Some("Thứ 5")
    else if key == "FRIDAY" then Some("Thứ 6")
    else if key == "SATURDAY" then Some("Thứ 7")
    else if key == "SUNDAY" then Some("Chủ nhật")
    else None
  }

  datatype Course = Course(
    id: Value,
    courseCode: Value,
    name: Value,
    subjectId: Value,
    subjectName: Value,
    subjectCode: Value,
    semesterId: Value,
    semesterName: Value,
    lecturerId: Value,
    lecturerName: Value,
    dayOfWeek: Value,
    startTime: Value,
    endTime: Value,
    room: Value,
    credits: Value,
    maxStudents: Value,
    currentStudents: Value,
    createdAt: Value)
  {
    /** The day as shown: its Vietnamese name, or the raw value for an unknown day. */
    function Day(): (r: Value)
      ensures DayName(Text(dayOfWeek)).Some? ==> r == Str(DayName(Text(dayOfWeek)).value)
      ensures DayName(Text(dayOfWeek)).None? ==> r == dayOfWeek
    {
      match DayName(Text(dayOfWeek))
      case Some(d) => Str(d)
      case None => dayOfWeek
    }

    /** `getScheduleText()`: "day (start - end)". */
    function ScheduleText(): (r: string)
      ensures Strings.StartsWith(r, Text(Day()) + " (")
      ensures |r| > 0 && r[|r| - 1] == ')'
      ensures var head := Text(Day()) + " (";
        |head| < |r| && r[|head|..|r| - 1] == Text(startTime) + " - " + Text(endTime)
    {
      var head := Text(Day()) + " (";
      var times := Text(startTime) + " - " + Text(endTime);
      var r := head + (times + ")");
      assert r[..|head|] == head;
      assert r[|head|..|r| - 1] == times;
      r
    }

    /** `isFull()`: `currentStudents >= maxStudents`. Both sides go through
        `ToPrimitive` (an array or object becomes its text); two strings then
        compare as text, anything else as numbers. */
    function IsFull(): (r: bool)
      ensures currentStudents.Num? && maxStudents.Num? ==> (r <==> currentStudents.n >= maxStudents.n)
      ensures !(Primitive(currentStudents).Str? && Primitive(maxStudents).Str?) ==>
        (r <==> ToNumber(currentStudents).Num? && ToNumber(maxStudents).Num?
                && ToNumber(currentStudents).n >= ToNumber(maxStudents).n)
      ensures Primitive(currentStudents).Str? && Primitive(maxStudents).Str? ==>
        (r <==> Text(currentStudents) == Text(maxStudents) || LessThan(maxStudents, currentStudents))
    {
      TextsCompareTotally(currentStudents, maxStudents);
      AtLeast(currentStudents, maxStudents)
    }

    /** `getAvailableSlots()`: `Math.max(0, maxStudents - currentStudents)`; the
        subtraction converts both sides to numbers and `NaN` propagates. */
    function AvailableSlots(): (r: Value)
      ensures r.Num? <==> ToNumber(maxStudents).Num? && ToNumber(currentStudents).Num?
      ensures r.Num? ==> r.n >= 0 && r.n >= ToNumber(maxStudents).n - ToNumber(currentStudents).n
      ensures r.Num? && r.n > 0 ==> r.n == ToNumber(maxStudents).n - ToNumber(currentStudents).n
    {
      var m := ToNumber(maxStudents);
      var c := ToNumber(currentStudents);
      if m.Num? && c.Num? then Num(if m.n - c.n > 0 then m.n - c.n else 0) else NaN
    }
  }

  /** A course whose counts are not both strings after `ToPrimitive` is full
      exactly when it has no available slot. */
  lemma FullIffNoSlots(c: Course)
    requires !(Primitive(c.currentStudents).Str? && Primitive(c.maxStudents).Str?)
    ensures c.IsFull() <==> c.AvailableSlots() == Num(0)
  {
  }

  /** An array count is compared as its text too: `["9"]` of "10" is full,
      yet `Number(["9"])` is 9 and one slot is left. */
  lemma ArrayCountDisagrees(c: Course)
    requires c.currentStudents == Arr([Str("9")]) && c.maxStudents == Str("10")
    ensures c.IsFull() && c.AvailableSlots() == Num(1)
  {
    ArrayNineAgainstTen();
    NineAndTen();
  }

  /** With both counts strings the two disagree: "9" of "10" is full, because
      "9" sorts after "10", yet one slot is left. */
  lemma StringCountsDisagree(c: Course)
    requires c.currentStudents == Str("9") && c.maxStudents == Str("10")
    ensures c.IsFull() && c.AvailableSlots() == Num(1)
  {
    TextComparison();
    NineAndTen();
  }

  /** Every day constant is shown by its own name, and two different days by two
      different names. */
  lemma DayNamesDistinct(a: string, b: string)
    requires a in DaysOfWeek && b in DaysOfWeek
    ensures DayName(a).Some? && DayName(b).Some?
    ensures DayName(a) == DayName(b) <==> a == b
  {
  }

  /** `new Course({...})` with its arguments in declaration order: a given
      argument is kept, an `undefined` one takes its default, so no field is
      left `undefined`. */
  function Construct(
    id: Value, courseCode: Value, name: Value, subjectId: Value, subjectName: Value,
    subjectCode: Value, semesterId: Value, semesterName: Value, lecturerId: Value,
    lecturerName: Value, dayOfWeek: Value, startTime: Value, endTime: Value, room: Value,
    credits: Value, maxStudents: Value, currentStudents: Value, createdAt: Value): (c: Course)
    ensures KeptOrDefault(id, c.id, Null) && KeptOrDefault(courseCode, c.courseCode, Str(""))
      && KeptOrDefault(name, c.name, Str("")) && KeptOrDefault(subjectId, c.subjectId, Null)
      && KeptOrDefault(subjectName, c.subjectName, Str(""))
      && KeptOrDefault(subjectCode, c.subjectCode, Str(""))
      && KeptOrDefault(semesterId, c.semesterId, Null)
      && KeptOrDefault(semesterName, c.semesterName, Str(""))
      && KeptOrDefault(lecturerId, c.lecturerId, Null)
      && KeptOrDefault(lecturerName, c.lecturerName, Str(""))
      && KeptOrDefault(dayOfWeek, c.dayOfWeek, Str("")) && KeptOrDefault(startTime, c.startTime, Str(""))
      && KeptOrDefault(endTime, c.endTime, Str("")) && KeptOrDefault(room, c.room, Str(""))
      && KeptOrDefault(credits, c.credits, Num(0)) && KeptOrDefault(maxStudents, c.maxStudents, Num(0))
      && KeptOrDefault(currentStudents, c.currentStudents, Num(0))
      && KeptOrDefault(createdAt, c.createdAt, Null)
  {
    Course(
      Default(id, Null), Default(courseCode, Str("")), Default(name, Str("")),
      Default(subjectId, Null), Default(subjectName, Str("")), Default(subjectCode, Str("")),
      Default(semesterId, Null), Default(semesterName, Str("")), Default(lecturerId, Null),
      Default(lecturerName, Str("")), Default(dayOfWeek, Str("")), Default(startTime, Str("")),
      Default(endTime, Str("")), Default(room, Str("")), Default(credits, Num(0)),
      Default(maxStudents, Num(0)), Default(currentStudents, Num(0)), Default(createdAt, Null))
  }

  /** The first lecturer of a non-empty `lecturers` array, else the single
      `lecturer` field (the first one is used only when it is truthy). */
  function ChosenLecturer(data: Record): (r: Value)
    ensures Truthy(r) ==> (var ls := Get(data, "lecturers");
      (ls.Arr? && |ls.items| > 0 && r == ls.items[0]) || r == Get(data, "lecturer"))
  {
    var ls := Get(data, "lecturers");
    var first := if Truthy(ls) && ls.Arr? && |ls.items| > 0 then ls.items[0] else Null;
    Or(first, Get(data, "lecturer"))
  }

  /** `data.students ? data.students.length : 0`. */
  function StudentsLength(students: Value): Value {
    if !Truthy(students) then Num(0)
    else match Member(students, "length")
      case Success(n) => n
      case Failure(_) => Undefined
  }

  /** The enrolment count `fromApi` takes: `currentStudents`, else the roster
      length, else 0. */
  function EnrolledCount(data: Record): Value {
    Or(Or(Get(data, "currentStudents"), StudentsLength(Get(data, "students"))), Num(0))
  }

  /** "first last" of a lecturer object with surrounding spaces trimmed. */
  function LecturerName(lecturer: Value): (r: string)
    ensures |r| > 0 ==> !Strings.IsWhitespace(r[0]) && !Strings.IsWhitespace(r[|r| - 1])
  {
    Strings.Trim(Text(Or(Field(lecturer, "firstName"), Str(""))) + " "
      + Text(Or(Field(lecturer, "lastName"), Str(""))))
  }

  /** `Course.fromApi(data)` on an object. */
  function CourseFromApi(data: Record): (c: Course)
    ensures Truthy(ChosenLecturer(data)) ==> c.lecturerName == Str(LecturerName(ChosenLecturer(data)))
    ensures !Truthy(ChosenLecturer(data)) ==> c.lecturerName == Or(Get(data, "lecturerName"), Str(""))
    ensures c.subjectName.Str? || Truthy(c.subjectName)
    ensures c.subjectCode.Str? || Truthy(c.subjectCode)
    ensures c.semesterName.Str? || Truthy(c.semesterName)
    ensures c.room.Str? || Truthy(c.room)
  {
    var lecturer := ChosenLecturer(data);
    var subject := Get(data, "subject");
    var semester := Get(data, "semester");
    var current := EnrolledCount(data);
    var maxStudents := Or(Or(Or(Get(data, "maxStudents"), Get(data, "capacity")),
      Get(data, "maxEnrollment")), Num(0));
    Construct(
      Get(data, "id"),
      Get(data, "courseCode"),
      Get(data, "name"),
      Or(Field(subject, "id"), Get(data, "subjectId")),
      Or(Or(Field(subject, "name"), Get(data, "subjectName")), Str("")),
      Or(Or(Field(subject, "subjectCode"), Get(data, "subjectCode")), Str("")),
      Or(Field(semester, "id"), Get(data, "semesterId")),
      Or(Or(Field(semester, "name"), Get(data, "semesterName")), Str("")),
      Or(Field(lecturer, "id"), Get(data, "lecturerId")),
      if Truthy(lecturer) then Str(LecturerName(lecturer)) else Or(Get(data, "lecturerName"), Str("")),
      Get(data, "dayOfWeek"),
      Get(data, "startTime"),
      Get(data, "endTime"),
      Or(Get(data, "room"), Str("")),
      Or(Or(Get(data, "credits"), Field(subject, "credits")), Num(0)),
      maxStudents,
      current,
      Get(data, "createdAt"))
  }

  /** `Course.fromApi(response)` on whatever the back end returned. */
  function CourseFromResponse(response: Value): (r: Result<Course, Exception>)
    ensures r.Failure? <==> response.Undefined? || response.Null?
    ensures response.Obj? ==> r == Success(CourseFromApi(response.fields))
  {
    var data :- Props(response);
    Success(CourseFromApi(data))
  }

  /** The enrolment count is `currentStudents` when truthy, else the length of
      a `students` list. */
  lemma StudentCountFallback(data: Record)
    ensures var c := CourseFromApi(data);
      (Truthy(Get(data, "currentStudents")) ==> c.currentStudents == data["currentStudents"])
      && (!Truthy(Get(data, "currentStudents")) && Get(data, "students").Arr? ==>
            c.currentStudents == Num(|Get(data, "students").items|))
      && (!Truthy(Get(data, "currentStudents")) && !Truthy(Get(data, "students")) ==>
            c.currentStudents == Num(0))
  {
    CourseTakesEnrolledCount(data);
    EnrolledCountCases(data);
  }

  lemma CourseTakesEnrolledCount(data: Record)
    ensures CourseFromApi(data).currentStudents == EnrolledCount(data)
  {
  }

  lemma EnrolledCountCases(data: Record)
    ensures Truthy(Get(data, "currentStudents")) ==> EnrolledCount(data) == data["currentStudents"]
    ensures !Truthy(Get(data, "currentStudents")) && Get(data, "students").Arr? ==>
      EnrolledCount(data) == Num(|Get(data, "students").items|)
    ensures !Truthy(Get(data, "currentStudents")) && !Truthy(Get(data, "students")) ==>
      EnrolledCount(data) == Num(0)
  {
    var students := Get(data, "students");
    if students.Arr? {
      assert LengthOf(students) == Num(|students.items|);
    }
  }

  /** The capacity is the first truthy of `maxStudents`, `capacity` and
      `maxEnrollment`, in that order. */
  lemma CapacityFallback(data: Record)
    ensures var c := CourseFromApi(data);
      (Truthy(Get(data, "maxStudents")) ==> c.maxStudents == data["maxStudents"])
      && (!Truthy(Get(data, "maxStudents")) && Truthy(Get(data, "capacity")) ==>
            c.maxStudents == data["capacity"])
      && ((!Truthy(Get(data, "maxStudents")) && !Truthy(Get(data, "capacity"))
            && Truthy(Get(data, "maxEnrollment"))) ==> c.maxStudents == data["maxEnrollment"])
      && Truthy(c.maxStudents) == (Truthy(Get(data, "maxStudents")) || Truthy(Get(data, "capacity"))
            || Truthy(Get(data, "maxEnrollment")))
  {
  }

  /** The subject, semester and lecturer fields prefer the nested object over
      the flat key, and the texts fall back to the empty string. A falsy nested
      id leaves the flat id, which the constructor turns into null when it is
      undefined. */
  lemma NestedObjectsFirst(data: Record)
    ensures var c := CourseFromApi(data);
      (Truthy(Field(Get(data, "subject"), "id")) ==> c.subjectId == Field(Get(data, "subject"), "id"))
      && (Truthy(Field(Get(data, "subject"), "name")) ==> c.subjectName == Field(Get(data, "subject"), "name"))
      && (Truthy(Field(Get(data, "semester"), "id")) ==> c.semesterId == Field(Get(data, "semester"), "id"))
      && (Truthy(Field(Get(data, "semester"), "name")) ==> c.semesterName == Field(Get(data, "semester"), "name"))
      && (Truthy(Field(ChosenLecturer(data), "id")) ==> c.lecturerId == Field(ChosenLecturer(data), "id"))
      && (!Truthy(Get(data, "credits")) && Truthy(Field(Get(data, "subject"), "credits")) ==>
            c.credits == Field(Get(data, "subject"), "credits"))
    ensures var c := CourseFromApi(data);
      c.subjectName == Or(Or(Field(Get(data, "subject"), "name"), Get(data, "subjectName")), Str(""))
      && c.subjectCode == Or(Or(Field(Get(data, "subject"), "subjectCode"), Get(data, "subjectCode")), Str(""))
      && c.semesterName == Or(Or(Field(Get(data, "semester"), "name"), Get(data, "semesterName")), Str(""))
    ensures var c := CourseFromApi(data);
      (!Truthy(Field(Get(data, "subject"), "id")) ==> KeptOrDefault(Get(data, "subjectId"), c.subjectId, Null))
      && (!Truthy(Field(Get(data, "semester"), "id")) ==> KeptOrDefault(Get(data, "semesterId"), c.semesterId, Null))
      && (!Truthy(Field(ChosenLecturer(data), "id")) ==> KeptOrDefault(Get(data, "lecturerId"), c.lecturerId, Null))
  {
  }

  /** The first lecturer of the list wins over the single `lecturer` field. */
  lemma FirstLecturerWins(data: Record, first: Value, rest: seq<Value>)
    requires Get(data, "lecturers") == Arr([first] + rest) && Truthy(first)
    ensures ChosenLecturer(data) == first
    ensures CourseFromApi(data).lecturerName == Str(LecturerName(first))
    ensures Truthy(Field(first, "id")) ==> CourseFromApi(data).lecturerId == Field(first, "id")
  {
  }

  /** `toJson()`: the writable fields of a course. */
  function CourseToJson(c: Course): (r: Record)
    ensures r.Keys == {"id", "courseCode", "name", "subjectId", "semesterId", "lecturerId",
      "dayOfWeek", "startTime", "endTime", "room", "maxStudents"}
  {
    map[
      "id" := c.id, "courseCode" := c.courseCode, "name" := c.name,
      "subjectId" := c.subjectId, "semesterId" := c.semesterId, "lecturerId" := c.lecturerId,
      "dayOfWeek" := c.dayOfWeek, "startTime" := c.startTime, "endTime" := c.endTime,
      "room" := c.room, "maxStudents" := c.maxStudents]
  }

  /** The fields `fromApi` reads from a course's own JSON: what `toJson`
      wrote under the same key, and `undefined` for every key it did not write. */
  lemma CourseJsonFields(c: Course)
    ensures var j := CourseToJson(c);
      Get(j, "id") == c.id && Get(j, "courseCode") == c.courseCode && Get(j, "name") == c.name
      && Get(j, "dayOfWeek") == c.dayOfWeek && Get(j, "startTime") == c.startTime
      && Get(j, "endTime") == c.endTime && Get(j, "room") == c.room
      && Get(j, "maxStudents") == c.maxStudents
      && Get(j, "capacity") == Undefined && Get(j, "maxEnrollment") == Undefined
  {
    var j := CourseToJson(c);
    assert "capacity" !in j by {
      assert "capacity"[1] == 'a';
    }
    assert "maxEnrollment" !in j by {
      assert "maxEnrollment"[3] == 'E';
    }
  }

  /** Reading a course's own JSON back keeps its identity, schedule and capacity
      (a falsy room or capacity comes back as its default). */
  lemma CourseJsonRoundTrip(c: Course)
    requires !c.id.Undefined? && !c.courseCode.Undefined? && !c.name.Undefined?
    requires !c.dayOfWeek.Undefined? && !c.startTime.Undefined? && !c.endTime.Undefined?
    ensures var d := CourseFromApi(CourseToJson(c));
      d.id == c.id && d.courseCode == c.courseCode && d.name == c.name
      && d.dayOfWeek == c.dayOfWeek && d.startTime == c.startTime && d.endTime == c.endTime
      && d.room == Or(c.room, Str("")) && d.maxStudents == Or(c.maxStudents, Num(0))
      && d.ScheduleText() == c.ScheduleText()
  {
    var j := CourseToJson(c);
    CourseJsonFields(c);
    CourseFromApiReads(j);
    SameTimesSameSchedule(CourseFromApi(j), c);
  }

  /** The fields of `fromApi` that are read straight from the object. */
  lemma CourseFromApiReads(data: Record)
    ensures var d := CourseFromApi(data);
      d.id == Default(Get(data, "id"), Null) && d.courseCode == Default(Get(data, "courseCode"), Str(""))
      && d.name == Default(Get(data, "name"), Str(""))
      && d.dayOfWeek == Default(Get(data, "dayOfWeek"), Str(""))
      && d.startTime == Default(Get(data, "startTime"), Str(""))
      && d.endTime == Default(Get(data, "endTime"), Str(""))
      && d.room == Or(Get(data, "room"), Str(""))
      && d.maxStudents == Or(Or(Or(Get(data, "maxStudents"), Get(data, "capacity")),
           Get(data, "maxEnrollment")), Num(0))
  {
  }

  /** A known day is shown by its Vietnamese name, an unknown one by its own
      text, and the times follow in parentheses. */
  lemma ScheduleShowsDay(c: Course)
    ensures DayName(Text(c.dayOfWeek)).Some? ==>
      Strings.StartsWith(c.ScheduleText(), DayName(Text(c.dayOfWeek)).value + " (")
    ensures DayName(Text(c.dayOfWeek)).None? ==> Strings.StartsWith(c.ScheduleText(), Text(c.dayOfWeek) + " (")
    ensures c.ScheduleText()[|c.ScheduleText()| - 1] == ')'
    ensures var n := |Text(c.Day())| + 2;
      n < |c.ScheduleText()| && c.ScheduleText()[n..|c.ScheduleText()| - 1] == Text(c.startTime) + " - " + Text(c.endTime)
  {
    var head := Text(c.Day()) + " (";
    assert c.ScheduleText() == head + (Text(c.startTime) + " - " + Text(c.endTime) + ")");
    assert c.ScheduleText()[..|head|] == head;
  }

  /** The schedule text depends only on the day and the two times. */
  lemma SameTimesSameSchedule(c: Course, d: Course)
    requires c.dayOfWeek == d.dayOfWeek && c.startTime == d.startTime && c.endTime == d.endTime
    ensures c.ScheduleText() == d.ScheduleText()
  {
  }

  datatype Semester = Semester(id: Value, name: Value, year: Value, startDate: Value, endDate: Value)

  /** `Semester.fromApi(data)` (which is `new Semester` on the same keys): each
      given key is kept; a missing one becomes `null` (id, year) or ''. */
  function SemesterFromApi(data: Record): (r: Semester)
    ensures !Get(data, "id").Undefined? ==> r.id == data["id"]
    ensures !Get(data, "name").Undefined? ==> r.name == data["name"]
    ensures !Get(data, "year").Undefined? ==> r.year == data["year"]
    ensures !Get(data, "startDate").Undefined? ==> r.startDate == data["startDate"]
    ensures !Get(data, "endDate").Undefined? ==> r.endDate == data["endDate"]
    ensures !r.id.Undefined? && !r.name.Undefined? && !r.year.Undefined?
      && !r.startDate.Undefined? && !r.endDate.Undefined?
    ensures Get(data, "id").Undefined? ==> r.id == Null
    ensures Get(data, "year").Undefined? ==> r.year == Null
  {
    Semester(
      Default(Get(data, "id"), Null),
      Default(Get(data, "name"), Str("")),
      Default(Get(data, "year"), Null),
      Default(Get(data, "startDate"), Str("")),
      Default(Get(data, "endDate"), Str("")))
  }

  /** `toJson()` of a semester: everything but the id. */
  function SemesterToJson(s: Semester): (r: Record)
    ensures r.Keys == {"name", "year", "startDate", "endDate"}
  {
    map["name" := s.name, "year" := s.year, "startDate" := s.startDate, "endDate" := s.endDate]
  }

  /** A semester read from `data` writes back `data`'s name, year and dates (with
      the defaults for missing ones) and drops the id. */
  lemma SemesterJsonRoundTrip(data: Record)
    ensures var r := SemesterToJson(SemesterFromApi(data));
      "id" !in r
      && (forall k :: k in r && k in data && !data[k].Undefined? ==> r[k] == data[k])
      && (Get(data, "name").Undefined? ==> r["name"] == Str(""))
      && (Get(data, "year").Undefined? ==> r["year"] == Null)
  {
  }

  /** Reading a semester's JSON back gives the same semester without its id. */
  lemma SemesterReload(s: Semester)
    requires !s.name.Undefined? && !s.year.Undefined? && !s.startDate.Undefined? && !s.endDate.Undefined?
    ensures SemesterFromApi(SemesterToJson(s)) == s.(id := Null)
  {
  }

  datatype Subject = Subject(id: Value, subjectCode: Value, name: Value, credits: Value)

  /** `Subject.fromApi(data)`: each given key is kept; a missing id becomes
      `null`, missing texts '' and missing credits 0. */
  function SubjectFromApi(data: Record): (r: Subject)
    ensures !Get(data, "id").Undefined? ==> r.id == data["id"]
    ensures !Get(data, "subjectCode").Undefined? ==> r.subjectCode == data["subjectCode"]
    ensures !Get(data, "name").Undefined? ==> r.name == data["name"]
    ensures !Get(data, "credits").Undefined? ==> r.credits == data["credits"]
    ensures Get(data, "credits").Undefined? ==> r.credits == Num(0)
    ensures !r.id.Undefined? && !r.subjectCode.Undefined? && !r.name.Undefined? && !r.credits.Undefined?
  {
    Subject(
      Default(Get(data, "id"), Null),
      Default(Get(data, "subjectCode"), Str("")),
      Default(Get(data, "name"), Str("")),
      Default(Get(data, "credits"), Num(0)))
  }

  /** `toJson()` of a subject: code, name and credits. */
  function SubjectToJson(s: Subject): (r: Record)
    ensures r.Keys == {"subjectCode", "name", "credits"}
  {
    map["subjectCode" := s.subjectCode, "name" := s.name, "credits" := s.credits]
  }

  /** Reading a subject's JSON back gives the same subject without its id. */
  lemma SubjectReload(s: Subject)
    requires !s.subjectCode.Undefined? && !s.name.Undefined? && !s.credits.Undefined?
    ensures SubjectFromApi(SubjectToJson(s)) == s.(id := Null)
  {
  }
}

=== FILE: course_use_cases.dfy ===
/** The course, semester and subject use cases of
    `usecases/courses/courseUseCases.js`: the required-field checks, the list
    defaults, and the reading of course statistics with the exam-ban rule. */
module CourseUseCases {
  import opened Wrappers
  import opened Js
  import opened UseCaseSupport
  import opened CourseModel

  /** The fields a new course needs, in the order they are checked. */
  const CourseRequired: seq<string> := ["subjectId", "semesterId", "lecturerId", "dayOfWeek", "startTime", "endTime"]

  /** `createCourseUseCase(courseData)`. */
  function CreateCourse(courseData: Value, createCourse: Call): (r: Result<Course, Exception>)
    ensures (courseData.Undefined? || courseData.Null?) ==> r == Failure(TypeError)
    ensures courseData.Obj? && RequireFields(courseData.fields, CourseRequired).Fail? ==>
      r == Failure(RequireFields(courseData.fields, CourseRequired).error)
    ensures courseData.Obj? && RequireFields(courseData.fields, CourseRequired).Pass? && createCourse(courseData).Success? ==>
      r == CourseFromResponse(createCourse(courseData).value)
  {
    var data :- Props(courseData);
    :- RequireFields(data, CourseRequired);
    var response :- createCourse(courseData);
    CourseFromResponse(response)
  }

  /** The first missing course field is named in the error, whatever the
      repository would have answered. */
  lemma CreateCourseNamesFirstMissing(data: Record, i: nat, one: Call, other: Call)
    requires i < |CourseRequired| && !Truthy(Get(data, CourseRequired[i]))
    requires forall j :: 0 <= j < i ==> Truthy(Get(data, CourseRequired[j]))
    ensures CreateCourse(Obj(data), one) == Failure(Error(CourseRequired[i] + Blank))
    ensures CreateCourse(Obj(data), one) == CreateCourse(Obj(data), other)
  {
    FirstMissingFieldNamed(data, CourseRequired, i);
  }

  /** The result of `getCoursesUseCase`. */
  datatype CoursePage = CoursePage(courses: seq<Course>, paging: Paging)

  /** `getCoursesUseCase(params)`: the list is `content`, else `data`, else the
      response itself, kept only when it is an array. */
  function GetCourses(params: Record, getCourses: Call): (r: Result<CoursePage, Exception>)
    ensures getCourses(Obj(params)).Failure? ==> r == Failure(getCourses(Obj(params)).error)
    ensures r.Success? ==> r.value.paging == PagingOf(getCourses(Obj(params)).value, |r.value.courses|)
  {
    var response :- getCourses(Obj(params));
    var content :- ContentOf(response);
    var courses :- MapIfList(content, CourseFromResponse);
    Success(CoursePage(courses, PagingOf(response, |courses|)))
  }

  /** A response without paging fields is page 0 of 1, counting its own
      courses; a response whose content is not a list yields no courses. */
  lemma GetCoursesDefaults(params: Record, getCourses: Call, response: Record)
    requires getCourses(Obj(params)) == Success(Obj(response))
    requires !Truthy(Get(response, "totalElements")) && !Truthy(Get(response, "number"))
    requires !Truthy(Get(response, "totalPages"))
    requires GetCourses(params, getCourses).Success?
    ensures var p := GetCourses(params, getCourses).value;
      p.paging == Paging(Num(|p.courses|), Num(0), Num(1))
    ensures !Truthy(Get(response, "content")) && !Truthy(Get(response, "data")) ==>
      GetCourses(params, getCourses) == Success(CoursePage([], Paging(Num(0), Num(0), Num(1))))
  {
  }

  /** `registerStudentToCourseUseCase(courseId, studentId)`. */
  function RegisterStudentToCourse(courseId: Value, studentId: Value, registerStudent: Call): (r: Result<Value, Exception>)
    ensures !Truthy(courseId) || !Truthy(studentId) ==>
      r == Failure(Error("Course ID và Student ID không được để trống"))
    ensures Truthy(courseId) && Truthy(studentId) ==>
      r == registerStudent(Obj(map["courseId" := courseId, "studentId" := studentId]))
  {
    if !(Truthy(courseId) && Truthy(studentId)) then Failure(Error("Course ID và Student ID không được để trống")) else
    registerStudent(Obj(map["courseId" := courseId, "studentId" := studentId]))
  }

  /** `registerStudentUseCase({ studentCode, courseId })`. */
  function RegisterStudent(data: Value, registerStudent: Call): (r: Result<Value, Exception>)
    ensures (data.Undefined? || data.Null?) ==> r == Failure(TypeError)
    ensures data.Obj? && (!Truthy(Get(data.fields, "studentCode")) || !Truthy(Get(data.fields, "courseId"))) ==>
      r == Failure(Error("Mã sinh viên và ID lớp học không được để trống"))
    ensures data.Obj? && Truthy(Get(data.fields, "studentCode")) && Truthy(Get(data.fields, "courseId")) ==>
      r == registerStudent(Obj(map["studentCode" := data.fields["studentCode"], "courseId" := data.fields["courseId"]]))
  {
    var fields :- Props(data);
    var studentCode := Get(fields, "studentCode");
    var courseId := Get(fields, "courseId");
    if !(Truthy(studentCode) && Truthy(courseId)) then Failure(Error("Mã sinh viên và ID lớp học không được để trống")) else
    registerStudent(Obj(map["studentCode" := studentCode, "courseId" := courseId]))
  }

  // ----------------------------------------------------------- statistics

  /** One student's line in the course statistics, as the use case reshapes it. */
  datatype StudentStat = StudentStat(
    studentId: Value,
    studentCode: Value,
    studentName: Value,
    totalSessions: Value,
    absentSessions: Value,
    absentPercentage: Value,
    isBanned: bool)

  /** The exam-ban rule: the back end's `banned` or `isBanned` flag is exactly
      `true`, or the absence percentage (0 when missing) is at least 20. */
  predicate Banned(s: Record) {
    StrictEquals(Get(s, "banned"), Bool(true))
    || StrictEquals(Get(s, "isBanned"), Bool(true))
    || AtLeast(Or(Get(s, "absentPercentage"), Num(0)), Num(20))
  }

  /** The reshaping of one raw entry; a `null` entry throws. */
  function StatFromRaw(raw: Value): (r: Result<StudentStat, Exception>)
    ensures r.Failure? <==> raw.Undefined? || raw.Null?
  {
    var s :- Props(raw);
    var absentCount := Get(s, "absentCount");
    Success(StudentStat(
      Or(Get(s, "studentId"), Get(s, "id")),
      Or(Get(s, "studentCode"), Str("")),
      Or(Or(Get(s, "fullName"), Get(s, "studentName")), Str("Sinh viên")),
      Or(Get(s, "totalSessions"), Num(0)),
      if !absentCount.Undefined? then absentCount else Or(Get(s, "absentSessions"), Num(0)),
      Or(Get(s, "absentPercentage"), Num(0)),
      Banned(s)))
  }

  /** The ban flag of a reshaped entry follows the rule, both ways, and agrees
      with the reshaped percentage. */
  lemma BanRule(s: Record)
    ensures StatFromRaw(Obj(s)).Success?
    ensures var st := StatFromRaw(Obj(s)).value;
      (st.isBanned <==>
        (Get(s, "banned") == Bool(true) || Get(s, "isBanned") == Bool(true) || AtLeast(st.absentPercentage, Num(20))))
      && (!Truthy(Get(s, "absentPercentage")) ==> st.absentPercentage == Num(0))
  {
  }

  /** A flag that is merely truthy (`1`, `"true"`) does not ban, and an absence
      of exactly 20 percent does. */
  lemma BanRuleEdges(s: Record)
    ensures Get(s, "banned") == Num(1) && Get(s, "isBanned") == Str("true") && !Truthy(Get(s, "absentPercentage"))
      ==> !StatFromRaw(Obj(s)).value.isBanned
    ensures Get(s, "absentPercentage") == Num(20) ==> StatFromRaw(Obj(s)).value.isBanned
    ensures Get(s, "absentPercentage") == Num(19) && !Truthy(Get(s, "banned")) && !Truthy(Get(s, "isBanned"))
      ==> !StatFromRaw(Obj(s)).value.isBanned
  {
    BanRule(s);
    CompareWithNumber(Num(0), 20);
    CompareWithNumber(Num(19), 20);
    CompareWithNumber(Num(20), 20);
  }

  /** `absentSessions` takes `absentCount` whenever it is defined, even when it
      is 0, and only otherwise `absentSessions` or 0. */
  lemma AbsentSessionsFallback(s: Record)
    ensures var st := StatFromRaw(Obj(s)).value;
      (!Get(s, "absentCount").Undefined? ==> st.absentSessions == s["absentCount"])
      && (Get(s, "absentCount").Undefined? && !Truthy(Get(s, "absentSessions")) ==> st.absentSessions == Num(0))
      && (Get(s, "absentCount").Undefined? && Truthy(Get(s, "absentSessions")) ==> st.absentSessions == s["absentSessions"])
  {
  }

  /** The result of `getCourseStatisticsUseCase`; both lists are the same. */
  datatype CourseStatistics = CourseStatistics(totalBanned: Value, studentStats: seq<StudentStat>, studentDetails: seq<StudentStat>)

  /** The raw entries: `studentStats` when it is an array, else `studentDetails`
      when it is, else none. */
  function RawDetails(data: Value): (r: seq<Value>)
    ensures Field(data, "studentStats").Arr? ==> r == Field(data, "studentStats").items
    ensures !Field(data, "studentStats").Arr? && Field(data, "studentDetails").Arr? ==> r == Field(data, "studentDetails").items
    ensures !Field(data, "studentStats").Arr? && !Field(data, "studentDetails").Arr? ==> r == []
  {
    if Field(data, "studentStats").Arr? then Field(data, "studentStats").items
    else if Field(data, "studentDetails").Arr? then Field(data, "studentDetails").items
    else []
  }

  /** The test of `filter(s => s.isBanned)`. */
  function IsBannedStat(s: StudentStat): bool {
    s.isBanned
  }

  /** `mappedDetails.filter(s => s.isBanned).length`. */
  function BannedCount(xs: seq<StudentStat>): (n: nat)
    ensures n <= |xs|
    ensures n == 0 <==> forall k :: 0 <= k < |xs| ==> !xs[k].isBanned
    ensures n == |Filter(xs, IsBannedStat)|
  {
    if |xs| == 0 then 0
    else
      assert forall k :: 1 <= k < |xs| ==> xs[k] == xs[1..][k - 1];
      (if xs[0].isBanned then 1 else 0) + BannedCount(xs[1..])
  }

  /** `getCourseStatisticsUseCase(courseId)`. */
  function GetCourseStatistics(courseId: Value, getStatistics: Call): (r: Result<CourseStatistics, Exception>)
    ensures getStatistics(courseId).Failure? ==> r == Failure(getStatistics(courseId).error)
    ensures r.Success? ==> r.value.studentStats == r.value.studentDetails
  {
    var response :- getStatistics(courseId);
    var data := Or(response, Obj(map[]));
    var stats :- MapAll(RawDetails(data), StatFromRaw);
    var reported := Field(data, "totalBanned");
    Success(CourseStatistics(if IsNumber(reported) then reported else Num(BannedCount(stats)), stats, stats))
  }

  /** Over entries that are all objects, the statistics keep the length and
      order of the raw list, reshape each entry, and count the banned ones
      unless the back end gave a number. */
  lemma StatisticsMapping(courseId: Value, getStatistics: Call, response: Value)
    requires getStatistics(courseId) == Success(response)
    requires var raw := RawDetails(Or(response, Obj(map[])));
      forall k :: 0 <= k < |raw| ==> raw[k].Obj?
    ensures GetCourseStatistics(courseId, getStatistics).Success?
    ensures var st := GetCourseStatistics(courseId, getStatistics).value;
      var raw := RawDetails(Or(response, Obj(map[])));
      |st.studentStats| == |raw|
      && (forall k :: 0 <= k < |raw| ==> st.studentStats[k] == StatFromRaw(raw[k]).value)
      && (IsNumber(Field(response, "totalBanned")) ==> st.totalBanned == Field(response, "totalBanned"))
      && (!IsNumber(Field(response, "totalBanned")) ==> st.totalBanned == Num(BannedCount(st.studentStats)))
  {
    var raw := RawDetails(Or(response, Obj(map[])));
    assert MapAll(raw, StatFromRaw).Success?;
  }

  /** A missing response means no students and no bans. */
  lemma StatisticsOfNothing(courseId: Value, getStatistics: Call)
    requires getStatistics(courseId) == Success(Null)
    ensures GetCourseStatistics(courseId, getStatistics) == Success(CourseStatistics(Num(0), [], []))
  {
  }

  // ---------------------------------------------------- semesters and subjects

  const SemesterRequired: seq<string> := ["name", "startDate", "endDate"]
  const SubjectRequired: seq<string> := ["subjectCode", "name", "credits"]

  /** `createSemesterUseCase(semesterData)`. */
  function CreateSemester(semesterData: Value, createSemester: Call): (r: Result<Semester, Exception>)
    ensures (semesterData.Undefined? || semesterData.Null?) ==> r == Failure(TypeError)
    ensures semesterData.Obj? && RequireFields(semesterData.fields, SemesterRequired).Fail? ==>
      r == Failure(RequireFields(semesterData.fields, SemesterRequired).error)
    ensures semesterData.Obj? && RequireFields(semesterData.fields, SemesterRequired).Pass? ==>
      match createSemester(semesterData)
      case Failure(e) => r == Failure(e)
      case Success(v) => v.Obj? ==> r == Success(SemesterFromApi(v.fields))
  {
    var data :- Props(semesterData);
    :- RequireFields(data, SemesterRequired);
    var response :- createSemester(semesterData);
    var fields :- Props(response);
    Success(SemesterFromApi(fields))
  }

  /** `createSubjectUseCase(subjectData)`. */
  function CreateSubject(subjectData: Value, createSubject: Call): (r: Result<Subject, Exception>)
    ensures (subjectData.Undefined? || subjectData.Null?) ==> r == Failure(TypeError)
    ensures subjectData.Obj? && RequireFields(subjectData.fields, SubjectRequired).Fail? ==>
      r == Failure(RequireFields(subjectData.fields, SubjectRequired).error)
    ensures subjectData.Obj? && RequireFields(subjectData.fields, SubjectRequired).Pass? ==>
      match createSubject(subjectData)
      case Failure(e) => r == Failure(e)
      case Success(v) => v.Obj? ==> r == Success(SubjectFromApi(v.fields))
  {
    var data :- Props(subjectData);
    :- RequireFields(data, SubjectRequired);
    var response :- createSubject(subjectData);
    var fields :- Props(response);
    Success(SubjectFromApi(fields))
  }

  /** A subject with 0 credits is rejected as if the credits were missing. */
  lemma ZeroCreditsRejected(data: Record, createSubject: Call)
    requires Truthy(Get(data, "subjectCode")) && Truthy(Get(data, "name"))
    requires Get(data, "credits") == Num(0)
    ensures CreateSubject(Obj(data), createSubject) == Failure(Error("credits" + Blank))
  {
    FirstMissingFieldNamed(data, SubjectRequired, 2);
  }

  /** A semester with every required field reaches the repository. */
  lemma SemesterCompleteReachesRepository(data: Record, createSemester: Call)
    requires Truthy(Get(data, "name")) && Truthy(Get(data, "startDate")) && Truthy(Get(data, "endDate"))
    requires createSemester(Obj(data)).Failure?
    ensures CreateSemester(Obj(data), createSemester) == Failure(createSemester(Obj(data)).error)
  {
  }
}

=== FILE: date_utils.dfy ===
/** The display helpers of `utils/dateUtils.js`. An empty input shows '-', a
    plain time string such as "07:00:00" is cut to hours and minutes, and any
    other input is read through the `Date` constructor: '-' when that gives an
    invalid date, otherwise its calendar fields padded to two digits. */
module DateUtils {
  import opened Js
  import Strings
  import opened Wrappers

  /** What `new Date(input)` reads as in the local time zone: an invalid date
      (`getTime()` is NaN), or the fields its getters return, with the month
      counted from 1 as `getMonth() + 1` gives it. */
  datatype Moment = Invalid | Moment(year: int, month: int, day: int, hours: int, minutes: int)

  /** The reading of `new Date(input)`: parsing and the time zone are outside the model. */
  type DateReader = Value -> Moment

  /** `String(n).padStart(2, '0')`. */
  function TwoDigits(n: int): (r: string)
    ensures |r| >= 2
    ensures 0 <= n < 100 ==> |r| == 2 && AllDigits(r) && DigitsValue(r) == n
  {
    var t := Strings.IntText(n);
    var r := if |t| < 2 then seq(2 - |t|, _ => '0') + t else t;
    if 0 <= n < 100 then TwoDigitsOfSmall(n); r else r
  }

  /** The text of a number below 100, padded to two digits, reads back as the number. */
  lemma TwoDigitsOfSmall(n: int)
    requires 0 <= n < 100
    ensures var t := Strings.IntText(n); var r := if |t| < 2 then seq(2 - |t|, _ => '0') + t else t;
      |r| == 2 && AllDigits(r) && DigitsValue(r) == n
  {
    var t := Strings.IntText(n);
    if n < 10 {
      assert t == ['0' + n as char];
      var r := seq(2 - |t|, _ => '0') + t;
      assert r == ['0', '0' + n as char];
      assert r[..1] == "0" && "0"[..0] == "";
    } else {
      assert Strings.NatText(n / 10) == ['0' + (n / 10) as char];
      assert t == ['0' + (n / 10) as char, '0' + (n % 10) as char];
      assert t[..1] == ['0' + (n / 10) as char] && t[..1][..0] == "";
      assert DigitsValue(t[..1]) == n / 10;
      assert DigitsValue(t) == (n / 10) * 10 + n % 10;
    }
  }

  /** dd/MM/yyyy of a valid date. */
  function DateText(m: Moment): (r: string)
    requires m.Moment?
    ensures |r| >= 6
  {
    TwoDigits(m.day) + "/" + TwoDigits(m.month) + "/" + Strings.IntText(m.year)
  }

  /** HH:mm of a valid date. */
  function ClockText(m: Moment): (r: string)
    requires m.Moment?
    ensures |r| >= 5
  {
    TwoDigits(m.hours) + ":" + TwoDigits(m.minutes)
  }

  /** A date within the calendar shows as two digits of day, '/', two digits of
      month, '/', and the year, and the day and month read back from the text. */
  lemma DateTextReads(m: Moment)
    requires m.Moment? && 1 <= m.day <= 31 && 1 <= m.month <= 12
    ensures var r := DateText(m);
      r[2] == '/' && r[5] == '/' && AllDigits(r[..2]) && AllDigits(r[3..5])
      && DigitsValue(r[..2]) == m.day && DigitsValue(r[3..5]) == m.month
      && r[6..] == Strings.IntText(m.year)
  {
    var r := DateText(m);
    assert r[..2] == TwoDigits(m.day) && r[3..5] == TwoDigits(m.month);
  }

  /** A time of day shows as exactly five characters, HH:mm, which read back as
      the hours and minutes. */
  lemma ClockTextReads(m: Moment)
    requires m.Moment? && 0 <= m.hours < 24 && 0 <= m.minutes < 60
    ensures var r := ClockText(m);
      |r| == 5 && r[2] == ':' && AllDigits(r[..2]) && AllDigits(r[3..])
      && DigitsValue(r[..2]) == m.hours && DigitsValue(r[3..]) == m.minutes
  {
    var r := ClockText(m);
    assert r[..2] == TwoDigits(m.hours) && r[3..] == TwoDigits(m.minutes);
  }

  /** A string the time formatter treats as a plain time: it contains ':' and no 'T'. */
  predicate IsPlainTime(s: string) {
    ':' in s && 'T' !in s
  }

  /** `formatTime(input)`. A plain time is cut without going through `Date`. */
  function FormatTime(input: Value, date: DateReader): (r: string)
    ensures !Truthy(input) ==> r == "-"
    ensures input.Str? && IsPlainTime(input.s) ==> IsPlainTime(r)
    ensures Truthy(input) && !(input.Str? && IsPlainTime(input.s)) ==>
      (r == "-" <==> date(input).Invalid?)
    ensures Truthy(input) && !(input.Str? && IsPlainTime(input.s)) && date(input).Moment? ==>
      r == ClockText(date(input))
  {
    if !Truthy(input) then "-"
    else if input.Str? && IsPlainTime(input.s) then
      var parts := Strings.Split(input.s, ':');
      Strings.SplitSingle(input.s, ':');
      PiecesInside(input.s, ':');
      parts[0] + ":" + parts[1]
    else
      var m := date(input);
      if m.Invalid? then "-" else ClockText(m)
  }

  /** A plain time is shown the same whatever the `Date` reading. */
  lemma PlainTimeIgnoresDate(s: string, d1: DateReader, d2: DateReader)
    requires IsPlainTime(s)
    ensures FormatTime(Str(s), d1) == FormatTime(Str(s), d2)
  {
    assert Truthy(Str(s)) by { assert s != ""; }
  }

  /** `formatDate(input)`: '-' for a falsy input and for an invalid date,
      otherwise dd/MM/yyyy. */
  function FormatDate(input: Value, date: DateReader): (r: string)
    ensures r == "-" <==> !Truthy(input) || date(input).Invalid?
    ensures Truthy(input) && date(input).Moment? ==> r == DateText(date(input))
  {
    if !Truthy(input) then "-"
    else
      var m := date(input);
      if m.Invalid? then "-" else DateText(m)
  }

  /** `formatDateTime(input)`: '-' for a falsy input and for an invalid date,
      otherwise the date and the time joined by a space. The time part goes
      through `formatTime`, so an input holding ':' and no 'T' has its time cut
      from the text. */
  function FormatDateTime(input: Value, date: DateReader): (r: string)
    ensures r == "-" <==> !Truthy(input) || date(input).Invalid?
    ensures Truthy(input) && date(input).Moment? ==>
      r == FormatDate(input, date) + " " + FormatTime(input, date)
  {
    if !Truthy(input) then "-"
    else if date(input).Invalid? then "-"
    else FormatDate(input, date) + " " + FormatTime(input, date)
  }

  /** A valid date read from a text that is not a plain time shows as
      dd/MM/yyyy HH:mm. */
  lemma DateTimeOfMoment(input: Value, date: DateReader)
    requires Truthy(input) && date(input).Moment? && !(input.Str? && IsPlainTime(input.s))
    ensures FormatDateTime(input, date) == DateText(date(input)) + " " + ClockText(date(input))
  {
  }

  /** The first piece of a split is a prefix of the string. */
  lemma {:induction false} FirstPieceIsPrefix(s: string, c: char)
    ensures |Strings.Split(s, c)[0]| <= |s|
    ensures Strings.Split(s, c)[0] == s[..|Strings.Split(s, c)[0]|]
    ensures |Strings.Split(s, c)| >= 2 ==>
      |Strings.Split(s, c)[0]| < |s| && s[|Strings.Split(s, c)[0]|] == c
      && Strings.Split(s, c)[1..] == Strings.Split(s[|Strings.Split(s, c)[0]| + 1..], c)
  {
    match Strings.CharIndex(s, c)
    case None =>
    case Some(i) =>
      assert Strings.Split(s, c) == [s[..i]] + Strings.Split(s[i + 1..], c);
  }

  /** Every piece of a split is made of characters of the string. */
  lemma {:induction false} PiecesInside(s: string, c: char)
    ensures forall k, x :: 0 <= k < |Strings.Split(s, c)| && x in Strings.Split(s, c)[k] ==> x in s
    decreases |s|
  {
    match Strings.CharIndex(s, c)
    case None =>
    case Some(i) =>
      var rest := s[i + 1..];
      PiecesInside(rest, c);
      var parts := Strings.Split(s, c);
      assert parts == [s[..i]] + Strings.Split(rest, c);
      forall k, x | 0 <= k < |parts| && x in parts[k]
        ensures x in s
      {
        if k == 0 {
          assert x in s[..i];
        } else {
          assert parts[k] == Strings.Split(rest, c)[k - 1];
          assert x in rest;
        }
      }
  }

  /** A plain time string is shown as its text up to (not including) the second
      colon, or the whole text when it has only one colon: the shown text is a
      prefix holding exactly one colon, cut where the string has a colon or ends. */
  lemma PlainTimeIsPrefix(s: string, date: DateReader)
    requires IsPlainTime(s)
        ensures var t := FormatTime(Str(s), date);
      |t| <= |s| && t == s[..|t|] && (|t| < |s| ==> s[|t|] == ':')
    ensures var t := FormatTime(Str(s), date);
      exists i :: 0 <= i < |t| && t[i] == ':' && ':' !in t[..i] && ':' !in t[i + 1..]
  {
    var parts := Strings.Split(s, ':');
    Strings.SplitSingle(s, ':');
    FirstPieceIsPrefix(s, ':');
    var i := |parts[0]|;
    var rest := s[i + 1..];
    FirstPieceIsPrefix(rest, ':');
    assert parts[1] == Strings.Split(rest, ':')[0];
    var t := parts[0] + ":" + parts[1];
    assert t[..i] == parts[0] && t[i] == ':' && t[i + 1..] == parts[1];
    assert t == s[..i] + [':'] + rest[..|parts[1]|];
    assert s[..|t|] == s[..i] + [':'] + rest[..|parts[1]|];
    if |t| < |s| {
      var rp := Strings.Split(rest, ':');
      assert |rp[0]| < |rest|;
      assert |rp| >= 2 by { Strings.SplitSingle(rest, ':'); }
    }
  }

  /** The first occurrence of `c` in `a + [c] + b` is right after `a` when `a` lacks it. */
  lemma {:induction false} CharIndexAfter(a: string, c: char, b: string)
    requires c !in a
    ensures Strings.CharIndex(a + [c] + b, c) == Some(|a|)
    decreases |a|
  {
    var t := a + [c] + b;
    if |a| > 0 {
      assert t[1..] == a[1..] + [c] + b;
      CharIndexAfter(a[1..], c, b);
    }
  }

  /** Formatting a plain time string a second time changes nothing. */
  lemma FormatTimeIdempotent(s: string, date: DateReader)
    requires IsPlainTime(s)
    ensures FormatTime(Str(FormatTime(Str(s), date)), date) == FormatTime(Str(s), date)
  {
    var parts := Strings.Split(s, ':');
    Strings.SplitSingle(s, ':');
    var t := parts[0] + ":" + parts[1];
    assert FormatTime(Str(s), date) == t;
    assert ':' !in parts[0] && ':' !in parts[1];
    CharIndexAfter(parts[0], ':', parts[1]);
    assert t[|parts[0]| + 1..] == parts[1];
    assert t[..|parts[0]|] == parts[0];
    Strings.SplitSingle(parts[1], ':');
    assert Strings.Split(parts[1], ':') == [parts[1]];
    assert Strings.Split(t, ':') == [parts[0]] + Strings.Split(parts[1], ':');
  }
}

=== FILE: js.dfy ===
/** A small model of the JavaScript values the modelled code handles: JSON-shaped
    data with `undefined`, integral numbers and `NaN`. It gives the meaning of the
    language operations the code leans on: truthiness and `||`, default parameters,
    strict equality, `String(v)` / template literals, `Number(v)`, `parseInt`,
    `Array.prototype.slice`, `Math.round` and `Math.ceil` of a quotient. */
module Js {
  import opened Wrappers
  import Strings

  datatype Value =
    | Undefined
    | Null
    | Bool(b: bool)
    | Num(n: int)
    | NaN
    | Str(s: string)
    | Arr(items: seq<Value>)
    | Obj(fields: map<string, Value>)

  /** A plain object, as read from JSON. */
  type Record = map<string, Value>

  /** ToBoolean: `undefined`, `null`, `false`, `0`, `NaN` and `''` are falsy. */
  predicate Truthy(v: Value) {
    match v
    case Undefined => false
    case Null => false
    case Bool(b) => b
    case Num(n) => n != 0
    case NaN => false
    case Str(s) => s != ""
    case Arr(_) => true
    case Obj(_) => true
  }

  /** `a || b`. */
  function Or(a: Value, b: Value): Value {
    if Truthy(a) then a else b
  }

  /** A destructuring default `{ x = d }`: applies only when the value is `undefined`. */
  function Default(v: Value, d: Value): Value {
    if v.Undefined? then d else v
  }

  /** A field built from a destructured argument with a default: the argument
      when it is given, the default when it is `undefined`. */
  predicate KeptOrDefault(arg: Value, field: Value, d: Value) {
    (!arg.Undefined? ==> field == arg) && (arg.Undefined? ==> field == d)
  }

  /** `r.key` on a plain object; a missing key reads as `undefined`. */
  function Get(r: Record, key: string): Value {
    if key in r then r[key] else Undefined
  }

  /** `v?.key`: property access that yields `undefined` on anything but an object. */
  function Field(v: Value, key: string): Value {
    if v.Obj? then Get(v.fields, key) else Undefined
  }

  /** `typeof v === 'number'`. */
  predicate IsNumber(v: Value) {
    v.Num? || v.NaN?
  }

  /** `a === b`. Arrays and objects are compared by reference in JavaScript; every
      one of them here comes from its own JSON parse, so none is identical to another. */
  predicate StrictEquals(a: Value, b: Value) {
    match (a, b)
    case (Undefined, Undefined) => true
    case (Null, Null) => true
    case (Bool(x), Bool(y)) => x == y
    case (Num(x), Num(y)) => x == y
    case (Str(x), Str(y)) => x == y
    case _ => false
  }

  lemma StrictEqualsSymmetric(a: Value, b: Value)
    ensures StrictEquals(a, b) == StrictEquals(b, a)
  {
  }

  /** Strictly equal values are equal; `NaN` is not even equal to itself. */
  lemma StrictEqualsSound(a: Value, b: Value)
    ensures StrictEquals(a, b) ==> a == b
    ensures !StrictEquals(NaN, b)
  {
  }

  /** `String(v)`, which is also what a template literal `${v}` produces. */
  function Text(v: Value): string
    decreases v, 0
  {
    match v
    case Undefined => "undefined"
    case Null => "null"
    case Bool(b) => if b then "true" else "false"
    case Num(n) => Strings.IntText(n)
    case NaN => "NaN"
    case Str(s) => s
    case Arr(items) =>
      Strings.Join(seq(|items|, i requires 0 <= i < |items| => ElementText(items[i])), ",")
    case Obj(_) => "[object Object]"
  }

  /** How `Array.prototype.join` prints one element: `null` and `undefined` print as ''. */
  function ElementText(e: Value): string
    decreases e, 1
  {
    if e.Undefined? || e.Null? then "" else Text(e)
  }

  predicate IsDigit(c: char) {
    '0' <= c <= '9'
  }

  predicate AllDigits(s: string) {
    forall k :: 0 <= k < |s| ==> IsDigit(s[k])
  }

  /** The value of a string of decimal digits. */
  function DigitsValue(s: string): nat
    requires AllDigits(s)
  {
    if |s| == 0 then 0
    else DigitsValue(s[..|s| - 1]) * 10 + (s[|s| - 1] as int - '0' as int)
  }

  function HexDigit(c: char): Option<nat> {
    if '0' <= c <= '9' then Some(c as int - '0' as int)
    else if 'a' <= c <= 'f' then Some(c as int - 'a' as int + 10)
    else if 'A' <= c <= 'F' then Some(c as int - 'A' as int + 10)
    else None
  }

  predicate AllHex(s: string) {
    forall k :: 0 <= k < |s| ==> HexDigit(s[k]).Some?
  }

  function HexValue(s: string): nat
    requires AllHex(s)
  {
    if |s| == 0 then 0
    else HexValue(s[..|s| - 1]) * 16 + HexDigit(s[|s| - 1]).value
  }

  predicate HasHexPrefix(s: string) {
    |s| >= 2 && s[0] == '0' && (s[1] == 'x' || s[1] == 'X')
  }

  /** The number an integer literal denotes under `Number(s)`, after trimming:
      an empty string is 0; an optionally signed run of decimal digits, or an
      unsigned `0x` hexadecimal literal, is its value; anything else is `NaN`. */
  function StringToNumber(s: string): (r: Value)
    ensures r.Num? || r.NaN?
  {
    var t := Strings.Trim(s);
    if t == "" then Num(0)
    else if HasHexPrefix(t) then
      (if |t| > 2 && AllHex(t[2..]) then Num(HexValue(t[2..])) else NaN)
    else if (t[0] == '-' || t[0] == '+') && |t| > 1 && AllDigits(t[1..]) then
      var m: int := DigitsValue(t[1..]);
      Num(if t[0] == '-' then -m else m)
    else if AllDigits(t) then Num(DigitsValue(t))
    else NaN
  }

  /** `Number(v)`. */
  function ToNumber(v: Value): (r: Value)
    ensures r.Num? || r.NaN?
  {
    match v
    case Undefined => NaN
    case Null => Num(0)
    case Bool(b) => Num(if b then 1 else 0)
    case Num(n) => v
    case NaN => NaN
    case Str(s) => StringToNumber(s)
    case Arr(_) => StringToNumber(Text(v))
    case Obj(_) => NaN
  }

  /** A comparison with a number on one side is numeric: the other side goes
      through `Number`, and `NaN` compares false. */
  lemma CompareWithNumber(v: Value, n: int)
    ensures AtLeast(v, Num(n)) <==> ToNumber(v).Num? && ToNumber(v).n >= n
    ensures LessThan(Num(n), v) <==> ToNumber(v).Num? && n < ToNumber(v).n
  {
    assert Primitive(Num(n)) == Num(n);
  }

  /** A falsy value converts to 0 or `NaN`. */
  lemma FalsyNumber(v: Value)
    requires !Truthy(v)
    ensures ToNumber(v) == Num(0) || ToNumber(v) == NaN
  {
    if v.Str? {
      assert v.s == "";
      assert Strings.Trim("") == "";
    }
  }

  lemma {:induction false} NatTextDigits(n: nat)
    ensures AllDigits(Strings.NatText(n))
    ensures DigitsValue(Strings.NatText(n)) == n
    decreases n
  {
    var t := Strings.NatText(n);
    if n >= 10 {
      NatTextDigits(n / 10);
      assert t[..|t| - 1] == Strings.NatText(n / 10);
    }
  }

  /** A string that neither starts nor ends with whitespace is its own trim. */
  lemma TrimUnchanged(t: string)
    requires |t| > 0 && !Strings.IsWhitespace(t[0]) && !Strings.IsWhitespace(t[|t| - 1])
    ensures Strings.Trim(t) == t
  {
    assert Strings.TrimStart(t) == t;
    assert Strings.TrimEnd(t) == t;
  }

  /** `Number` of a word that starts with neither a digit nor a sign is `NaN`. */
  lemma NumberOfWord(t: string)
    requires |t| > 0 && !IsDigit(t[0]) && t[0] != '-' && t[0] != '+'
    requires !Strings.IsWhitespace(t[0]) && !Strings.IsWhitespace(t[|t| - 1])
    ensures ToNumber(Str(t)) == NaN
  {
    TrimUnchanged(t);
    assert !HasHexPrefix(t);
    assert !AllDigits(t);
  }

  /** `Number` reads back the decimal text JavaScript prints for an integer. */
  lemma NumberOfIntText(n: int)
    ensures StringToNumber(Strings.IntText(n)) == Num(n)
  {
    var m: nat := if n < 0 then -n else n;
    NatTextDigits(m);
    var d := Strings.NatText(m);
    assert IsDigit(d[0]) && IsDigit(d[|d| - 1]);
    if n < 0 {
      var t := "-" + d;
      assert Strings.IntText(n) == t;
      TrimUnchanged(t);
      assert t[1..] == d;
      assert !HasHexPrefix(t);
    } else {
      assert Strings.IntText(n) == d;
      TrimUnchanged(d);
      assert |d| >= 2 ==> IsDigit(d[1]);
      assert !HasHexPrefix(d);
    }
  }

  /** `Number(x)` of a number is that number. */
  lemma ToNumberOfNumber(n: int)
    ensures ToNumber(Num(n)) == Num(n)
    ensures ToNumber(Str(Strings.IntText(n))) == Num(n)
  {
    NumberOfIntText(n);
    NumberOfText(Strings.IntText(n));
  }

  /** `Number` of a run of decimal digits is its decimal value. */
  lemma NumberOfDigits(t: string)
    requires |t| > 0 && AllDigits(t)
    ensures ToNumber(Str(t)) == Num(DigitsValue(t))
  {
    assert IsDigit(t[0]) && IsDigit(t[|t| - 1]);
    TrimUnchanged(t);
    assert |t| >= 2 ==> IsDigit(t[1]);
    assert !HasHexPrefix(t) && t[0] != '-' && t[0] != '+';
    assert StringToNumber(t) == Num(DigitsValue(t));
  }

  /** `Number` of a string value is the string's numeric value. */
  lemma NumberOfText(t: string)
    ensures ToNumber(Str(t)) == StringToNumber(t)
  {
  }

  /** The length of the longest prefix of `s` whose characters satisfy the digit test. */
  function DecimalPrefix(s: string): (k: nat)
    ensures k <= |s| && AllDigits(s[..k])
    ensures k < |s| ==> !IsDigit(s[k])
  {
    if |s| == 0 || !IsDigit(s[0]) then 0
    else
      var k := 1 + DecimalPrefix(s[1..]);
      assert s[..k] == [s[0]] + s[1..][..k - 1];
      k
  }

  function HexPrefix(s: string): (k: nat)
    ensures k <= |s| && AllHex(s[..k])
    ensures k < |s| ==> HexDigit(s[k]).None?
  {
    if |s| == 0 || HexDigit(s[0]).None? then 0
    else
      var k := 1 + HexPrefix(s[1..]);
      assert s[..k] == [s[0]] + s[1..][..k - 1];
      k
  }

  /** `parseInt(s)` with no radix: leading whitespace is skipped, then an optional
      sign, then either `0x` and hexadecimal digits or decimal digits; the longest
      such prefix is read and the rest ignored; no digits at all give `NaN`. */
  function ParseIntText(s: string): (r: Value)
    ensures r.Num? || r.NaN?
  {
    var t := Strings.TrimStart(s);
    var negative := |t| > 0 && t[0] == '-';
    var u := if |t| > 0 && (t[0] == '-' || t[0] == '+') then t[1..] else t;
    if HasHexPrefix(u) then
      var k := HexPrefix(u[2..]);
      if k == 0 then NaN
      else
        var m: int := HexValue(u[2..][..k]);
        Num(if negative then -m else m)
    else
      var k := DecimalPrefix(u);
      if k == 0 then NaN
      else
        var m: int := DigitsValue(u[..k]);
        Num(if negative then -m else m)
  }

  /** `parseInt(v)`: the argument is converted to a string first. */
  function ParseInt(v: Value): (r: Value)
    ensures r.Num? || r.NaN?
  {
    ParseIntText(Text(v))
  }

  /** A string that starts with neither a digit, a sign nor white space is
      not an integer literal. */
  lemma ParseIntNonNumeric(t: string)
    requires |t| > 0 && !IsDigit(t[0]) && t[0] != '-' && t[0] != '+'
    requires Strings.TrimStart(t) == t
    ensures ParseIntText(t) == NaN
  {
    assert !HasHexPrefix(t);
    assert DecimalPrefix(t) == 0;
  }

  /** `parseInt` of a missing query parameter (`null`) is `NaN`. */
  lemma ParseIntNull()
    ensures ParseInt(Null) == NaN
  {
    var t := "null";
    assert Text(Null) == t;
    assert !Strings.IsWhitespace(t[0]);
    assert Strings.TrimStart(t) == t;
    ParseIntNonNumeric(t);
  }

  /** The index `Array.prototype.slice` uses for an argument `k`: a negative
      argument counts back from the end; the result is clamped to `0..len`. */
  function SliceIndex(k: int, len: nat): (r: nat)
    ensures r <= len
    ensures 0 <= k <= len ==> r == k
    ensures k > len ==> r == len
  {
    if k < 0 then (if len + k < 0 then 0 else len + k)
    else if k > len then len
    else k
  }

  /** `s.slice(begin, end)`. */
  function Slice<T>(s: seq<T>, begin: int, end: int): seq<T> {
    var b := SliceIndex(begin, |s|);
    var e := SliceIndex(end, |s|);
    if b < e then s[b..e] else []
  }

  function Min(a: int, b: int): int {
    if a <= b then a else b
  }

  /** With non-negative bounds, a slice is the window `[begin, end)` cut to the sequence. */
  lemma SliceWindow<T>(s: seq<T>, begin: int, end: int)
    requires 0 <= begin && 0 <= end
    ensures Slice(s, begin, end) ==
      (if Min(begin, |s|) < Min(end, |s|) then s[Min(begin, |s|)..Min(end, |s|)] else [])
    ensures begin <= end <= |s| ==> Slice(s, begin, end) == s[begin..end]
  {
  }

  /** `Math.floor(p / q)`. */
  function FloorDiv(p: int, q: int): (r: int)
    requires q != 0
    ensures q > 0 ==> r * q <= p < r * q + q
    ensures q < 0 ==> r * q >= p > r * q + q
  {
    if q > 0 then p / q else (-p) / (-q)
  }

  /** `Math.ceil(p / q)`. */
  function CeilDiv(p: int, q: int): (r: int)
    requires q != 0
    ensures q > 0 ==> r * q - q < p <= r * q
    ensures q < 0 ==> r * q - q > p >= r * q
  {
    -FloorDiv(-p, q)
  }

  /** `Math.round(p / q)` on the exact quotient: the integer nearest to p/q,
      halves rounded up (towards +infinity). */
  function RoundDiv(p: int, q: int): (r: int)
    requires q != 0
    ensures q > 0 ==> 2 * r * q - q <= 2 * p < 2 * r * q + q
    ensures q < 0 ==> 2 * r * q - q >= 2 * p > 2 * r * q + q
  {
    FloorDiv(2 * p + q, 2 * q)
  }

  /** `Math.round((a / b) * 100)`: a ratio as a whole percentage. */
  function Percent(a: int, b: int): int
    requires b != 0
  {
    RoundDiv(100 * a, b)
  }

  /** A ratio between 0 and 1 is a percentage between 0 and 100. */
  lemma PercentBounds(a: int, b: int)
    requires 0 <= a <= b && b != 0
    ensures 0 <= Percent(a, b) <= 100
  {
    var r := Percent(a, b);
    assert 2 * r * b - b <= 200 * a < 2 * r * b + b;
    assert 0 * b < (2 * r + 1) * b;
    FactorLess(0, 2 * r + 1, b);
    assert (2 * r - 1) * b < 201 * b;
    FactorLess(2 * r - 1, 201, b);
  }

  /** Two shares of the same whole that together do not exceed it round to
      percentages that add up to at most 101. */
  lemma PercentSum(a: int, b: int, t: int)
    requires 0 <= a && 0 <= b && a + b <= t && t > 0
    ensures Percent(a, t) + Percent(b, t) <= 101
  {
    var x := Percent(a, t);
    var y := Percent(b, t);
    var px := x * t;
    var py := y * t;
    assert 2 * px - t <= 200 * a;
    assert 2 * py - t <= 200 * b;
    assert (x + y - 1) * t == px + py - t;
    assert (x + y - 1) * t < 101 * t;
    FactorLess(x + y - 1, 101, t);
  }

  /** `a + b`: when either side is a string, or an array or object (which turn
      into their string form), the two texts are concatenated; otherwise both
      sides are converted with `Number` and added, `NaN` absorbing. */
  function Plus(a: Value, b: Value): (r: Value)
    ensures r.Str? <==> a.Str? || a.Arr? || a.Obj? || b.Str? || b.Arr? || b.Obj?
    ensures r.Str? ==> r.s == Text(a) + Text(b)
    ensures !r.Str? ==> (r.Num? <==> ToNumber(a).Num? && ToNumber(b).Num?) && (r.Num? || r.NaN?)
    ensures !r.Str? && r.Num? ==> r.n == ToNumber(a).n + ToNumber(b).n
  {
    if a.Str? || a.Arr? || a.Obj? || b.Str? || b.Arr? || b.Obj? then Str(Text(a) + Text(b))
    else
      var x := ToNumber(a);
      var y := ToNumber(b);
      if x.Num? && y.Num? then Num(x.n + y.n) else NaN
  }

  /** A number as `Math.round` returns it: an integer, an infinity or `NaN`. */
  datatype Rounded = Whole(n: int) | PlusInfinity | MinusInfinity | NotANumber

  /** `Math.round((a / b) * 100)` on the exact quotient: both sides go through
      `Number`; dividing by zero gives an infinity with the sign of `a`, and
      `0 / 0` or a `NaN` operand gives `NaN`. */
  function RoundedPercent(a: Value, b: Value): (r: Rounded)
    ensures r.NotANumber? <==>
      !ToNumber(a).Num? || !ToNumber(b).Num? || (ToNumber(a).n == 0 && ToNumber(b).n == 0)
    ensures ToNumber(a).Num? && ToNumber(b).Num? && ToNumber(b).n != 0 ==>
      r == Whole(Percent(ToNumber(a).n, ToNumber(b).n))
    ensures ToNumber(a).Num? && ToNumber(b) == Num(0) ==>
      (r.PlusInfinity? <==> ToNumber(a).n > 0) && (r.MinusInfinity? <==> ToNumber(a).n < 0)
  {
    var x := ToNumber(a);
    var y := ToNumber(b);
    if !x.Num? || !y.Num? then NotANumber
    else if y.n != 0 then Whole(Percent(x.n, y.n))
    else if x.n > 0 then PlusInfinity
    else if x.n < 0 then MinusInfinity
    else NotANumber
  }

  /** Cancelling a positive factor keeps a strict inequality. */
  lemma FactorLess(x: int, y: int, b: int)
    requires b > 0 && x * b < y * b
    ensures x < y
  {
    assert (y - x) * b > 0;
  }

  /** The percentage of a whole is 100 and of nothing is 0. */
  lemma PercentEnds(b: int)
    requires b > 0
    ensures Percent(0, b) == 0 && Percent(b, b) == 100
  {
    var z := Percent(0, b);
    assert 2 * z * b - b <= 0 < 2 * z * b + b;
    assert (2 * z - 1) * b < 1 * b;
    FactorLess(2 * z - 1, 1, b);
    assert 0 * b < (2 * z + 1) * b;
    FactorLess(0, 2 * z + 1, b);
    var w := Percent(b, b);
    assert 2 * w * b - b <= 200 * b < 2 * w * b + b;
    assert (2 * w - 1) * b < 201 * b;
    FactorLess(2 * w - 1, 201, b);
    assert 200 * b < (2 * w + 1) * b;
    FactorLess(200, 2 * w + 1, b);
  }
  /** What the modelled code can throw: `new Error(message)`, or the TypeError of
      reading a property of `null`/`undefined` or calling a method a value lacks. */
  datatype Exception = Error(message: string) | TypeError

  /** The UTF-16 code units of a string, which is what JavaScript strings are
      made of: a character beyond U+FFFF takes a surrogate pair. */
  function Utf16(s: string): (u: seq<int>)
    ensures |s| <= |u| <= 2 * |s|
    ensures (forall k :: 0 <= k < |s| ==> s[k] as int < 0x1_0000) ==> |u| == |s|
    ensures forall k :: 0 <= k < |u| ==> 0 <= u[k] < 0x1_0000
  {
    if |s| == 0 then []
    else
      var c := s[0] as int;
      var rest := Utf16(s[1..]);
      assert forall k :: 1 <= k < |s| ==> s[1..][k - 1] == s[k];
      if c < 0x1_0000 then [c] + rest
      else [0xD800 + (c - 0x1_0000) / 0x400, 0xDC00 + (c - 0x1_0000) % 0x400] + rest
  }

  /** A character beyond U+FFFF counts twice in `.length`. */
  lemma AstralLength()
    ensures |Utf16("😀😀😀")| == 6
    ensures |"😀😀😀"| == 3
  {
  }

  /** `a < b` on two strings: code unit by code unit, a proper prefix coming first. */
  predicate UnitsBefore(a: seq<int>, b: seq<int>) {
    if |a| == 0 then |b| > 0
    else |b| > 0 && (a[0] < b[0] || (a[0] == b[0] && UnitsBefore(a[1..], b[1..])))
  }

  /** The string order is a strict total order: of `a < b`, `a == b` and
      `b < a` exactly one holds. */
  lemma {:induction false} UnitsOrderTotal(a: seq<int>, b: seq<int>)
    ensures !(UnitsBefore(a, b) && UnitsBefore(b, a))
    ensures a == b ==> !UnitsBefore(a, b)
    ensures a != b ==> UnitsBefore(a, b) || UnitsBefore(b, a)
  {
    if |a| > 0 && |b| > 0 {
      UnitsOrderTotal(a[1..], b[1..]);
      if a[0] == b[0] && a != b {
        assert a == [a[0]] + a[1..] && b == [b[0]] + b[1..];
      }
    }
  }

  /** A string comes after every proper prefix of it. */
  lemma {:induction false} PrefixBefore(a: seq<int>, b: seq<int>)
    requires |b| > 0
    ensures UnitsBefore(a, a + b)
  {
    if |a| > 0 {
      assert (a + b)[1..] == a[1..] + b;
      PrefixBefore(a[1..], b);
    }
  }

  /** `v.key` without optional chaining: it throws on `null` and `undefined`. Of the
      properties of strings and arrays only `length` is read by the modelled code;
      a string's `length` counts its UTF-16 code units. */
  function Member(v: Value, key: string): (r: Result<Value, Exception>)
    ensures r.Failure? <==> v.Undefined? || v.Null?
    ensures r.Failure? ==> r.error == TypeError
    ensures v.Obj? ==> r == Success(Get(v.fields, key))
    ensures v.Str? && key == "length" ==> r == Success(Num(|Utf16(v.s)|))
    ensures v.Arr? && key == "length" ==> r == Success(Num(|v.items|))
  {
    match v
    case Undefined => Failure(TypeError)
    case Null => Failure(TypeError)
    case Obj(f) => Success(Get(f, key))
    case Str(s) => Success(if key == "length" then Num(|Utf16(s)|) else Undefined)
    case Arr(items) => Success(if key == "length" then Num(|items|) else Undefined)
    case _ => Success(Undefined)
  }

  /** `v.length` on a value that is neither `null` nor `undefined` (on those
      it would throw): the number of UTF-16 code units of a string, the size of
      an array, the `length` property of an object, and `undefined` on anything else. */
  function LengthOf(v: Value): (r: Value)
    ensures v.Str? ==> r == Num(|Utf16(v.s)|)
    ensures v.Arr? ==> r == Num(|v.items|)
    ensures !(v.Undefined? || v.Null?) ==> Member(v, "length") == Success(r)
  {
    match Member(v, "length")
    case Success(l) => l
    case Failure(_) => Undefined
  }

  /** `ToPrimitive` as a relational comparison applies it: an array or an
      object becomes its string form, any other value is already primitive.
      Converting first changes no `Number` reading. */
  function Primitive(v: Value): (r: Value)
    ensures !r.Arr? && !r.Obj?
    ensures v.Arr? || v.Obj? ==> r == Str(Text(v))
    ensures !v.Arr? && !v.Obj? ==> r == v
    ensures r.Str? ==> r.s == Text(v)
    ensures ToNumber(r) == ToNumber(v)
  {
    match v
    case Obj(_) =>
      assert Text(v) == "[object Object]";
      NumberOfWord("[object Object]");
      Str("[object Object]")
    case Arr(_) => Str(Text(v))
    case _ => v
  }

  /** `a < b`: both sides go through `ToPrimitive`; two strings then compare
      by their UTF-16 code units; otherwise both sides are converted with
      `Number` and a `NaN` on either side makes the comparison false. */
  function LessThan(a: Value, b: Value): (r: bool)
    ensures Primitive(a).Str? && Primitive(b).Str? ==> (r <==> UnitsBefore(Utf16(Text(a)), Utf16(Text(b))))
    ensures !(Primitive(a).Str? && Primitive(b).Str?) ==>
      (r <==> ToNumber(a).Num? && ToNumber(b).Num? && ToNumber(a).n < ToNumber(b).n)
  {
    var x := Primitive(a);
    var y := Primitive(b);
    if x.Str? && y.Str? then UnitsBefore(Utf16(x.s), Utf16(y.s))
    else
      var m := ToNumber(x);
      var n := ToNumber(y);
      m.Num? && n.Num? && m.n < n.n
  }

  /** `a >= b` under the same rules; on numbers `NaN` again makes it false, so
      this is the negation of `LessThan` only when both sides are strings
      after `ToPrimitive`. */
  function AtLeast(a: Value, b: Value): (r: bool)
    ensures Primitive(a).Str? && Primitive(b).Str? ==> (r <==> !UnitsBefore(Utf16(Text(a)), Utf16(Text(b))))
    ensures !(Primitive(a).Str? && Primitive(b).Str?) ==>
      (r <==> ToNumber(a).Num? && ToNumber(b).Num? && ToNumber(a).n >= ToNumber(b).n)
  {
    var x := Primitive(a);
    var y := Primitive(b);
    if x.Str? && y.Str? then !UnitsBefore(Utf16(x.s), Utf16(y.s))
    else
      var m := ToNumber(x);
      var n := ToNumber(y);
      m.Num? && n.Num? && m.n >= n.n
  }

  /** Two strings are compared as text, not as the numbers they spell: "9" is
      at least "10". */
  lemma TextComparison()
    ensures AtLeast(Str("9"), Str("10")) && !LessThan(Str("9"), Str("10"))
    ensures LessThan(Str("10"), Str("9"))
  {
  }

  /** The numbers nine and ten read from their texts. */
  lemma NineAndTen()
    ensures ToNumber(Str("9")) == Num(9) && ToNumber(Str("10")) == Num(10)
  {
    NumberNine();
    NumberTen();
  }

  lemma NumberNine()
    ensures ToNumber(Str("9")) == Num(9)
  {
    var t := "9";
    assert AllDigits(t) by { assert IsDigit(t[0]); }
    assert t[..0] == "";
    assert DigitsValue(t) == 9;
    NumberOfDigits(t);
  }

  lemma NumberTen()
    ensures ToNumber(Str("10")) == Num(10)
  {
    var t := "10";
    assert AllDigits(t) by { assert IsDigit(t[0]) && IsDigit(t[1]); }
    assert t[..1] == "1" && "1"[..0] == "";
    assert DigitsValue(t) == 10;
    NumberOfDigits(t);
  }

  /** An array holding "9" compares with "10" as the text "9", yet reads as
      the number 9. */
  lemma ArrayNineAgainstTen()
    ensures Primitive(Arr([Str("9")])) == Str("9")
    ensures AtLeast(Arr([Str("9")]), Str("10"))
    ensures ToNumber(Arr([Str("9")])) == Num(9)
  {
    var a := Arr([Str("9")]);
    ArrayNineText();
    assert Primitive(a) == Str("9");
    NumberNine();
    assert ToNumber(a) == StringToNumber("9") == ToNumber(Str("9"));
    TextComparison();
    assert !UnitsBefore(Utf16("9"), Utf16("10"));
  }

  lemma ArrayNineText()
    ensures Text(Arr([Str("9")])) == "9"
  {
    var items := [Str("9")];
    assert seq(|items|, i requires 0 <= i < |items| => ElementText(items[i])) == ["9"];
  }

  /** On two strings `>=` is the negation of `<`. */
  lemma StringsCompareTotally(a: string, b: string)
    ensures AtLeast(Str(a), Str(b)) <==> !LessThan(Str(a), Str(b))
    ensures AtLeast(Str(a), Str(b)) <==> a == b || LessThan(Str(b), Str(a))
  {
    UnitsOrderTotal(Utf16(a), Utf16(b));
    if a != b {
      Utf16Injective(a, b);
    }
  }

  /** When both sides are strings after `ToPrimitive`, `>=` holds exactly for
      equal texts or a smaller right side. */
  lemma TextsCompareTotally(a: Value, b: Value)
    ensures Primitive(a).Str? && Primitive(b).Str? ==>
      (AtLeast(a, b) <==> !LessThan(a, b)) && (AtLeast(a, b) <==> Text(a) == Text(b) || LessThan(b, a))
  {
    if Primitive(a).Str? && Primitive(b).Str? {
      var x := Utf16(Text(a));
      var y := Utf16(Text(b));
      UnitsOrderTotal(x, y);
      if Text(a) != Text(b) {
        Utf16Injective(Text(a), Text(b));
      }
      assert LessThan(a, b) <==> UnitsBefore(x, y);
      assert LessThan(b, a) <==> UnitsBefore(y, x);
      assert AtLeast(a, b) <==> !UnitsBefore(x, y);
    }
  }

  /** Different strings have different code units. */
  lemma {:induction false} Utf16Injective(a: string, b: string)
    requires a != b
    ensures Utf16(a) != Utf16(b)
  {
    if |a| > 0 && |b| > 0 {
      var ca := a[0] as int;
      var cb := b[0] as int;
      if ca == cb {
        assert a[0] == b[0];
        assert a == [a[0]] + a[1..] && b == [b[0]] + b[1..];
        Utf16Injective(a[1..], b[1..]);
        var n := if ca < 0x1_0000 then 1 else 2;
        assert Utf16(a)[n..] == Utf16(a[1..]);
        assert Utf16(b)[n..] == Utf16(b[1..]);
      } else if ca < 0x1_0000 && cb < 0x1_0000 {
        assert Utf16(a)[0] != Utf16(b)[0];
      } else if ca >= 0x1_0000 && cb >= 0x1_0000 {
        SurrogatePairInjective(ca, cb);
        assert Utf16(a)[..2] != Utf16(b)[..2];
      } else if ca < 0x1_0000 {
        assert Utf16(a)[0] == ca && 0xD800 <= Utf16(b)[0] < 0xDC00;
        assert ca < 0xD800 || ca > 0xDFFF;
      } else {
        assert Utf16(b)[0] == cb && 0xD800 <= Utf16(a)[0] < 0xDC00;
        assert cb < 0xD800 || cb > 0xDFFF;
      }
    } else if |a| > 0 {
      assert |Utf16(a)| > 0 == |Utf16(b)|;
    } else {
      assert |Utf16(b)| > 0 == |Utf16(a)|;
    }
  }

  lemma SurrogatePairInjective(x: int, y: int)
    requires 0x1_0000 <= x && 0x1_0000 <= y && x != y
    ensures (x - 0x1_0000) / 0x400 != (y - 0x1_0000) / 0x400
      || (x - 0x1_0000) % 0x400 != (y - 0x1_0000) % 0x400
  {
  }

  /** On two numbers the comparisons are the integer ones; against `NaN` or
      `undefined` both are false. */
  lemma CompareNumbers(a: int, b: int)
    ensures LessThan(Num(a), Num(b)) <==> a < b
    ensures AtLeast(Num(a), Num(b)) <==> a >= b
    ensures !LessThan(Undefined, Num(b)) && !AtLeast(Undefined, Num(b))
    ensures !LessThan(NaN, Num(b)) && !AtLeast(NaN, Num(b))
  {
  }

  /** `list.includes(v)` for a list of string literals (SameValueZero equality). */
  predicate IncludesStr(list: seq<string>, v: Value) {
    v.Str? && v.s in list
  }

  /** The properties a `fromApi`-style reader sees on its argument: those of an
      object, none on any other non-null value (apart from `length`, which no
      reader asks for), and a TypeError on `null` and `undefined`. */
  function Props(v: Value): (r: Result<Record, Exception>)
    ensures r.Failure? <==> v.Undefined? || v.Null?
    ensures r.Failure? ==> r.error == TypeError
    ensures r.Success? ==> forall k :: k != "length" ==> Member(v, k) == Success(Get(r.value, k))
  {
    match v
    case Undefined => Failure(TypeError)
    case Null => Failure(TypeError)
    case Obj(f) => Success(f)
    case _ => Success(map[])
  }

  /** `s.findIndex(p)`, with `None` for -1; `s.find(p)` is the element at that index. */
  function FindIndex<T>(s: seq<T>, p: T -> bool): (r: Option<nat>)
    ensures r.Some? ==> r.value < |s| && p(s[r.value])
    ensures r.Some? ==> forall j :: 0 <= j < r.value ==> !p(s[j])
    ensures r.None? ==> forall j :: 0 <= j < |s| ==> !p(s[j])
  {
    if |s| == 0 then None
    else if p(s[0]) then Some(0)
    else match FindIndex(s[1..], p)
      case None => None
      case Some(i) => Some(i + 1)
  }

  /** `s.filter(p)`: the elements satisfying `p`, in their original order
      (`FilterAppend`, `FilterMultiplicity`). */
  function Filter<T>(s: seq<T>, p: T -> bool): (r: seq<T>)
    ensures |r| <= |s|
    ensures forall k :: 0 <= k < |r| ==> p(r[k])
    ensures forall k :: 0 <= k < |r| ==> r[k] in s
    ensures forall k :: 0 <= k < |s| && p(s[k]) ==> s[k] in r
    ensures |s| == 1 ==> r == (if p(s[0]) then s else [])
  {
    if |s| == 0 then []
    else
      var rest := Filter(s[1..], p);
      assert forall k :: 1 <= k < |s| ==> s[k] == s[1..][k - 1];
      if p(s[0]) then [s[0]] + rest else rest
  }

  /** Filtering a concatenation filters each part and keeps them in order; with
      the one-element case of `Filter` this fixes the result to be the kept
      elements in their original order. */
  lemma {:induction false} FilterAppend<T>(s: seq<T>, t: seq<T>, p: T -> bool)
    ensures Filter(s + t, p) == Filter(s, p) + Filter(t, p)
  {
    if |s| > 0 {
      assert (s + t)[1..] == s[1..] + t;
      FilterAppend(s[1..], t, p);
    } else {
      assert s + t == t;
    }
  }

  /** Each element occurs in the result as often as in the input when it
      satisfies the test, and not at all otherwise. */
  lemma {:induction false} FilterMultiplicity<T>(s: seq<T>, p: T -> bool, x: T)
    ensures multiset(Filter(s, p))[x] == if p(x) then multiset(s)[x] else 0
  {
    if |s| > 0 {
      FilterMultiplicity(s[1..], p, x);
      assert s == [s[0]] + s[1..];
    }
  }

  /** Two tests that agree on every element filter alike. */
  lemma {:induction false} FilterCongruent<T>(s: seq<T>, p: T -> bool, q: T -> bool)
    requires forall k :: 0 <= k < |s| ==> p(s[k]) == q(s[k])
    ensures Filter(s, p) == Filter(s, q)
  {
    if |s| > 0 {
      assert forall k :: 0 <= k < |s| - 1 ==> s[1..][k] == s[k + 1];
      FilterCongruent(s[1..], p, q);
    }
  }

  /** Filtering keeps every element that satisfies the test, so the result is
      as long as the number of such elements. */
  lemma {:induction false} FilterCount<T>(s: seq<T>, p: T -> bool)
    ensures |Filter(s, p)| == |s| ==> forall k :: 0 <= k < |s| ==> p(s[k])
    ensures (forall k :: 0 <= k < |s| ==> p(s[k])) ==> Filter(s, p) == s
  {
    if |s| > 0 {
      FilterCount(s[1..], p);
      if |Filter(s, p)| == |s| {
        assert p(s[0]);
        assert |Filter(s[1..], p)| == |s[1..]|;
        forall k | 0 <= k < |s|
          ensures p(s[k])
        {
          if k > 0 {
            assert s[k] == s[1..][k - 1];
          }
        }
      }
      if forall k :: 0 <= k < |s| ==> p(s[k]) {
        assert forall k :: 0 <= k < |s| - 1 ==> p(s[1..][k]) by {
          forall k | 0 <= k < |s| - 1
            ensures p(s[1..][k])
          {
            assert s[1..][k] == s[k + 1];
          }
        }
        assert [s[0]] + s[1..] == s;
      }
    }
  }
}

=== FILE: leave_request_use_cases.dfy ===
/** The leave-request use cases of `usecases/leave_requests/leaveRequestUseCases.js`:
    the create and status-update checks, the disabled "my requests" list, and
    the per-course list. */
module LeaveRequestUseCases {
  import opened Wrappers
  import opened Js
  import opened UseCaseSupport

  const NoCourse: Exception := Error("Vui lòng chọn lớp học phần")
  const NoReason: Exception := Error("Vui lòng nhập lý do")
  const NoDate: Exception := Error("Vui lòng chọn ngày nghỉ")
  const NoType: Exception := Error("Vui lòng chọn loại nghỉ phép")
  const NoCourseId: Exception := Error("Course ID is required")
  const NoRequestId: Exception := Error("Request ID is required")
  const BadStatus: Exception := Error("Invalid status")

  /** The four fields of a new request, in the order they are checked. */
  const RequestFields: seq<string> := ["courseId", "reason", "requestDate", "type"]

  /** The message for each missing field, in the same order. */
  const RequestErrors: seq<Exception> := [NoCourse, NoReason, NoDate, NoType]

  /** The request `createLeaveRequestUseCase` sends: the four fields and no others. */
  function RequestPayload(data: Record): (v: Value)
    ensures v.Obj? && v.fields.Keys == set f | f in RequestFields
    ensures forall k :: 0 <= k < |RequestFields| ==> v.fields[RequestFields[k]] == Get(data, RequestFields[k])
  {
    Obj(map[
      "courseId" := Get(data, "courseId"),
      "reason" := Get(data, "reason"),
      "requestDate" := Get(data, "requestDate"),
      "type" := Get(data, "type")])
  }

  /** `createLeaveRequestUseCase(data)`. */
  function CreateRequest(data: Value, createRequest: Call): (r: Result<Value, Exception>)
    ensures (data.Undefined? || data.Null?) ==> r == Failure(TypeError)
  {
    var d :- Props(data);
    if !Truthy(Get(d, "courseId")) then Failure(NoCourse) else
    if !Truthy(Get(d, "reason")) then Failure(NoReason) else
    if !Truthy(Get(d, "requestDate")) then Failure(NoDate) else
    if !Truthy(Get(d, "type")) then Failure(NoType) else
    createRequest(RequestPayload(d))
  }

  /** The first missing field, in the order courseId, reason, requestDate,
      type, names the error, and no repository is consulted; with all four
      present exactly those four reach the repository. */
  lemma CreateRequestChecks(data: Record, createRequest: Call, other: Call)
    ensures Props(Obj(data)) == Success(data)
    ensures forall k :: (0 <= k < |RequestFields| && !Truthy(Get(data, RequestFields[k]))
      && (forall j :: 0 <= j < k ==> Truthy(Get(data, RequestFields[j])))) ==>
        CreateRequest(Obj(data), createRequest) == Failure(RequestErrors[k])
        && CreateRequest(Obj(data), other) == Failure(RequestErrors[k])
    ensures (forall k :: 0 <= k < |RequestFields| ==> Truthy(Get(data, RequestFields[k]))) ==>
      CreateRequest(Obj(data), createRequest) == createRequest(RequestPayload(data))
  {
    assert Props(Obj(data)) == Success(data);
    forall k | 0 <= k < |RequestFields| && !Truthy(Get(data, RequestFields[k]))
      && (forall j :: 0 <= j < k ==> Truthy(Get(data, RequestFields[j])))
      ensures CreateRequest(Obj(data), createRequest) == Failure(RequestErrors[k])
      ensures CreateRequest(Obj(data), other) == Failure(RequestErrors[k])
    {
      if k > 0 { assert Truthy(Get(data, RequestFields[0])); }
      if k > 1 { assert Truthy(Get(data, RequestFields[1])); }
      if k > 2 { assert Truthy(Get(data, RequestFields[2])); }
    }
    if forall k :: 0 <= k < |RequestFields| ==> Truthy(Get(data, RequestFields[k])) {
      assert Truthy(Get(data, RequestFields[0])) && Truthy(Get(data, RequestFields[1]));
      assert Truthy(Get(data, RequestFields[2])) && Truthy(Get(data, RequestFields[3]));
    }
  }

  /** Extra properties of the form never reach the repository. */
  lemma CreateRequestDropsExtras(data: Record, key: string, v: Value, createRequest: Call)
    requires key !in RequestFields
    ensures CreateRequest(Obj(data[key := v]), createRequest) == CreateRequest(Obj(data), createRequest)
  {
    assert forall f :: f in RequestFields ==> Get(data[key := v], f) == Get(data, f);
    assert RequestPayload(data[key := v]) == RequestPayload(data);
  }

  /** `getMyLeaveRequestsUseCase()`: disabled, always an empty list. */
  function MyRequests(): (r: Result<Value, Exception>)
    ensures r == Success(Arr([]))
  {
    Success(Arr([]))
  }

  /** `getLeaveRequestsByCourseUseCase(courseId)`: only an array response is kept. */
  function RequestsByCourse(courseId: Value, getRequests: Call): (r: Result<seq<Value>, Exception>)
    ensures !Truthy(courseId) ==> r == Failure(NoCourseId)
    ensures Truthy(courseId) && getRequests(courseId).Failure? ==> r == Failure(getRequests(courseId).error)
    ensures Truthy(courseId) && getRequests(courseId).Success? ==>
      r == Success(if getRequests(courseId).value.Arr? then getRequests(courseId).value.items else [])
  {
    if !Truthy(courseId) then Failure(NoCourseId) else
    var response :- getRequests(courseId);
    Success(if response.Arr? then response.items else [])
  }

  /** A paged object from the back end is not unwrapped: it comes out empty. */
  lemma PagedResponseIsDropped(courseId: Value, getRequests: Call, page: Record)
    requires Truthy(courseId) && getRequests(courseId) == Success(Obj(page))
    requires Get(page, "content").Arr? && |Get(page, "content").items| > 0
    ensures RequestsByCourse(courseId, getRequests) == Success([])
  {
  }

  /** The statuses a lecturer may set. */
  const Decisions: seq<string> := ["APPROVED", "REJECTED"]

  /** The repository's status update: the request id and the new status. */
  type UpdateCall = (Value, Value) -> Result<Value, Exception>

  /** `updateLeaveRequestStatusUseCase(requestId, status)`. */
  function UpdateStatus(requestId: Value, status: Value, updateStatus: UpdateCall): (r: Result<Value, Exception>)
    ensures !Truthy(requestId) ==> r == Failure(NoRequestId)
    ensures Truthy(requestId) && !IncludesStr(Decisions, status) ==> r == Failure(BadStatus)
    ensures Truthy(requestId) && IncludesStr(Decisions, status) ==> r == updateStatus(requestId, status)
  {
    if !Truthy(requestId) then Failure(NoRequestId) else
    if !IncludesStr(Decisions, status) then Failure(BadStatus) else
    updateStatus(requestId, status)
  }

  /** A request cannot be set back to PENDING, and only the two string
      decisions reach the repository. */
  lemma OnlyDecisionsPass(requestId: Value, status: Value, updateStatus: UpdateCall, other: UpdateCall)
    requires Truthy(requestId)
    ensures UpdateStatus(requestId, Str("PENDING"), updateStatus) == Failure(BadStatus)
    ensures status != Str("APPROVED") && status != Str("REJECTED") ==>
      UpdateStatus(requestId, status, updateStatus) == UpdateStatus(requestId, status, other)
  {
  }
}

=== FILE: lecturer_leave_requests.dfy ===
/** The lecturer's leave-request page of `pages/lecturer/LecturerLeaveRequests.jsx`:
    loading the requests of the chosen course, the pending rule behind the
    badges and the approve/reject buttons, the in-place status update after
    a decision, and the labels of the request types. The requests are the
    objects the back end returned. */
module LecturerLeaveRequests {
  import opened Wrappers
  import opened Js
  import opened UseCaseSupport

  /** The status update the page awaits: request id, new status. */
  type UpdateCall = (Value, Value) -> Result<Value, Exception>

  const Pending: Value := Str("PENDING")
  const Approved: Value := Str("APPROVED")
  const Rejected: Value := Str("REJECTED")

  /** `fetchRequests`: no course chosen clears the list without a call; a
      failed load keeps the list shown before. */
  function LoadRequests(shown: Value, selectedCourseId: Value, getRequests: Call): (r: Value)
    ensures !Truthy(selectedCourseId) ==> r == Arr([])
    ensures Truthy(selectedCourseId) ==>
      r == (if getRequests(selectedCourseId).Success? then getRequests(selectedCourseId).value else shown)
  {
    if !Truthy(selectedCourseId) then Arr([])
    else match getRequests(selectedCourseId)
      case Success(res) => res
      case Failure(_) => shown
  }

  /** Clearing the choice ignores the back end altogether. */
  lemma EmptySelectionClears(shown: Value, before: Value, selectedCourseId: Value, getRequests: Call, other: Call)
    requires !Truthy(selectedCourseId)
    ensures LoadRequests(shown, selectedCourseId, getRequests) == LoadRequests(before, selectedCourseId, other)
  {
  }

  /** A request awaits a decision when its status is PENDING or `null`;
      a missing status does not count. */
  predicate IsPending(req: Record) {
    StrictEquals(Get(req, "status"), Pending) || StrictEquals(Get(req, "status"), Null)
  }

  lemma IsPendingIff(req: Record)
    ensures IsPending(req) <==> "status" in req && (req["status"] == Pending || req["status"] == Null)
  {
  }

  /** The status badges of a row. */
  function Badges(req: Record): (b: seq<string>)
    ensures |b| <= 1
    ensures |b| == 1 <==> IsPending(req) || Get(req, "status") in {Approved, Rejected}
  {
    (if IsPending(req) then ["Chờ duyệt"] else [])
    + (if StrictEquals(Get(req, "status"), Approved) then ["Đã duyệt"] else [])
    + (if StrictEquals(Get(req, "status"), Rejected) then ["Từ chối"] else [])
  }

  /** What the action cell shows. */
  datatype Actions = Decide(approve: Value, reject: Value) | Settled

  /** The buttons of a pending row, and "Đã xử lý" otherwise. */
  function RowActions(req: Record): (a: Actions)
    ensures a.Decide? <==> IsPending(req)
    ensures a.Decide? ==> a.approve == Approved && a.reject == Rejected
  {
    if IsPending(req) then Decide(Approved, Rejected) else Settled
  }

  /** The request a successful decision leaves in the list: the same object
      with the new status. */
  function WithStatus(req: Record, status: Value): (r: Record)
    ensures r.Keys == req.Keys + {"status"}
    ensures Get(r, "status") == status
    ensures forall k :: k in req && k != "status" ==> r[k] == req[k]
  {
    req["status" := status]
  }

  /** The list after the local update: the request with the given id gets
      the new status, every other one stays as it was. */
  function Updated(requests: seq<Record>, requestId: Value, status: Value): (r: seq<Record>)
    ensures |r| == |requests|
    ensures forall i :: 0 <= i < |r| ==>
      r[i] == (if StrictEquals(Get(requests[i], "id"), requestId) then WithStatus(requests[i], status) else requests[i])
  {
    seq(|requests|, i requires 0 <= i < |requests| =>
      if StrictEquals(Get(requests[i], "id"), requestId) then WithStatus(requests[i], status) else requests[i])
  }

  /** The toast a decision shows. */
  function Notice(status: Value, outcome: Result<Value, Exception>): (m: string)
    ensures outcome.Failure? ==> m == "Có lỗi xảy ra khi cập nhật trạng thái"
    ensures outcome.Success? && status == Approved ==> m == "Đã duyệt đơn thành công"
    ensures outcome.Success? && status != Approved ==> m == "Đã từ chối đơn thành công"
  {
    if outcome.Failure? then "Có lỗi xảy ra khi cập nhật trạng thái"
    else "Đã " + (if StrictEquals(status, Approved) then "duyệt" else "từ chối") + " đơn thành công"
  }

  /** `handleAction(requestId, status)`: the list shown afterwards and the toast. */
  function HandleAction(requests: seq<Record>, requestId: Value, status: Value, update: UpdateCall):
    (r: (seq<Record>, string))
    ensures update(requestId, status).Failure? ==> r.0 == requests
    ensures update(requestId, status).Success? ==> r.0 == Updated(requests, requestId, status)
    ensures r.1 == Notice(status, update(requestId, status))
  {
    var outcome := update(requestId, status);
    (if outcome.Success? then Updated(requests, requestId, status) else requests, Notice(status, outcome))
  }

  /** A decision changes nothing but the status of the matching requests:
      the order and length of the list, every other request, and every other
      field stay. */
  lemma OnlyStatusChanges(requests: seq<Record>, requestId: Value, status: Value, update: UpdateCall)
    ensures var after := HandleAction(requests, requestId, status, update).0;
      |after| == |requests|
      && (forall i :: 0 <= i < |after| && !StrictEquals(Get(requests[i], "id"), requestId) ==> after[i] == requests[i])
      && (forall i, k :: 0 <= i < |after| && k != "status" ==> Get(after[i], k) == Get(requests[i], k))
  {
    var after := HandleAction(requests, requestId, status, update).0;
    forall i, k | 0 <= i < |after| && k != "status" ensures Get(after[i], k) == Get(requests[i], k) {
      if update(requestId, status).Success? && StrictEquals(Get(requests[i], "id"), requestId) {
        assert after[i] == WithStatus(requests[i], status);
      }
    }
  }

  /** After a successful approval or rejection, the decided request is no
      longer pending and offers no more buttons. */
  lemma DecidedIsSettled(requests: seq<Record>, requestId: Value, status: Value, update: UpdateCall, i: nat)
    requires status == Approved || status == Rejected
    requires update(requestId, status).Success?
    requires i < |requests| && StrictEquals(Get(requests[i], "id"), requestId)
    ensures var after := HandleAction(requests, requestId, status, update).0;
      !IsPending(after[i]) && RowActions(after[i]) == Settled && |Badges(after[i])| == 1
  {
    var after := HandleAction(requests, requestId, status, update).0;
    assert after[i] == WithStatus(requests[i], status);
  }

  /** Repeating a decision that succeeded both times leaves the list as the
      first one did. */
  lemma DecisionIdempotent(requests: seq<Record>, requestId: Value, status: Value)
    ensures Updated(Updated(requests, requestId, status), requestId, status) == Updated(requests, requestId, status)
  {
    var once := Updated(requests, requestId, status);
    var twice := Updated(once, requestId, status);
    forall i | 0 <= i < |requests| ensures twice[i] == once[i] {
      assert Get(once[i], "id") == Get(requests[i], "id");
      if StrictEquals(Get(requests[i], "id"), requestId) {
        assert WithStatus(once[i], status) == once[i];
      }
    }
  }

  /** `renderType(type)`: the label of ABSENCE and LATE (looked up by the
      type's property key), any other truthy type as it is, and 'Nghỉ học'
      for a missing one. */
  function RenderType(t: Value): (r: Value)
    ensures Text(t) == "ABSENCE" ==> r == Str("Nghỉ học")
    ensures Text(t) == "LATE" ==> r == Str("Đi muộn")
    ensures Text(t) != "ABSENCE" && Text(t) != "LATE" ==> r == (if Truthy(t) then t else Str("Nghỉ học"))
  {
    var key := Text(t);
    if key == "ABSENCE" then Str("Nghỉ học")
    else if key == "LATE" then Str("Đi muộn")
    else Or(t, Str("Nghỉ học"))
  }

  /** Every rendered type is truthy, and a missing type reads as an absence. */
  lemma RenderTypeTotal(t: Value)
    ensures Truthy(RenderType(t))
    ensures !Truthy(t) ==> RenderType(t) == RenderType(Str("ABSENCE"))
  {
  }
}

=== FILE: mock_attendance.dfy ===
/** The attendance handlers of the mock back end (`mocks/handlers.js`): starting
    and closing a session, a student's QR check-in, and a student's history.
    The sessions live in the database under `attendance_sessions`; each handler
    is a function from that collection (absent until the first session starts)
    and the request to the new collection and the response. Clock readings
    (`Date.now()`, the ISO time) and the random QR token are parameters. */
module MockAttendance {
  import opened Wrappers
  import opened Js
  import opened MockDb

  /** One check-in as the mock stores it. */
  datatype CheckInRecord = CheckInRecord(id: int, sessionId: int, checkInTime: string, status: string)

  /** One attendance session as the mock stores it. The course id is whatever
      `Number(courseId)` gave, so it may be `NaN`. */
  datatype Session = Session(
    id: int,
    sessionId: int,
    courseId: Value,
    startTime: string,
    endTime: Option<string>,
    status: string,
    qrCodeData: string,
    presentCount: int,
    totalStudents: int,
    records: seq<CheckInRecord>)

  /** The `attendance_sessions` collection, `None` while the key is missing. */
  type Sessions = Option<seq<Session>>

  /** The sessions the handlers see: a missing collection reads as empty. */
  function Current(db: Sessions): seq<Session> {
    db.GetOr([])
  }

  predicate IsOpen(s: Session) {
    s.status == "OPEN"
  }

  /** `s.courseId === Number(courseId)`. */
  predicate OfCourse(s: Session, course: Value) {
    StrictEquals(s.courseId, ToNumber(course))
  }

  /** The invariant: no two OPEN sessions belong to the same course (a `NaN`
      course id belongs to no course, since `NaN !== NaN`). */
  predicate AtMostOneOpenPerCourse(ss: seq<Session>) {
    forall i, j :: 0 <= i < j < |ss| && IsOpen(ss[i]) && IsOpen(ss[j]) ==>
      !StrictEquals(ss[i].courseId, ss[j].courseId)
  }

  /** Any change that only closes sessions keeps the invariant. */
  lemma OnlyClosingPreserves(before: seq<Session>, after: seq<Session>)
    requires |before| == |after|
    requires forall i :: 0 <= i < |after| ==> after[i].courseId == before[i].courseId
    requires forall i :: 0 <= i < |after| && IsOpen(after[i]) ==> IsOpen(before[i])
    requires AtMostOneOpenPerCourse(before)
    ensures AtMostOneOpenPerCourse(after)
  {
  }

  function SessionJson(s: Session): Value {
    Obj(map[
      "id" := Num(s.id), "sessionId" := Num(s.sessionId), "courseId" := s.courseId,
      "startTime" := Str(s.startTime),
      "endTime" := match s.endTime case Some(t) => Str(t) case None => Null,
      "status" := Str(s.status), "qrCodeData" := Str(s.qrCodeData),
      "presentCount" := Num(s.presentCount), "totalStudents" := Num(s.totalStudents),
      "records" := Arr(seq(|s.records|, k requires 0 <= k < |s.records| => RecordJson(s.records[k])))])
  }

  function RecordJson(r: CheckInRecord): Value {
    Obj(map[
      "id" := Num(r.id), "sessionId" := Num(r.sessionId),
      "checkInTime" := Str(r.checkInTime), "status" := Str(r.status)])
  }

  /** Every OPEN session of the course, closed; everything else unchanged. */
  function CloseOpenOfCourse(ss: seq<Session>, course: Value): (r: seq<Session>)
    ensures |r| == |ss|
    ensures forall i :: 0 <= i < |ss| ==>
      r[i] == (if OfCourse(ss[i], course) && IsOpen(ss[i]) then ss[i].(status := "CLOSED") else ss[i])
  {
    seq(|ss|, i requires 0 <= i < |ss| =>
      if OfCourse(ss[i], course) && IsOpen(ss[i]) then ss[i].(status := "CLOSED") else ss[i])
  }

  /** POST /attendance/start-session with body `{ courseId }`. `id` and
      `sessionId` are the two `Date.now()` readings, `startTime` the ISO time
      and `token` the generated UUID. */
  function StartSession(db: Sessions, courseId: Value, id: int, sessionId: int, startTime: string, token: string)
    : (result: (Sessions, Response))
    ensures result.0.Some? && |result.0.value| == |Current(db)| + 1
    ensures result.1.status == 200
  {
    var closed := CloseOpenOfCourse(Current(db), courseId);
    var started := Session(id, sessionId, ToNumber(courseId), startTime, None, "OPEN", token, 0, 0, []);
    (Some(closed + [started]), Response(200, SessionJson(started)))
  }

  /** The session start-session appends: OPEN, no end time, nothing counted,
      for the course `Number(courseId)`, with the given token. */
  lemma StartSessionNewSession(db: Sessions, courseId: Value, id: int, sessionId: int, startTime: string, token: string)
    ensures var ss := StartSession(db, courseId, id, sessionId, startTime, token).0.value;
      var s := ss[|ss| - 1];
      IsOpen(s) && s.endTime.None? && s.presentCount == 0 && s.records == []
      && s.courseId == ToNumber(courseId) && s.qrCodeData == token && s.id == id
      && StartSession(db, courseId, id, sessionId, startTime, token).1.body == SessionJson(s)
  {
  }

  /** start-session closes the course's OPEN sessions, changes no other field,
      and leaves the sessions of other courses exactly as they were. */
  lemma StartSessionClosesOnlyThatCourse(db: Sessions, courseId: Value, id: int, sessionId: int, startTime: string, token: string)
    ensures var ss := StartSession(db, courseId, id, sessionId, startTime, token).0.value;
      var before := Current(db);
      (forall i :: 0 <= i < |before| && !OfCourse(before[i], courseId) ==> ss[i] == before[i])
      && (forall i :: 0 <= i < |before| && OfCourse(before[i], courseId) ==> !IsOpen(ss[i]))
      && (forall i :: 0 <= i < |before| ==> ss[i] == before[i].(status := ss[i].status))
  {
  }

  /** After start-session the new session is the only OPEN one of its course,
      whatever the state before; and the invariant is preserved. */
  lemma {:induction false} StartSessionPreservesInvariant(db: Sessions, courseId: Value, id: int, sessionId: int, startTime: string, token: string)
    requires AtMostOneOpenPerCourse(Current(db))
    ensures var ss := StartSession(db, courseId, id, sessionId, startTime, token).0.value;
      AtMostOneOpenPerCourse(ss)
      && forall i :: 0 <= i < |ss| - 1 && IsOpen(ss[i]) ==> !OfCourse(ss[i], courseId)
  {
    var before := Current(db);
    var closed := CloseOpenOfCourse(before, courseId);
    var ss := StartSession(db, courseId, id, sessionId, startTime, token).0.value;
    assert ss == closed + [ss[|ss| - 1]];
    OnlyClosingPreserves(before, closed);
    forall i, j | 0 <= i < j < |ss| && IsOpen(ss[i]) && IsOpen(ss[j])
      ensures !StrictEquals(ss[i].courseId, ss[j].courseId)
    {
      if j == |ss| - 1 {
        assert ss[i] == closed[i];
        assert !OfCourse(before[i], courseId);
      } else {
        assert ss[i] == closed[i] && ss[j] == closed[j];
      }
    }
  }

  /** `s.id === Number(sessionId) || s.sessionId === Number(sessionId)`. */
  predicate HasId(s: Session, sessionId: Value) {
    StrictEquals(Num(s.id), ToNumber(sessionId)) || StrictEquals(Num(s.sessionId), ToNumber(sessionId))
  }

  /** POST /attendance/close-session with body `{ sessionId }`; `endTime` is the
      ISO time. The first session with that id or session id is closed. */
  function CloseSession(db: Sessions, sessionId: Value, endTime: string): (result: (Sessions, Response))
    ensures result.1.status == 200 || result.1.status == 404
    ensures result.1.status == 404 <==> forall i :: 0 <= i < |Current(db)| ==> !HasId(Current(db)[i], sessionId)
    ensures result.1.status == 404 ==> result.0 == db
  {
    var ss := Current(db);
    match FindIndex(ss, s => HasId(s, sessionId))
    case None => (db, Response(404, Message("Session not found")))
    case Some(i) =>
      (Some(ss[i := ss[i].(status := "CLOSED", endTime := Some(endTime))]),
       Response(200, Obj(map["status" := Str("CLOSED")])))
  }

  /** On a known id, close-session closes the first matching session, whatever
      its status, stamps its end time and touches nothing else. */
  lemma CloseSessionKnown(db: Sessions, sessionId: Value, endTime: string, i: nat)
    requires i < |Current(db)| && HasId(Current(db)[i], sessionId)
    requires forall j :: 0 <= j < i ==> !HasId(Current(db)[j], sessionId)
    ensures var (after, resp) := CloseSession(db, sessionId, endTime);
      resp.status == 200 && after.Some? && |after.value| == |Current(db)|
      && after.value[i] == Current(db)[i].(status := "CLOSED", endTime := Some(endTime))
      && (forall j :: 0 <= j < |Current(db)| && j != i ==> after.value[j] == Current(db)[j])
  {
    var ss := Current(db);
    var k := FindIndex(ss, s => HasId(s, sessionId));
    assert k == Some(i);
  }

  /** close-session keeps the invariant. */
  lemma CloseSessionPreservesInvariant(db: Sessions, sessionId: Value, endTime: string)
    requires AtMostOneOpenPerCourse(Current(db))
    ensures AtMostOneOpenPerCourse(Current(CloseSession(db, sessionId, endTime).0))
  {
    var ss := Current(db);
    match FindIndex(ss, s => HasId(s, sessionId))
    case None =>
    case Some(i) =>
      OnlyClosingPreserves(ss, Current(CloseSession(db, sessionId, endTime).0));
  }

  /** `s.qrCodeData === qrCodeData && s.status === 'OPEN'`. */
  predicate AcceptsToken(s: Session, qrCodeData: Value) {
    StrictEquals(Str(s.qrCodeData), qrCodeData) && IsOpen(s)
  }

  /** POST /attendance/check-in with body `{ qrCodeData, courseId }`; `id` is
      the `Date.now()` reading and `checkInTime` the ISO time. */
  function CheckIn(db: Sessions, body: Record, id: int, checkInTime: string): (result: (Sessions, Response))
    ensures result.1.status == 200 || result.1.status == 400
    ensures result.1.status == 400 ==> result.0 == db
    ensures result.1.status == 200 <==>
      db.Some? && exists i :: 0 <= i < |db.value| && AcceptsToken(db.value[i], Get(body, "qrCodeData"))
  {
    match db
    case None => (db, Response(400, Message("No sessions found")))
    case Some(ss) =>
      var qr := Get(body, "qrCodeData");
      match FindIndex(ss, s => AcceptsToken(s, qr))
      case None => (db, Response(400, Message("QR code không hợp lệ hoặc phiên đã đóng")))
      case Some(i) =>
        var records := ss[i].records + [CheckInRecord(id, ss[i].id, checkInTime, "PRESENT")];
        (Some(ss[i := ss[i].(records := records, presentCount := |records|)]),
         Response(200, Obj(map[
           "status" := Str("SUCCESS"), "message" := Str("Điểm danh thành công!"),
           "attendanceStatus" := Str("PRESENT"), "checkInTime" := Str(checkInTime)])))
  }

  /** A successful check-in appends one PRESENT record to the first session that
      accepts the token and sets its present count to its number of records;
      no other session and no other field changes. */
  lemma CheckInAppendsOne(db: Sessions, body: Record, id: int, checkInTime: string, i: nat)
    requires db.Some? && i < |db.value| && AcceptsToken(db.value[i], Get(body, "qrCodeData"))
    requires forall j :: 0 <= j < i ==> !AcceptsToken(db.value[j], Get(body, "qrCodeData"))
    ensures var after := CheckIn(db, body, id, checkInTime).0;
      var s := db.value[i];
      after.Some? && |after.value| == |db.value|
      && after.value[i].records == s.records + [CheckInRecord(id, s.id, checkInTime, "PRESENT")]
      && after.value[i].presentCount == |after.value[i].records|
      && after.value[i] == s.(records := after.value[i].records, presentCount := after.value[i].presentCount)
      && (forall j :: 0 <= j < |db.value| && j != i ==> after.value[j] == db.value[j])
  {
    var qr := Get(body, "qrCodeData");
    var k := FindIndex(db.value, s => AcceptsToken(s, qr));
    assert k == Some(i);
  }

  /** The check-in never looks at the submitted course id. */
  lemma CheckInIgnoresCourse(db: Sessions, body: Record, id: int, checkInTime: string, other: Value)
    ensures CheckIn(db, body, id, checkInTime) == CheckIn(db, body["courseId" := other], id, checkInTime)
  {
    assert Get(body, "qrCodeData") == Get(body["courseId" := other], "qrCodeData");
  }

  /** No duplicate check: checking in twice with the same token records twice. */
  lemma CheckInTwice(db: Sessions, body: Record, id1: int, id2: int, t1: string, t2: string, i: nat)
    requires db.Some? && i < |db.value| && AcceptsToken(db.value[i], Get(body, "qrCodeData"))
    requires forall j :: 0 <= j < i ==> !AcceptsToken(db.value[j], Get(body, "qrCodeData"))
    ensures var once := CheckIn(db, body, id1, t1).0;
      var twice := CheckIn(once, body, id2, t2);
      twice.1.status == 200 && |twice.0.value[i].records| == |db.value[i].records| + 2
  {
    CheckInAppendsOne(db, body, id1, t1, i);
    var once := CheckIn(db, body, id1, t1).0;
    CheckInAppendsOne(once, body, id2, t2, i);
  }

  /** check-in changes no status and no course id, so it keeps the invariant. */
  lemma CheckInPreservesInvariant(db: Sessions, body: Record, id: int, checkInTime: string)
    requires AtMostOneOpenPerCourse(Current(db))
    ensures var after := Current(CheckIn(db, body, id, checkInTime).0);
      |after| == |Current(db)|
      && (forall i :: 0 <= i < |after| ==>
            after[i].status == Current(db)[i].status && after[i].courseId == Current(db)[i].courseId)
      && AtMostOneOpenPerCourse(after)
  {
    var after := Current(CheckIn(db, body, id, checkInTime).0);
    if db.Some? {
      var qr := Get(body, "qrCodeData");
      match FindIndex(db.value, s => AcceptsToken(s, qr))
      case None =>
      case Some(i) =>
        OnlyClosingPreserves(Current(db), after);
    }
  }

  /** A course's history line for one session. */
  datatype HistoryEntry = HistoryEntry(sessionId: int, sessionDate: string, checkInTime: Option<string>, status: string)

  function EntryOf(s: Session): (e: HistoryEntry)
    ensures e.sessionId == s.id && e.sessionDate == s.startTime
    ensures e.status == "PRESENT" <==> |s.records| > 0
    ensures e.status == "ABSENT" <==> |s.records| == 0
    ensures |s.records| > 0 ==> e.checkInTime == Some(s.records[0].checkInTime)
    ensures |s.records| == 0 ==> e.checkInTime.None?
  {
    if |s.records| > 0 then HistoryEntry(s.id, s.startTime, Some(s.records[0].checkInTime), "PRESENT")
    else HistoryEntry(s.id, s.startTime, None, "ABSENT")
  }

  function EntryJson(e: HistoryEntry): Value {
    Obj(map[
      "sessionId" := Num(e.sessionId), "sessionDate" := Str(e.sessionDate),
      "checkInTime" := match e.checkInTime case Some(t) => Str(t) case None => Null,
      "status" := Str(e.status)])
  }

  /** The test the history filters the sessions with. */
  function InCourse(courseId: string): Session -> bool {
    s => OfCourse(s, Str(courseId))
  }

  /** The entries of GET /attendance/history/:courseId: one per session of the
      course, in order. */
  function HistoryEntries(db: Sessions, courseId: string): (es: seq<HistoryEntry>)
    ensures var cs := Filter(Current(db), InCourse(courseId));
      |es| == |cs| && forall k :: 0 <= k < |es| ==> es[k] == EntryOf(cs[k])
  {
    EntriesOf(Filter(Current(db), InCourse(courseId)))
  }

  /** One entry per given session. */
  function EntriesOf(cs: seq<Session>): (es: seq<HistoryEntry>)
    ensures |es| == |cs| && forall k :: 0 <= k < |es| ==> es[k] == EntryOf(cs[k])
  {
    seq(|cs|, k requires 0 <= k < |cs| => EntryOf(cs[k]))
  }

  lemma EntriesOfAppend(x: seq<Session>, y: seq<Session>)
    ensures EntriesOf(x + y) == EntriesOf(x) + EntriesOf(y)
  {
    assert forall k :: 0 <= k < |x| ==> (x + y)[k] == x[k];
    assert forall k :: |x| <= k < |x| + |y| ==> (x + y)[k] == y[k - |x|];
  }

  /** The history of two runs of sessions is the history of each, in order;
      with `HistoryEntriesOne` this makes the entries follow the stored order,
      one per session of the course. */
  lemma HistoryEntriesAppend(a: Sessions, b: Sessions, c: Sessions, courseId: string)
    requires Current(c) == Current(a) + Current(b)
    ensures HistoryEntries(c, courseId) == HistoryEntries(a, courseId) + HistoryEntries(b, courseId)
  {
    var p := InCourse(courseId);
    FilterAppend(Current(a), Current(b), p);
    EntriesOfAppend(Filter(Current(a), p), Filter(Current(b), p));
  }

  /** A single stored session contributes its entry exactly when it belongs to
      the course. */
  lemma HistoryEntriesOne(db: Sessions, courseId: string)
    requires |Current(db)| == 1
    ensures HistoryEntries(db, courseId) ==
      (if OfCourse(Current(db)[0], Str(courseId)) then [EntryOf(Current(db)[0])] else [])
  {
  }

  /** GET /attendance/history/:courseId. The status of an entry only says that
      someone checked in to that session, not which student. */
  function History(db: Sessions, courseId: string): (result: (Sessions, Response))
    ensures result.0 == db && result.1.status == 200
    ensures db.None? ==> result.1.body == Arr([])
  {
    if db.None? then (db, Response(200, Arr([])))
    else
      var es := HistoryEntries(db, courseId);
      (db, Response(200, Arr(seq(|es|, k requires 0 <= k < |es| => EntryJson(es[k])))))
  }

  /** Every session of the course appears in the history as PRESENT exactly
      when it has some check-in; no other session appears. */
  lemma HistoryCoversCourse(db: Sessions, courseId: string)
    ensures forall i :: 0 <= i < |Current(db)| && OfCourse(Current(db)[i], Str(courseId)) ==>
      EntryOf(Current(db)[i]) in HistoryEntries(db, courseId)
    ensures forall e :: e in HistoryEntries(db, courseId) ==>
      exists i :: 0 <= i < |Current(db)| && OfCourse(Current(db)[i], Str(courseId)) && e == EntryOf(Current(db)[i])
  {
    HistoryHasCourseSessions(db, courseId);
    HistoryHasOnlyCourseSessions(db, courseId);
  }

  lemma HistoryHasCourseSessions(db: Sessions, courseId: string)
    ensures forall i :: 0 <= i < |Current(db)| && OfCourse(Current(db)[i], Str(courseId)) ==>
      EntryOf(Current(db)[i]) in HistoryEntries(db, courseId)
  {
    var ss := Current(db);
    var cs := Filter(ss, InCourse(courseId));
    var es := HistoryEntries(db, courseId);
    forall i | 0 <= i < |ss| && OfCourse(ss[i], Str(courseId))
      ensures EntryOf(ss[i]) in es
    {
      assert ss[i] in cs;
      var k :| 0 <= k < |cs| && cs[k] == ss[i];
      assert es[k] == EntryOf(ss[i]);
    }
  }

  lemma HistoryHasOnlyCourseSessions(db: Sessions, courseId: string)
    ensures forall e :: e in HistoryEntries(db, courseId) ==>
      exists i :: 0 <= i < |Current(db)| && OfCourse(Current(db)[i], Str(courseId)) && e == EntryOf(Current(db)[i])
  {
    var ss := Current(db);
    var cs := Filter(ss, InCourse(courseId));
    var es := HistoryEntries(db, courseId);
    forall e | e in es
      ensures exists i :: 0 <= i < |ss| && OfCourse(ss[i], Str(courseId)) && e == EntryOf(ss[i])
    {
      var k :| 0 <= k < |es| && es[k] == e;
      assert cs[k] in ss;
      var i :| 0 <= i < |ss| && ss[i] == cs[k];
      assert OfCourse(ss[i], Str(courseId));
    }
  }

  /** A start for a course whose id is not a number yields a session that no
      later start, history or course filter will ever match. */
  lemma NonNumericCourseNeverMatches(db: Sessions, id: int, sessionId: int, startTime: string, token: string, later: Value)
    ensures var ss := StartSession(db, Str("abc"), id, sessionId, startTime, token).0.value;
      ss[|ss| - 1].courseId == NaN && !OfCourse(ss[|ss| - 1], later)
  {
    var t := "abc";
    assert t[0] == 'a' && t[|t| - 1] == 'c';
    NumberOfWord(t);
  }
}

=== FILE: mock_db.dfy ===
/** The mock database of `mocks/db.js`: a JSON object kept in local storage
    under one key, read back over the built-in seed data, and the
    auto-increment id helper. */
module MockDb {
  import opened Wrappers
  import opened Js

  /** An HTTP response of a mock handler: status code and JSON body. */
  datatype Response = Response(status: int, body: Value)

  /** The `{ message }` body of the mock's error responses. */
  function Message(text: string): Value {
    Obj(map["message" := Str(text)])
  }

  /** What local storage holds under the database key: nothing (or the empty
      string), text that does not parse to an object (a JSON syntax error or
      `null`, both of which make `getDB` fall back to the seed), or a saved object. */
  datatype Stored = Nothing | Unreadable | Saved(data: Record)

  /** The two collections `getDB` guarantees to be present. */
  const GuaranteedKeys: set<string> := {"sessions", "attendanceRecords"}

  /** `getDB()`: the seed overlaid with the stored object, with `sessions` and
      `attendanceRecords` defaulting to empty lists. */
  function GetDb(seed: Record, stored: Stored): (db: Record)
    ensures !stored.Saved? ==> db == seed
    ensures stored.Saved? ==> db.Keys == seed.Keys + stored.data.Keys + GuaranteedKeys
    ensures stored.Saved? ==> forall k :: k in stored.data && k !in GuaranteedKeys ==> db[k] == stored.data[k]
    ensures stored.Saved? ==> forall k :: k in seed && k !in stored.data && k !in GuaranteedKeys ==> db[k] == seed[k]
    ensures stored.Saved? ==> forall k :: k in GuaranteedKeys ==>
      db[k] == (if Truthy(Get(stored.data, k)) then stored.data[k] else Arr([]))
  {
    match stored
    case Saved(p) =>
      seed + p + map[
        "sessions" := Or(Get(p, "sessions"), Arr([])),
        "attendanceRecords" := Or(Get(p, "attendanceRecords"), Arr([]))]
    case _ => seed
  }

  /** The seed data keeps both guaranteed collections as (empty) lists. */
  predicate SeedShaped(seed: Record) {
    forall k :: k in GuaranteedKeys ==> k in seed && seed[k] == Arr([])
  }

  /** The two guaranteed collections are lists whenever the stored ones are
      lists or missing; a truthy non-list stored value is passed through. */
  lemma GuaranteedCollectionsAreLists(seed: Record, stored: Stored, k: string)
    requires SeedShaped(seed) && k in GuaranteedKeys
    requires stored.Saved? ==> Get(stored.data, k).Arr? || !Truthy(Get(stored.data, k))
    ensures k in GetDb(seed, stored) && GetDb(seed, stored)[k].Arr?
    ensures stored.Saved? && !Truthy(Get(stored.data, k)) ==> GetDb(seed, stored)[k] == Arr([])
  {
  }

  /** Saving a database that has every seed key and list-valued guaranteed
      collections, then reading it back, gives the same database. */
  lemma SaveThenGet(seed: Record, db: Record)
    requires seed.Keys <= db.Keys && GuaranteedKeys <= db.Keys
    requires forall k :: k in GuaranteedKeys ==> db[k].Arr?
    ensures GetDb(seed, Saved(db)) == db
  {
    var r := GetDb(seed, Saved(db));
    assert r.Keys == db.Keys;
    forall k | k in db
      ensures r[k] == db[k]
    {
    }
  }

  /** Math.max over numbers: `NaN` when any argument is `NaN`; here there is always one argument. */
  function MaxNumber(xs: seq<Value>): (r: Value)
    requires |xs| > 0
    requires forall i :: 0 <= i < |xs| ==> IsNumber(xs[i])
    ensures IsNumber(r)
    ensures (forall i :: 0 <= i < |xs| ==> xs[i].Num?) <==> r.Num?
    ensures r.Num? ==> forall i :: 0 <= i < |xs| ==> xs[i].n <= r.n
    ensures r.Num? ==> exists i :: 0 <= i < |xs| && xs[i].n == r.n
  {
    if |xs| == 1 then xs[0]
    else
      var m := MaxNumber(xs[..|xs| - 1]);
      var x := xs[|xs| - 1];
      assert forall i :: 0 <= i < |xs| - 1 ==> xs[..|xs| - 1][i] == xs[i];
      assert IsNumber(x);
      if m.NaN? || x.NaN? then NaN
      else if x.n > m.n then x
      else m
  }

  /** The id the helper reads from one item: `item.id || 0`, as a number. */
  function ItemId(item: Value): (r: Result<Value, Exception>)
    ensures r.Failure? <==> item.Undefined? || item.Null?
    ensures r.Success? ==> IsNumber(r.value)
    ensures item.Obj? && Get(item.fields, "id").Num? && Get(item.fields, "id").n != 0 ==>
      r == Success(Get(item.fields, "id"))
    ensures item.Obj? && !Truthy(Get(item.fields, "id")) ==> r == Success(Num(0))
  {
    var id :- Member(item, "id");
    Success(ToNumber(Or(id, Num(0))))
  }

  /** The ids of all items, or the TypeError of a `null` item. */
  function ItemIds(items: seq<Value>): (r: Result<seq<Value>, Exception>)
    ensures r.Success? <==> forall i :: 0 <= i < |items| ==> ItemId(items[i]).Success?
    ensures r.Success? ==> |r.value| == |items|
    ensures r.Success? ==> forall i :: 0 <= i < |items| ==> r.value[i] == ItemId(items[i]).value
  {
    if |items| == 0 then Success([])
    else
      var first :- ItemId(items[0]);
      var rest :- ItemIds(items[1..]);
      assert forall i :: 1 <= i < |items| ==> items[1..][i - 1] == items[i];
      Success([first] + rest)
  }

  /** `getNextId(collection)` on the database `db`: 1 for a missing or empty
      collection, otherwise the largest id plus one. */
  function GetNextId(db: Record, collection: string): (r: Result<Value, Exception>)
    ensures !Truthy(Get(db, collection)) ==> r == Success(Num(1))
    ensures Get(db, collection) == Arr([]) ==> r == Success(Num(1))
    ensures r.Success? ==> IsNumber(r.value)
  {
    var items := Or(Get(db, collection), Arr([]));
    match items
    case Arr(xs) =>
      if |xs| == 0 then Success(Num(1))
      else
        var ids :- ItemIds(xs);
        var m := MaxNumber(ids);
        Success(if m.Num? then Num(m.n + 1) else NaN)
    case _ =>
      match Member(items, "length")
      case Success(n) => if StrictEquals(n, Num(0)) then Success(Num(1)) else Failure(TypeError)
      case Failure(e) => Failure(e)
  }

  /** The id read from an object whose id is numeric or missing is that
      number, or 0. */
  lemma ItemIdOfObject(x: Value)
    requires x.Obj? && (Get(x.fields, "id").Num? || !Truthy(Get(x.fields, "id")))
    ensures ItemId(x) == Success(if Get(x.fields, "id").Num? then Get(x.fields, "id") else Num(0))
  {
  }

  /** The id an object contributes to `getNextId`: its numeric id, or 0 when it has none. */
  function IdOrZero(x: Value): int {
    if x.Obj? && Get(x.fields, "id").Num? then Get(x.fields, "id").n else 0
  }

  /** Over a list of objects with numeric (or missing) ids, the next id is the
      largest id (a missing one counting as 0) plus one: it exceeds every id and
      is one more than some item's, so it equals none of them. */
  lemma {:induction false} NextIdIsFresh(db: Record, collection: string, xs: seq<Value>)
    requires Get(db, collection) == Arr(xs) && |xs| > 0
    requires forall i :: 0 <= i < |xs| ==> xs[i].Obj?
    requires forall i :: 0 <= i < |xs| ==>
      Get(xs[i].fields, "id").Num? || !Truthy(Get(xs[i].fields, "id"))
    ensures GetNextId(db, collection).Success? && GetNextId(db, collection).value.Num?
    ensures forall i :: 0 <= i < |xs| ==> IdOrZero(xs[i]) < GetNextId(db, collection).value.n
    ensures exists i :: 0 <= i < |xs| && GetNextId(db, collection).value.n == IdOrZero(xs[i]) + 1
    ensures forall i :: 0 <= i < |xs| ==>
      !StrictEquals(Get(xs[i].fields, "id"), GetNextId(db, collection).value)
  {
    IdsOfObjects(xs);
    var ids := ItemIds(xs).value;
    var m := MaxNumber(ids);
    var next := NextOfList(db, collection, xs);
    forall i | 0 <= i < |xs|
      ensures IdOrZero(xs[i]) < next
      ensures !StrictEquals(Get(xs[i].fields, "id"), Num(next))
    {
      assert ids[i] == Num(IdOrZero(xs[i]));
    }
    var j :| 0 <= j < |ids| && ids[j].n == m.n;
    assert ids[j] == Num(IdOrZero(xs[j]));
  }

  /** On a non-empty list whose ids are all numbers, the next id is the largest plus one. */
  lemma NextOfList(db: Record, collection: string, xs: seq<Value>) returns (next: int)
    requires Get(db, collection) == Arr(xs) && |xs| > 0
    requires ItemIds(xs).Success? && forall i :: 0 <= i < |xs| ==> ItemIds(xs).value[i].Num?
    ensures MaxNumber(ItemIds(xs).value).Num? && next == MaxNumber(ItemIds(xs).value).n + 1
    ensures GetNextId(db, collection) == Success(Num(next))
  {
    next := MaxNumber(ItemIds(xs).value).n + 1;
  }

  /** The ids read from objects with numeric (or missing) ids. */
  lemma IdsOfObjects(xs: seq<Value>)
    requires forall i :: 0 <= i < |xs| ==> xs[i].Obj?
    requires forall i :: 0 <= i < |xs| ==>
      Get(xs[i].fields, "id").Num? || !Truthy(Get(xs[i].fields, "id"))
    ensures ItemIds(xs).Success?
    ensures forall i :: 0 <= i < |xs| ==> ItemIds(xs).value[i] == Num(IdOrZero(xs[i]))
  {
    forall i | 0 <= i < |xs|
      ensures ItemId(xs[i]).Success? && ItemId(xs[i]).value == Num(IdOrZero(xs[i]))
    {
      ItemIdOfObject(xs[i]);
    }
  }
}

=== FILE: mock_directory.dfy ===
/** The user and course handlers of the mock back end (`mocks/handlers.js`)
    that carry logic: the paged, role-filtered user list, the user update that
    merges fields, and the registration of a student in a course. Users and
    courses are stored as plain objects because the handlers copy arbitrary
    request fields into them. */
module MockDirectory {
  import opened Wrappers
  import opened Js
  import opened MockDb
  import Strings

  /** The `users` and `courses` collections of the database. */
  datatype Directory = Directory(users: seq<Record>, courses: seq<Record>)

  // ---------------------------------------------------------------- GET /users

  /** A query parameter as `URLSearchParams.get` returns it: `null` when absent. */
  function Param(p: Option<string>): Value {
    match p
    case Some(s) => Str(s)
    case None => Null
  }

  /** `parseInt(param) || fallback`. */
  function QueryInt(p: Option<string>, fallback: int): (r: int)
    ensures Or(ParseInt(Param(p)), Num(fallback)) == Num(r)
    ensures fallback != 0 ==> r != 0
  {
    var v := ParseInt(Param(p));
    if v.Num? && v.n != 0 then v.n else fallback
  }

  /** An absent `size` means 100 and an absent `page` means 0. */
  lemma QueryAbsent(fallback: int)
    ensures QueryInt(None, fallback) == fallback
  {
    ParseIntNull();
  }

  /** `size=0` also means 100. */
  lemma QueryZero(fallback: int)
    ensures QueryInt(Some("0"), fallback) == fallback
  {
    assert Text(Param(Some("0"))) == "0";
    assert Strings.TrimStart("0") == "0";
    assert DecimalPrefix("0") == 1;
    assert DigitsValue("0"[..1]) == 0;
    assert ParseInt(Param(Some("0"))) == Num(0);
  }

  /** The role the list is filtered on: the parameter itself when it already
      carries the `ROLE_` prefix, else the parameter with the prefix added. */
  function RoleToMatch(role: string): (r: string)
    ensures Strings.StartsWith(r, "ROLE_")
    ensures Strings.StartsWith(role, "ROLE_") ==> r == role
    ensures !Strings.StartsWith(role, "ROLE_") ==> r == "ROLE_" + role
  {
    if Strings.StartsWith(role, "ROLE_") then role else "ROLE_" + role
  }

  /** Asking for `X` and for `ROLE_X` selects the same role. */
  lemma RoleToMatchPrefixed(role: string)
    requires !Strings.StartsWith(role, "ROLE_")
    ensures RoleToMatch(role) == RoleToMatch("ROLE_" + role)
  {
    assert ("ROLE_" + role)[..5] == "ROLE_";
  }

  /** The users the list reports on: all of them without a (non-empty) role
      parameter, else those whose role is exactly the prefixed role. */
  function MatchingUsers(users: seq<Record>, role: Option<string>): (r: seq<Record>)
    ensures !(role.Some? && role.value != "") ==> r == users
    ensures |r| <= |users|
    ensures role.Some? && role.value != "" ==> forall k :: 0 <= k < |r| ==>
      r[k] in users && Get(r[k], "role") == Str(RoleToMatch(role.value))
    ensures role.Some? && role.value != "" ==> forall k :: 0 <= k < |users| ==>
      (Get(users[k], "role") == Str(RoleToMatch(role.value)) ==> users[k] in r)
  {
    if role.Some? && role.value != "" then
      Filter(users, u => StrictEquals(Get(u, "role"), Str(RoleToMatch(role.value))))
    else users
  }

  /** A filtered list holds exactly the users stored with the prefixed role: a
      user stored with the bare role `LECTURER` is never listed. */
  lemma MatchingUsersRoles(users: seq<Record>, role: string)
    requires role != ""
    ensures forall k :: 0 <= k < |MatchingUsers(users, Some(role))| ==>
      Get(MatchingUsers(users, Some(role))[k], "role") == Str(RoleToMatch(role))
    ensures forall k :: 0 <= k < |users| && Get(users[k], "role") == Str(RoleToMatch(role)) ==>
      users[k] in MatchingUsers(users, Some(role))
  {
  }

  /** Whether the listing keeps a user: always without a role parameter,
      otherwise exactly when the stored role is the prefixed one. */
  predicate Listed(u: Record, role: Option<string>) {
    !(role.Some? && role.value != "") || Get(u, "role") == Str(RoleToMatch(role.value))
  }

  /** The listing of two runs of users is the listing of each, in order; a
      single user is listed exactly when kept. With `MatchingUsersCount` this
      says the listing keeps the stored order and every copy of a kept user. */
  lemma MatchingUsersAppend(s: seq<Record>, t: seq<Record>, role: Option<string>)
    ensures MatchingUsers(s + t, role) == MatchingUsers(s, role) + MatchingUsers(t, role)
    ensures |s| == 1 ==> MatchingUsers(s, role) == if Listed(s[0], role) then s else []
  {
    if role.Some? && role.value != "" {
      FilterAppend(s, t, u => StrictEquals(Get(u, "role"), Str(RoleToMatch(role.value))));
    }
  }

  /** A user occurs in the listing as often as among the stored users when
      kept, and never otherwise. */
  lemma MatchingUsersCount(users: seq<Record>, role: Option<string>, u: Record)
    ensures multiset(MatchingUsers(users, role))[u] == if Listed(u, role) then multiset(users)[u] else 0
  {
    if role.Some? && role.value != "" {
      FilterMultiplicity(users, v => StrictEquals(Get(v, "role"), Str(RoleToMatch(role.value))), u);
    }
  }

  /** The page of GET /users. */
  datatype UserPage = UserPage(content: seq<Record>, totalElements: int, totalPages: int, number: int, size: int)

  /** Page `page` of `size` entries of `matched`, as the handler reports it. */
  function PageOf(matched: seq<Record>, page: int, size: int): (r: UserPage)
    requires size != 0
    ensures r.number == page && r.size == size && r.totalElements == |matched|
    ensures size > 0 ==> r.totalPages * size - size < |matched| <= r.totalPages * size
    ensures page >= 0 && size > 0 ==>
      r.content == (if Min(page * size, |matched|) < Min(page * size + size, |matched|)
                    then matched[Min(page * size, |matched|)..Min(page * size + size, |matched|)] else [])
  {
    var start := page * size;
    assert page >= 0 && size > 0 ==>
      Slice(matched, start, start + size) ==
        (if Min(start, |matched|) < Min(start + size, |matched|)
         then matched[Min(start, |matched|)..Min(start + size, |matched|)] else []) by {
      if page >= 0 && size > 0 {
        SliceWindow(matched, start, start + size);
      }
    }
    UserPage(Slice(matched, start, start + size), |matched|, CeilDiv(|matched|, size), page, size)
  }

  /** GET /users?role=&page=&size= on the stored users. */
  function ListUsers(users: seq<Record>, role: Option<string>, page: Option<string>, size: Option<string>)
    : (r: UserPage)
    ensures QueryInt(size, 100) != 0
    ensures var m := MatchingUsers(users, role);
      r.totalElements == |m| && r.number == QueryInt(page, 0) && r.size == QueryInt(size, 100)
    ensures var m := MatchingUsers(users, role); var z := QueryInt(size, 100);
      z > 0 ==> r.totalPages * z - z < |m| <= r.totalPages * z
    ensures var m := MatchingUsers(users, role); var p := QueryInt(page, 0); var z := QueryInt(size, 100);
      p >= 0 && z > 0 && 0 <= p * z < |m| ==> r.content == m[p * z..Min(p * z + z, |m|)]
    ensures var m := MatchingUsers(users, role); var p := QueryInt(page, 0); var z := QueryInt(size, 100);
      p >= 0 && z > 0 && p * z >= |m| ==> r.content == []
  {
    var m := MatchingUsers(users, role);
    var p := QueryInt(page, 0);
    var z := QueryInt(size, 100);
    PageWindow(m, p, z);
    PageOf(m, p, z)
  }

  /** The window of page `p` in terms of its first index. */
  lemma PageWindow(m: seq<Record>, p: int, z: int)
    requires z != 0
    ensures p >= 0 && z > 0 && 0 <= p * z < |m| ==> PageOf(m, p, z).content == m[p * z..Min(p * z + z, |m|)]
    ensures p >= 0 && z > 0 && p * z >= |m| ==> PageOf(m, p, z).content == []
  {
    var start := p * z;
    if p >= 0 && z > 0 {
      assert start >= 0 by { MulNonNegative(p, z); }
      assert Min(start, |m|) == (if start < |m| then start else |m|);
    }
  }

  lemma MulNonNegative(p: int, z: int)
    requires p >= 0 && z > 0
    ensures p * z >= 0
  {
  }

  /** Without page and size parameters the list is the first hundred matched
      users, reported as page 0 of size 100. */
  lemma ListUsersDefaults(users: seq<Record>, role: Option<string>)
    ensures var r := ListUsers(users, role, None, None); var m := MatchingUsers(users, role);
      r.number == 0 && r.size == 100 && r.totalElements == |m| && r.content == m[..Min(100, |m|)]
  {
    QueryAbsent(0);
    QueryAbsent(100);
  }

  function UserPageJson(r: UserPage): Value {
    Obj(map[
      "content" := Arr(RecordsJson(r.content)), "users" := Arr(RecordsJson(r.content)),
      "totalElements" := Num(r.totalElements), "totalPages" := Num(r.totalPages),
      "number" := Num(r.number), "size" := Num(r.size)])
  }

  function RecordsJson(rs: seq<Record>): (vs: seq<Value>)
    ensures |vs| == |rs| && forall k :: 0 <= k < |rs| ==> vs[k] == Obj(rs[k])
  {
    seq(|rs|, k requires 0 <= k < |rs| => Obj(rs[k]))
  }

  /** With a positive page size, every entry is on exactly one page: the
      `k`-th entry is at position `k % size` of page `k / size`, that page
      exists, and no other page's window covers position `k`. */
  lemma {:induction false} EveryUserOnOnePage(matched: seq<Record>, size: int, k: nat)
    requires size > 0 && k < |matched|
    ensures var r := PageOf(matched, k / size, size);
      k / size < r.totalPages && k % size < |r.content| && r.content[k % size] == matched[k]
    ensures forall q: int :: q * size <= k < q * size + size <==> q == k / size
  {
    var p := k / size;
    WindowOfIndex(k, size);
    var lo := p * size;
    var r := PageOf(matched, p, size);
    assert p < r.totalPages by {
      if r.totalPages <= p {
        MulMonotone(r.totalPages, p, size);
      }
    }
    assert Min(lo, |matched|) == lo;
    assert r.content == matched[lo..Min(lo + size, |matched|)];
    assert k % size == k - lo;
    assert r.content[k - lo] == matched[k];
  }

  /** Index `k` lies in the window of page `k / size` and of no other page. */
  lemma WindowOfIndex(k: nat, size: int)
    requires size > 0
    ensures k / size >= 0
    ensures (k / size) * size <= k < (k / size) * size + size
    ensures forall q: int :: q * size <= k < q * size + size <==> q == k / size
  {
    var p := k / size;
    forall q: int
      ensures q * size <= k < q * size + size <==> q == p
    {
      if q < p {
        MulMonotone(q + 1, p, size);
      } else if q > p {
        MulMonotone(p + 1, q, size);
      }
    }
  }

  lemma MulMonotone(a: int, b: int, c: int)
    requires a <= b && c > 0
    ensures a * c <= b * c
  {
  }

  // ------------------------------------------------------------ PUT /users/:id

  /** `${update.firstName || user.firstName || ''} ${...lastName...}`.trim(). */
  function MergedFullName(user: Record, update: Record): string {
    Strings.Trim(
      Text(Or(Or(Get(update, "firstName"), Get(user, "firstName")), Str(""))) + " " +
      Text(Or(Or(Get(update, "lastName"), Get(user, "lastName")), Str(""))))
  }

  /** `u.id === Number(id)`. */
  predicate HasUserId(u: Record, id: string) {
    StrictEquals(Get(u, "id"), StringToNumber(id))
  }

  /** `{ ...user, ...update, fullName }`: later spreads win. */
  function Spread(user: Record, update: Record, fullName: string): (u: Record)
    ensures u.Keys == user.Keys + update.Keys + {"fullName"}
    ensures forall f :: f in update && f != "fullName" ==> u[f] == update[f]
    ensures forall f :: f in user && f !in update && f != "fullName" ==> u[f] == user[f]
    ensures u["fullName"] == Str(fullName)
  {
    user + update + map["fullName" := Str(fullName)]
  }

  /** PUT /users/:id: the first user with that id gets the update's fields over
      its own, and its full name rebuilt from the (new or old) first and last
      names; the updated user is returned. */
  function UpdateUser(d: Directory, id: string, update: Record): (result: (Directory, Response))
    ensures result.1.status == 200 || result.1.status == 404
    ensures result.1.status == 404 <==> forall k :: 0 <= k < |d.users| ==> !HasUserId(d.users[k], id)
    ensures result.1.status == 404 ==> result.0 == d && result.1.body == Null
    ensures result.0.courses == d.courses && |result.0.users| == |d.users|
  {
    match FindIndex(d.users, u => HasUserId(u, id))
    case None => (d, Response(404, Null))
    case Some(k) =>
      var merged := Spread(d.users[k], update, MergedFullName(d.users[k], update));
      (d.(users := d.users[k := merged]), Response(200, Obj(merged)))
  }

  /** On a known id, the first matching user is replaced by the spread of the
      update over it with the rebuilt full name, and is the one returned; no
      other user changes. */
  lemma UpdateUserMerges(d: Directory, id: string, update: Record, k: nat)
    requires k < |d.users| && HasUserId(d.users[k], id)
    requires forall j :: 0 <= j < k ==> !HasUserId(d.users[j], id)
    ensures UpdateUser(d, id, update).1 == Response(200, Obj(UpdateUser(d, id, update).0.users[k]))
    ensures UpdateUser(d, id, update).0.users[k] == Spread(d.users[k], update, MergedFullName(d.users[k], update))
    ensures forall j :: 0 <= j < |d.users| && j != k ==> UpdateUser(d, id, update).0.users[j] == d.users[j]
  {
    assert FindIndex(d.users, u => HasUserId(u, id)) == Some(k);
  }

  /** An update without name fields keeps the names, and the full name is then
      rebuilt from them, so a stale full name is replaced. */
  lemma UpdateWithoutNames(user: Record, update: Record)
    requires !Truthy(Get(update, "firstName")) && !Truthy(Get(update, "lastName"))
    ensures MergedFullName(user, update) ==
      Strings.Trim(Text(Or(Get(user, "firstName"), Str(""))) + " " + Text(Or(Get(user, "lastName"), Str(""))))
  {
  }

  // -------------------------------------------- POST /courses/register-student

  /** `c.id === Number(courseId)`. */
  predicate HasCourseId(c: Record, courseId: Value) {
    StrictEquals(Get(c, "id"), ToNumber(courseId))
  }

  /** `u.studentCode === studentCode`. */
  predicate HasStudentCode(u: Record, studentCode: Value) {
    StrictEquals(Get(u, "studentCode"), studentCode)
  }

  /** `if (students.find(s => s.studentCode === studentCode))`: the first
      matching entry decides by its truthiness (a falsy primitive such as 0 has
      no `studentCode`, so it can match only an absent code, and then does not
      count); a `null` or `undefined` entry before the match throws. */
  function RosterHas(students: seq<Value>, studentCode: Value): (r: Result<bool, Exception>)
    ensures r == Success(true) ==>
      exists k :: 0 <= k < |students| && StrictEquals(Field(students[k], "studentCode"), studentCode)
    ensures r.Failure? ==> r.error == TypeError
    ensures r.Failure? ==>
      exists k :: 0 <= k < |students| && (students[k].Null? || students[k].Undefined?)
    ensures (forall k :: 0 <= k < |students| ==> students[k].Obj?) ==>
      r == Success(exists k :: 0 <= k < |students| && StrictEquals(Get(students[k].fields, "studentCode"), studentCode))
  {
    if |students| == 0 then Success(false)
    else
      var code :- Member(students[0], "studentCode");
      if StrictEquals(code, studentCode) then Success(Truthy(students[0]))
      else
        var rest :- RosterHas(students[1..], studentCode);
        assert forall k :: 1 <= k < |students| ==> students[k] == students[1..][k - 1];
        Success(rest)
  }

  /** The roster entry made for a student. */
  function RosterEntry(student: Record): (e: Record)
    ensures forall f :: f in e ==> e[f] == Get(student, f)
    ensures e.Keys == {"id", "studentCode", "firstName", "lastName", "email"}
  {
    map[
      "id" := Get(student, "id"), "studentCode" := Get(student, "studentCode"),
      "firstName" := Get(student, "firstName"), "lastName" := Get(student, "lastName"),
      "email" := Get(student, "email")]
  }

  /** The course with `entry` pushed onto its roster and its head count set to
      the new roster length. */
  function Enroll(course: Record, roster: seq<Value>, entry: Record): (c: Record)
    ensures c.Keys == course.Keys + {"students", "currentStudents"}
    ensures c["students"] == Arr(roster + [Obj(entry)])
    ensures c["currentStudents"] == Num(|roster| + 1)
    ensures forall f :: f in course && f != "students" && f != "currentStudents" ==> c[f] == course[f]
  {
    course["students" := Arr(roster + [Obj(entry)])]["currentStudents" := Num(|roster| + 1)]
  }

  /** Registration once the course at `ci` and the user at `ui` are found:
      the roster (missing means empty) is searched for the code, and a new
      entry is pushed unless it is already there. */
  function RegisterAt(d: Directory, studentCode: Value, ci: nat, ui: nat): (result: Result<(Directory, Response), Exception>)
    requires ci < |d.courses| && ui < |d.users|
    ensures result.Success? ==> result.value.0.users == d.users && |result.value.0.courses| == |d.courses|
    ensures result.Success? && result.value.1.status != 200 ==> result.value.0 == d
    ensures result.Success? && result.value.1.status == 200 ==>
      Or(Get(d.courses[ci], "students"), Arr([])).Arr?
      && result.value.0.courses == d.courses[ci := Enroll(d.courses[ci],
           Or(Get(d.courses[ci], "students"), Arr([])).items, RosterEntry(d.users[ui]))]
  {
    var course := d.courses[ci];
    var students := Or(Get(course, "students"), Arr([]));
    if !students.Arr? then Failure(TypeError)
    else
      var registered :- RosterHas(students.items, studentCode);
      if registered then Success((d, Response(400, Message("Already registered"))))
      else
        var updated := Enroll(course, students.items, RosterEntry(d.users[ui]));
        Success((d.(courses := d.courses[ci := updated]), Response(200, Message("Success"))))
  }

  /** POST /courses/register-student with body `{ studentCode, courseId }`. */
  function RegisterStudent(d: Directory, studentCode: Value, courseId: Value): (result: Result<(Directory, Response), Exception>)
    ensures (forall k :: 0 <= k < |d.courses| ==> !HasCourseId(d.courses[k], courseId)) ==>
      result == Success((d, Response(404, Message("Course not found"))))
    ensures result.Success? ==> result.value.0.users == d.users && |result.value.0.courses| == |d.courses|
    ensures result.Success? && result.value.1.status != 200 ==> result.value.0 == d
  {
    match FindIndex(d.courses, c => HasCourseId(c, courseId))
    case None => Success((d, Response(404, Message("Course not found"))))
    case Some(ci) =>
      match FindIndex(d.users, u => HasStudentCode(u, studentCode))
      case None => Success((d, Response(404, Message("Student not found"))))
      case Some(ui) => RegisterAt(d, studentCode, ci, ui)
  }

  /** Once both are found, registration is decided on the first matching
      course and the first matching user. */
  lemma RegisterFinds(d: Directory, studentCode: Value, courseId: Value, ci: nat, ui: nat)
    requires ci < |d.courses| && HasCourseId(d.courses[ci], courseId)
    requires forall j :: 0 <= j < ci ==> !HasCourseId(d.courses[j], courseId)
    requires ui < |d.users| && HasStudentCode(d.users[ui], studentCode)
    requires forall j :: 0 <= j < ui ==> !HasStudentCode(d.users[j], studentCode)
    ensures RegisterStudent(d, studentCode, courseId) == RegisterAt(d, studentCode, ci, ui)
  {
    assert FindIndex(d.courses, c => HasCourseId(c, courseId)) == Some(ci);
    assert FindIndex(d.users, u => HasStudentCode(u, studentCode)) == Some(ui);
  }

  /** A successful registration appends the student's entry to the first
      matching course's roster and sets its head count to the roster length;
      no other course changes. */
  lemma RegisterStudentAppends(d: Directory, studentCode: Value, courseId: Value, ci: nat, ui: nat)
    requires ci < |d.courses| && HasCourseId(d.courses[ci], courseId)
    requires forall j :: 0 <= j < ci ==> !HasCourseId(d.courses[j], courseId)
    requires ui < |d.users| && HasStudentCode(d.users[ui], studentCode)
    requires forall j :: 0 <= j < ui ==> !HasStudentCode(d.users[j], studentCode)
    requires RegisterStudent(d, studentCode, courseId).Success?
    requires RegisterStudent(d, studentCode, courseId).value.1.status == 200
    ensures Or(Get(d.courses[ci], "students"), Arr([])).Arr?
    ensures RegisterStudent(d, studentCode, courseId).value.0.courses[ci] ==
      Enroll(d.courses[ci], Or(Get(d.courses[ci], "students"), Arr([])).items, RosterEntry(d.users[ui]))
    ensures forall j :: 0 <= j < |d.courses| && j != ci ==>
      RegisterStudent(d, studentCode, courseId).value.0.courses[j] == d.courses[j]
  {
    RegisterFinds(d, studentCode, courseId, ci, ui);
  }

  /** A student already on a roster of objects is refused with 400. */
  lemma RegisterAtTwice(d: Directory, studentCode: Value, ci: nat, ui: nat, items: seq<Value>, s: nat)
    requires ci < |d.courses| && ui < |d.users|
    requires Get(d.courses[ci], "students") == Arr(items)
    requires forall k :: 0 <= k < |items| ==> items[k].Obj?
    requires s < |items| && StrictEquals(Get(items[s].fields, "studentCode"), studentCode)
    ensures RegisterAt(d, studentCode, ci, ui) == Success((d, Response(400, Message("Already registered"))))
  {
    assert RosterHas(items, studentCode) == Success(true);
  }

  /** A student already on the roster is refused with 400 and nothing changes. */
  lemma RegisterStudentTwice(d: Directory, studentCode: Value, courseId: Value, ci: nat, s: nat)
    requires ci < |d.courses| && HasCourseId(d.courses[ci], courseId)
    requires forall j :: 0 <= j < ci ==> !HasCourseId(d.courses[j], courseId)
    requires exists u :: 0 <= u < |d.users| && HasStudentCode(d.users[u], studentCode)
    requires Get(d.courses[ci], "students").Arr?
    requires var items := Get(d.courses[ci], "students").items;
      (forall k :: 0 <= k < |items| ==> items[k].Obj?)
      && s < |items| && StrictEquals(Get(items[s].fields, "studentCode"), studentCode)
    ensures RegisterStudent(d, studentCode, courseId) == Success((d, Response(400, Message("Already registered"))))
  {
    var ui := FindIndex(d.users, u => HasStudentCode(u, studentCode));
    assert ui.Some?;
    RegisterFinds(d, studentCode, courseId, ci, ui.value);
    RegisterAtTwice(d, studentCode, ci, ui.value, Get(d.courses[ci], "students").items, s);
  }

  /** A known course but an unknown student gives 404, checked only after the course. */
  lemma RegisterUnknownStudent(d: Directory, studentCode: Value, courseId: Value)
    requires exists c :: 0 <= c < |d.courses| && HasCourseId(d.courses[c], courseId)
    requires forall u :: 0 <= u < |d.users| ==> !HasStudentCode(d.users[u], studentCode)
    ensures RegisterStudent(d, studentCode, courseId) == Success((d, Response(404, Message("Student not found"))))
  {
    assert FindIndex(d.courses, c => HasCourseId(c, courseId)).Some?;
    assert FindIndex(d.users, u => HasStudentCode(u, studentCode)).None?;
  }

  /** A request without a student code matches the first user that has none
      (an administrator, say) and registers that user. */
  lemma RegisterWithoutCode(d: Directory, courseId: Value, ci: nat, ui: nat)
    requires ci < |d.courses| && HasCourseId(d.courses[ci], courseId)
    requires forall j :: 0 <= j < ci ==> !HasCourseId(d.courses[j], courseId)
    requires ui < |d.users| && "studentCode" !in d.users[ui]
    requires forall j :: 0 <= j < ui ==> !HasStudentCode(d.users[j], Undefined)
    requires !Truthy(Get(d.courses[ci], "students"))
    ensures var r := RegisterStudent(d, Undefined, courseId);
      r.Success? && r.value.1.status == 200 && ci < |r.value.0.courses|
      && Get(r.value.0.courses[ci], "students") == Arr([Obj(RosterEntry(d.users[ui]))])
  {
    assert HasStudentCode(d.users[ui], Undefined);
    RegisterFinds(d, Undefined, courseId, ci, ui);
    assert Or(Get(d.courses[ci], "students"), Arr([])) == Arr([]);
  }
}

=== FILE: pagination.dfy ===
/** The `Pagination` bar of `components/common/Table.jsx`: which page buttons
    it shows around the current page, when the first- and last-page shortcuts
    and their ellipses appear, and when the arrows are disabled. Pages are
    numbered from 0. */
module Pagination {
  import opened Wrappers

  /** At most this many numbered buttons. */
  const MaxVisible: int := 5

  function Max(a: int, b: int): int {
    if a >= b then a else b
  }

  function Min(a: int, b: int): int {
    if a <= b then a else b
  }

  /** The first and last numbered page: centred on the current page, clipped
      to the last page, then shifted back to fill up to five buttons. */
  function Window(current: int, totalPages: int): (w: (int, int)) {
    var start := Max(0, current - MaxVisible / 2);
    var end := Min(totalPages - 1, start + MaxVisible - 1);
    if end - start < MaxVisible - 1 then (Max(0, end - MaxVisible + 1), end) else (start, end)
  }

  /** The page numbers from `start` to `end`, in order. */
  function Range(start: int, end: int): (r: seq<int>)
    ensures |r| == Max(0, end - start + 1)
    ensures forall k :: 0 <= k < |r| ==> r[k] == start + k
  {
    if end < start then [] else seq(end - start + 1, k requires 0 <= k <= end - start => start + k)
  }

  /** The loop that fills `pages`: `for (let i = startPage; i <= endPage; i++) pages.push(i)`. */
  method PageList(start: int, end: int) returns (pages: seq<int>)
    ensures pages == Range(start, end)
  {
    pages := [];
    var i := start;
    while i <= end
      invariant start <= i <= Max(start, end + 1)
      invariant |pages| == i - start
      invariant forall k :: 0 <= k < |pages| ==> pages[k] == start + k
      decreases end - i
    {
      pages := pages + [i];
      i := i + 1;
    }
  }

  /** What the bar shows. */
  datatype Bar = Bar(
    prevDisabled: bool,
    firstShortcut: bool,
    firstEllipsis: bool,
    pages: seq<int>,
    lastEllipsis: bool,
    lastShortcut: bool,
    nextDisabled: bool)

  /** The bar for a current page and a page count; nothing for one page or none. */
  function Render(current: int, totalPages: int): (r: Option<Bar>)
    ensures r.None? <==> totalPages <= 1
  {
    if totalPages <= 1 then None
    else
      var (start, end) := Window(current, totalPages);
      Some(Bar(
        current == 0,
        start > 0, start > 1,
        Range(start, end),
        end < totalPages - 2, end < totalPages - 1,
        current == totalPages - 1))
  }

  /** The window never leaves the pages that exist, and holds exactly
      `min(5, totalPages)` consecutive pages whatever the current page is. */
  lemma WindowSize(current: int, totalPages: int)
    requires totalPages > 1
    ensures var (start, end) := Window(current, totalPages);
      0 <= start <= end <= totalPages - 1 && end - start + 1 == Min(MaxVisible, totalPages)
  {
  }

  /** A current page that exists is in the window. */
  lemma WindowHoldsCurrent(current: int, totalPages: int)
    requires 0 <= current < totalPages
    ensures var (start, end) := Window(current, totalPages);
      start <= current <= end
    ensures totalPages > 1 ==> current in Render(current, totalPages).value.pages
  {
    var (start, end) := Window(current, totalPages);
    if totalPages > 1 {
      assert Render(current, totalPages).value.pages[current - start] == current;
    }
  }

  /** Every page of the bar is a page that exists, and the buttons are
      ascending without gaps. */
  lemma PagesExist(current: int, totalPages: int)
    requires totalPages > 1
    ensures var b := Render(current, totalPages).value;
      |b.pages| == Min(MaxVisible, totalPages)
      && (forall k :: 0 <= k < |b.pages| ==> 0 <= b.pages[k] < totalPages)
      && (forall k :: 0 <= k < |b.pages| - 1 ==> b.pages[k + 1] == b.pages[k] + 1)
  {
    WindowSize(current, totalPages);
  }

  /** The shortcuts repeat no numbered page, and an ellipsis appears exactly
      when some page is hidden between a shortcut and the window. */
  lemma ShortcutsAndGaps(current: int, totalPages: int)
    requires totalPages > 1
    ensures var b := Render(current, totalPages).value;
      var (start, end) := Window(current, totalPages);
      (b.firstShortcut <==> 0 !in b.pages)
      && (b.lastShortcut <==> totalPages - 1 !in b.pages)
      && (b.firstEllipsis <==> exists p :: 0 < p < start && p !in b.pages)
      && (b.lastEllipsis <==> exists p :: end < p < totalPages - 1 && p !in b.pages)
      && (b.firstEllipsis ==> b.firstShortcut)
      && (b.lastEllipsis ==> b.lastShortcut)
  {
    var b := Render(current, totalPages).value;
    var (start, end) := Window(current, totalPages);
    WindowSize(current, totalPages);
    assert b.pages[0] == start && b.pages[|b.pages| - 1] == end;
    if start > 1 {
      assert 1 !in b.pages;
    }
    if end < totalPages - 2 {
      assert totalPages - 2 !in b.pages;
    }
  }

  /** The arrows: "previous" is disabled only on the first page and "next"
      only on the last, so an enabled arrow from an existing page leads to an
      existing page. */
  lemma ArrowsStayInRange(current: int, totalPages: int)
    requires totalPages > 1 && 0 <= current < totalPages
    ensures var b := Render(current, totalPages).value;
      (b.prevDisabled <==> current == 0)
      && (b.nextDisabled <==> current == totalPages - 1)
      && (!b.prevDisabled ==> 0 <= current - 1 < totalPages)
      && (!b.nextDisabled ==> 0 <= current + 1 < totalPages)
  {
  }

  /** Sample bars over twelve pages (first, middle, last page) and over one. */
  lemma Examples()
    ensures Render(0, 12) == Some(Bar(true, false, false, [0, 1, 2, 3, 4], true, true, false))
    ensures Render(6, 12) == Some(Bar(false, true, true, [4, 5, 6, 7, 8], true, true, false))
    ensures Render(11, 12) == Some(Bar(false, true, true, [7, 8, 9, 10, 11], false, false, true))
    ensures Render(5, 1) == None
  {
    assert Range(0, 4) == [0, 1, 2, 3, 4];
    assert Range(4, 8) == [4, 5, 6, 7, 8];
    assert Range(7, 11) == [7, 8, 9, 10, 11];
  }
}

=== FILE: statistics_card.dfy ===
/** The figures `StatisticsCard` derives from the course statistics it is given:
    the student list, the number of students, the number banned, the average
    attendance, the colour of each absence badge, and whether the warning e-mail
    action is offered. */
module StatisticsCard {
  import opened Wrappers
  import opened Js
  import opened UseCaseSupport
  import CourseUseCases

  /** What the card computes before rendering. */
  datatype Summary = Summary(totalStudents: Value, totalBanned: Value, average: Value, list: Value)

  /** `data.studentStats || data.studentDetails || []` with `data = statistics || {}`. */
  function RawList(statistics: Value): (r: Value)
    ensures Truthy(r)
    ensures Truthy(Field(statistics, "studentStats")) ==> r == Field(statistics, "studentStats")
    ensures !Truthy(Field(statistics, "studentStats")) && Truthy(Field(statistics, "studentDetails")) ==>
      r == Field(statistics, "studentDetails")
    ensures !Truthy(Field(statistics, "studentStats")) && !Truthy(Field(statistics, "studentDetails")) ==>
      r == Arr([])
  {
    var data := Or(statistics, Obj(map[]));
    Or(Or(Field(data, "studentStats"), Field(data, "studentDetails")), Arr([]))
  }

  /** `s.isBanned` of one entry, as a condition; a `null` entry throws. */
  function BannedFlag(entry: Value): (r: Result<bool, Exception>)
    ensures entry.Obj? ==> r == Success(Truthy(Get(entry.fields, "isBanned")))
  {
    var flag :- Member(entry, "isBanned");
    Success(Truthy(flag))
  }

  /** The number of `true` flags. */
  function CountTrue(flags: seq<bool>): (n: nat)
    ensures n <= |flags|
    ensures n == 0 <==> forall k :: 0 <= k < |flags| ==> !flags[k]
    ensures n == multiset(flags)[true]
  {
    if |flags| == 0 then 0
    else
      assert forall k :: 1 <= k < |flags| ==> flags[k] == flags[1..][k - 1];
      assert flags == [flags[0]] + flags[1..];
      (if flags[0] then 1 else 0) + CountTrue(flags[1..])
  }

  /** `rawList.filter(s => s.isBanned).length`: only an array has `filter`. */
  function BannedTotal(raw: Value): (r: Result<Value, Exception>)
    ensures !raw.Arr? ==> r == Failure(TypeError)
  {
    if !raw.Arr? then Failure(TypeError)
    else
      var flags :- MapAll(raw.items, BannedFlag);
      Success(Num(CountTrue(flags)))
  }

  /** `100 - (curr.absentPercentage || 0)` for one entry. */
  function Presence(entry: Value): (r: Result<Value, Exception>)
    ensures r.Failure? <==> entry.Undefined? || entry.Null?
  {
    var percent :- Member(entry, "absentPercentage");
    var x := ToNumber(Or(percent, Num(0)));
    Success(if x.Num? then Num(100 - x.n) else NaN)
  }

  /** Numeric `+`: `NaN` absorbs. */
  function Add(a: Value, b: Value): Value {
    if a.Num? && b.Num? then Num(a.n + b.n) else NaN
  }

  /** The sum `reduce` accumulates from 0. */
  function NumSum(xs: seq<Value>): Value {
    if |xs| == 0 then Num(0) else Add(xs[0], NumSum(xs[1..]))
  }

  /** `Math.round(sum / totalS)` over the entries, computed only when the list
      is non-empty; only an array has `reduce`. */
  function Average(raw: Value, count: Value): (r: Result<Value, Exception>)
    ensures !LessThan(Num(0), count) ==> r == Success(Num(0))
    ensures LessThan(Num(0), count) && !raw.Arr? ==> r == Failure(TypeError)
  {
    if !LessThan(Num(0), count) then Success(Num(0))
    else if !raw.Arr? then Failure(TypeError)
    else
      var presences :- MapAll(raw.items, Presence);
      var sum := NumSum(presences);
      var n := ToNumber(count);
      if sum.Num? && n.Num? && n.n != 0 then Success(Num(RoundDiv(sum.n, n.n))) else Success(NaN)
  }

  /** The card's `useMemo` block. */
  function Summarize(statistics: Value): (r: Result<Summary, Exception>)
    ensures r.Success? ==> r.value.list == RawList(statistics) && r.value.totalStudents == LengthOf(RawList(statistics))
    ensures r.Success? && IsNumber(Field(statistics, "totalBanned")) ==> r.value.totalBanned == Field(statistics, "totalBanned")
    ensures r.Success? && !IsNumber(Field(statistics, "totalBanned")) ==> BannedTotal(RawList(statistics)) == Success(r.value.totalBanned)
  {
    var data := Or(statistics, Obj(map[]));
    var raw := RawList(statistics);
    var totalS := LengthOf(raw);
    var reported := Field(data, "totalBanned");
    var totalB :- if IsNumber(reported) then Success(reported) else BannedTotal(raw);
    var avg :- Average(raw, totalS);
    Success(Summary(totalS, totalB, avg, raw))
  }

  /** What the card shows: a loading note without statistics, else the figures. */
  datatype CardView = LoadingNote | Figures(summary: Summary)

  function Card(statistics: Value): (r: Result<CardView, Exception>)
    ensures !Truthy(statistics) ==> r == Success(LoadingNote)
    ensures Truthy(statistics) ==>
      (r.Success? <==> Summarize(statistics).Success?)
      && (r.Success? ==> r.value == Figures(Summarize(statistics).value))
  {
    var summary :- Summarize(statistics);
    Success(if Truthy(statistics) then Figures(summary) else LoadingNote)
  }

  /** A falsy `statistics` still computes, over an empty list: no students,
      none banned, average 0. */
  lemma CardOfNothing(statistics: Value)
    requires !Truthy(statistics)
    ensures Summarize(statistics) == Success(Summary(Num(0), Num(0), Num(0), Arr([])))
  {
  }

  /** The list is `studentStats`, else `studentDetails`, else empty; over an
      array of objects the card counts its entries, and counts the entries
      flagged `isBanned` unless the statistics carry a number. */
  lemma SummaryOfList(statistics: Value, rows: seq<Record>)
    requires RawList(statistics) == Arr(seq(|rows|, k requires 0 <= k < |rows| => Obj(rows[k])))
    ensures Summarize(statistics).Success?
    ensures var s := Summarize(statistics).value;
      s.totalStudents == Num(|rows|)
      && (!IsNumber(Field(statistics, "totalBanned")) ==>
            s.totalBanned == Num(CountTrue(seq(|rows|, k requires 0 <= k < |rows| => Truthy(Get(rows[k], "isBanned"))))))
      && (|rows| == 0 ==> s.average == Num(0))
  {
    var items := seq(|rows|, k requires 0 <= k < |rows| => Obj(rows[k]));
    BannedOfObjects(rows);
    AverageOfObjects(rows);
    assert LengthOf(RawList(statistics)) == Num(|rows|);
  }

  /** Over objects the banned count is the number of truthy flags. */
  lemma BannedOfObjects(rows: seq<Record>)
    ensures var items := seq(|rows|, k requires 0 <= k < |rows| => Obj(rows[k]));
      BannedTotal(Arr(items)) ==
        Success(Num(CountTrue(seq(|rows|, k requires 0 <= k < |rows| => Truthy(Get(rows[k], "isBanned"))))))
  {
    var items := seq(|rows|, k requires 0 <= k < |rows| => Obj(rows[k]));
    var flags := seq(|rows|, k requires 0 <= k < |rows| => Truthy(Get(rows[k], "isBanned")));
    assert forall k :: 0 <= k < |items| ==> BannedFlag(items[k]) == Success(flags[k]);
    assert MapAll(items, BannedFlag).value == flags;
  }

  /** Over objects the average never throws, and is 0 for no entry. */
  lemma AverageOfObjects(rows: seq<Record>)
    ensures var items := seq(|rows|, k requires 0 <= k < |rows| => Obj(rows[k]));
      Average(Arr(items), Num(|rows|)).Success?
      && (|rows| == 0 ==> Average(Arr(items), Num(|rows|)) == Success(Num(0)))
  {
    var items := seq(|rows|, k requires 0 <= k < |rows| => Obj(rows[k]));
    assert forall k :: 0 <= k < |items| ==> Presence(items[k]).Success?;
    CompareNumbers(0, |rows|);
  }

  /** Sums of values in 0..100 stay in 0..100 times their count. */
  lemma {:induction false} NumSumBounds(xs: seq<Value>)
    requires forall k :: 0 <= k < |xs| ==> xs[k].Num? && 0 <= xs[k].n <= 100
    ensures NumSum(xs).Num? && 0 <= NumSum(xs).n <= 100 * |xs|
  {
    if |xs| > 0 {
      assert forall k :: 0 <= k < |xs| - 1 ==> xs[1..][k] == xs[k + 1];
      NumSumBounds(xs[1..]);
    }
  }

  /** The nearest integer to a ratio between 0 and `m` lies between 0 and `m`. */
  lemma RoundDivBounds(p: int, q: int, m: nat)
    requires q > 0 && 0 <= p <= m * q
    ensures 0 <= RoundDiv(p, q) <= m
  {
    var r := RoundDiv(p, q);
    assert 2 * r * q - q <= 2 * p < 2 * r * q + q;
    if r > m {
      assert r * q >= (m + 1) * q by { MulAtLeast(r, m + 1, q); }
    }
  }

  lemma MulAtLeast(r: int, s: int, q: int)
    requires r >= s && q > 0
    ensures r * q >= s * q
  {
  }

  /** A missing or in-range absence percentage on every entry puts the average
      attendance between 0 and 100. */
  lemma AverageBounds(raw: seq<Record>)
    requires |raw| > 0
    requires forall k :: 0 <= k < |raw| ==>
      var p := Get(raw[k], "absentPercentage");
      !Truthy(p) || (p.Num? && 0 <= p.n <= 100)
    ensures var items := seq(|raw|, k requires 0 <= k < |raw| => Obj(raw[k]));
      Average(Arr(items), Num(|raw|)).Success?
      && Average(Arr(items), Num(|raw|)).value.Num?
      && 0 <= Average(Arr(items), Num(|raw|)).value.n <= 100
  {
    var items := seq(|raw|, k requires 0 <= k < |raw| => Obj(raw[k]));
    var presences := seq(|raw|, k requires 0 <= k < |raw| => Presence(items[k]).value);
    forall k | 0 <= k < |raw|
      ensures presences[k].Num? && 0 <= presences[k].n <= 100
    {
      PresenceInRange(raw[k]);
    }
    assert forall k :: 0 <= k < |items| ==> Presence(items[k]) == Success(presences[k]);
    assert MapAll(items, Presence).value == presences;
    NumSumBounds(presences);
    AverageOfPresences(items, presences);
    RoundDivBounds(NumSum(presences).n, |raw|, 100);
  }

  /** An entry whose absence percentage is missing or in range has a
      presence in range. */
  lemma PresenceInRange(row: Record)
    requires var p := Get(row, "absentPercentage"); !Truthy(p) || (p.Num? && 0 <= p.n <= 100)
    ensures Presence(Obj(row)).Success? && Presence(Obj(row)).value.Num?
    ensures 0 <= Presence(Obj(row)).value.n <= 100
  {
    var p := Get(row, "absentPercentage");
    if Truthy(p) {
      ToNumberOfNumber(p.n);
    } else {
      ToNumberOfNumber(0);
    }
  }

  /** Over a list whose presences all succeed and sum to a number, the
      average is that sum over the count, rounded. */
  lemma AverageOfPresences(items: seq<Value>, presences: seq<Value>)
    requires |items| > 0 && MapAll(items, Presence) == Success(presences)
    requires NumSum(presences).Num?
    ensures Average(Arr(items), Num(|items|)) == Success(Num(RoundDiv(NumSum(presences).n, |items|)))
  {
    ToNumberOfNumber(|items|);
    assert LessThan(Num(0), Num(|items|));
  }

  /** The three badge colours of the absence column. */
  datatype Badge = Red | Yellow | Green

  /** `(absentPercentage || 0) >= 20` red, else `> 0` yellow, else green. */
  function BadgeOf(row: Value): (b: Badge)
    ensures !Truthy(Field(row, "absentPercentage")) ==> b == Green
    ensures var raw := Field(row, "absentPercentage");
      raw.Str? && Truthy(raw) && ToNumber(raw).Num? ==>
        (b == Red <==> ToNumber(raw).n >= 20) && (b == Yellow <==> 0 < ToNumber(raw).n < 20)
    ensures var raw := Field(row, "absentPercentage");
      raw.Str? && !ToNumber(raw).Num? ==> b == Green
  {
    var raw := Field(row, "absentPercentage");
    var percent := Or(raw, Num(0));
    CompareWithNumber(percent, 20);
    CompareWithNumber(percent, 0);
    if AtLeast(percent, Num(20)) then Red
    else if LessThan(Num(0), percent) then Yellow
    else Green
  }

  /** On a numeric percentage the badges split the line at 0 and 20. */
  lemma BadgePartition(row: Record, p: int)
    requires Get(row, "absentPercentage") == Num(p)
    ensures BadgeOf(Obj(row)) == Red <==> p >= 20
    ensures BadgeOf(Obj(row)) == Yellow <==> 0 < p < 20
    ensures BadgeOf(Obj(row)) == Green <==> p <= 0
  {
    assert Field(Obj(row), "absentPercentage") == Num(p);
    CompareWithNumber(Num(p), 20);
    CompareWithNumber(Num(p), 0);
    CompareWithNumber(Num(0), 20);
    CompareWithNumber(Num(0), 0);
  }

  /** The warning e-mail action: `totalBanned > 0`. */
  function WarningOffered(s: Summary): (r: bool)
    ensures s.totalBanned.Num? ==> (r <==> s.totalBanned.n > 0)
    ensures !Truthy(s.totalBanned) ==> !r
  {
    CompareWithNumber(s.totalBanned, 0);
    if !Truthy(s.totalBanned) then
      FalsyNumber(s.totalBanned);
      LessThan(Num(0), s.totalBanned)
    else LessThan(Num(0), s.totalBanned)
  }

  /** Without a reported number, the warning is offered exactly when some entry
      is flagged. */
  lemma WarningIffFlagged(statistics: Value, rows: seq<Record>)
    requires RawList(statistics) == Arr(seq(|rows|, k requires 0 <= k < |rows| => Obj(rows[k])))
    requires !IsNumber(Field(statistics, "totalBanned"))
    ensures Summarize(statistics).Success?
    ensures WarningOffered(Summarize(statistics).value) <==>
      exists k :: 0 <= k < |rows| && Truthy(Get(rows[k], "isBanned"))
  {
    SummaryOfList(statistics, rows);
    var flags := seq(|rows|, k requires 0 <= k < |rows| => Truthy(Get(rows[k], "isBanned")));
    var n := CountTrue(flags);
    var s := Summarize(statistics).value;
    assert s.totalBanned == Num(n);
    assert WarningOffered(s) <==> n > 0;
    assert n > 0 <==> exists k :: 0 <= k < |flags| && flags[k];
    assert forall k :: 0 <= k < |rows| ==> flags[k] == Truthy(Get(rows[k], "isBanned"));
  }

  /** One reshaped entry as the card sees it. */
  function StatJson(s: CourseUseCases.StudentStat): (v: Value)
    ensures v.Obj? && Get(v.fields, "isBanned") == Bool(s.isBanned)
    ensures Get(v.fields, "absentPercentage") == s.absentPercentage
  {
    Obj(map[
      "studentId" := s.studentId,
      "studentCode" := s.studentCode,
      "studentName" := s.studentName,
      "totalSessions" := s.totalSessions,
      "absentSessions" := s.absentSessions,
      "absentPercentage" := s.absentPercentage,
      "isBanned" := Bool(s.isBanned)])
  }

  /** The output of the statistics use case as the card's input. */
  function StatisticsJson(st: CourseUseCases.CourseStatistics): Value {
    var rows := seq(|st.studentStats|, k requires 0 <= k < |st.studentStats| => StatJson(st.studentStats[k]));
    var details := seq(|st.studentDetails|, k requires 0 <= k < |st.studentDetails| => StatJson(st.studentDetails[k]));
    Obj(map["totalBanned" := st.totalBanned, "studentStats" := Arr(rows), "studentDetails" := Arr(details)])
  }

  /** Fed by the statistics use case, the card lists its `studentStats`, counts
      them, and shows its `totalBanned` (a number it computed when the back end
      gave none). */
  lemma CardOfUseCase(st: CourseUseCases.CourseStatistics)
    requires IsNumber(st.totalBanned)
    ensures Summarize(StatisticsJson(st)).Success?
    ensures var s := Summarize(StatisticsJson(st)).value;
      s.totalStudents == Num(|st.studentStats|) && s.totalBanned == st.totalBanned
  {
    var rows := seq(|st.studentStats|, k requires 0 <= k < |st.studentStats| => StatJson(st.studentStats[k]).fields);
    assert RawList(StatisticsJson(st)) == Arr(seq(|rows|, k requires 0 <= k < |rows| => Obj(rows[k])));
    SummaryOfList(StatisticsJson(st), rows);
  }

  /** A red badge on a reshaped entry means the entry is banned: the badge and
      the ban rule share the 20 percent threshold. */
  lemma RedBadgeMeansBanned(raw: Record)
    ensures CourseUseCases.StatFromRaw(Obj(raw)).Success?
    ensures var s := CourseUseCases.StatFromRaw(Obj(raw)).value;
      BadgeOf(StatJson(s)) == Red ==> s.isBanned
  {
    CourseUseCases.BanRule(raw);
  }
}

=== FILE: strings.dfy ===
/** Operations on strings (`seq<char>`) that mirror the JavaScript String methods
    the modelled code uses: startsWith, includes, indexOf, replace (first match),
    split on a one-character separator, join, trim and toUpperCase. */
module Strings {
  import opened Wrappers

  /** `pat` occurs in `s` starting at index `i`. */
  predicate OccursAt(s: string, pat: string, i: nat) {
    i + |pat| <= |s| && s[i..i + |pat|] == pat
  }

  predicate StartsWith(s: string, prefix: string) {
    OccursAt(s, prefix, 0)
  }

  /** The first index at or after `from` where `pat` occurs, if any. */
  function IndexFrom(s: string, pat: string, from: nat): (r: Option<nat>)
    requires from <= |s|
    ensures r.Some? ==> from <= r.value && OccursAt(s, pat, r.value)
    ensures r.Some? ==> forall j :: from <= j < r.value ==> !OccursAt(s, pat, j)
    ensures r.None? ==> forall j :: from <= j <= |s| ==> !OccursAt(s, pat, j)
    decreases |s| - from
  {
    if OccursAt(s, pat, from) then Some(from)
    else if from == |s| then None
    else IndexFrom(s, pat, from + 1)
  }

  /** `s.indexOf(pat)`, with `None` for -1. */
  function IndexOf(s: string, pat: string): (r: Option<nat>)
    ensures r.Some? ==> OccursAt(s, pat, r.value)
    ensures r.Some? ==> forall j :: 0 <= j < r.value ==> !OccursAt(s, pat, j)
    ensures r.None? ==> forall j :: 0 <= j <= |s| ==> !OccursAt(s, pat, j)
  {
    IndexFrom(s, pat, 0)
  }

  /** `s.includes(pat)`. */
  predicate Contains(s: string, pat: string) {
    IndexOf(s, pat).Some?
  }

  lemma ContainsIff(s: string, pat: string)
    ensures Contains(s, pat) <==> exists i :: 0 <= i <= |s| && OccursAt(s, pat, i)
  {
    if Contains(s, pat) {
      assert OccursAt(s, pat, IndexOf(s, pat).value);
    }
  }

  /** A string contains every one of its own prefixes. */
  lemma PrefixContained(s: string, prefix: string)
    requires StartsWith(s, prefix)
    ensures Contains(s, prefix)
  {
    assert IndexOf(s, prefix) == Some(0);
  }

  /** `s.replace(pat, rep)` with a string pattern: only the first occurrence is replaced. */
  function ReplaceFirst(s: string, pat: string, rep: string): string {
    match IndexOf(s, pat)
    case None => s
    case Some(i) => s[..i] + rep + s[i + |pat|..]
  }

  /** The first index of character `c` in `s`, if any. */
  function CharIndex(s: string, c: char): (r: Option<nat>)
    ensures r.Some? ==> r.value < |s| && s[r.value] == c && c !in s[..r.value]
    ensures r.None? ==> c !in s
  {
    if |s| == 0 then None
    else if s[0] == c then Some(0)
    else match CharIndex(s[1..], c)
      case None => None
      case Some(i) => (assert s[1..][..i] == s[1..i + 1]; Some(i + 1))
  }

  /** `s.split(c)` for a one-character separator: the maximal pieces between
      occurrences of `c`; never empty, and no piece contains `c`. */
  function Split(s: string, c: char): (parts: seq<string>)
    ensures |parts| >= 1
    ensures forall k :: 0 <= k < |parts| ==> c !in parts[k]
    decreases |s|
  {
    match CharIndex(s, c)
    case None => [s]
    case Some(i) => [s[..i]] + Split(s[i + 1..], c)
  }

  /** `parts.join(sep)`. */
  function Join(parts: seq<string>, sep: string): string {
    if |parts| == 0 then ""
    else if |parts| == 1 then parts[0]
    else parts[0] + sep + Join(parts[1..], sep)
  }

  /** Joining the pieces of a split with the separator gives back the string. */
  lemma {:induction false} JoinSplit(s: string, c: char)
    ensures Join(Split(s, c), [c]) == s
    decreases |s|
  {
    match CharIndex(s, c)
    case None =>
    case Some(i) =>
      var rest := s[i + 1..];
      var tail := Split(rest, c);
      var parts := Split(s, c);
      JoinSplit(rest, c);
      assert parts == [s[..i]] + tail;
      assert |parts| >= 2 && parts[0] == s[..i] && parts[1..] == tail;
      assert Join(parts, [c]) == s[..i] + [c] + Join(tail, [c]);
      assert s == s[..i] + [s[i]] + rest;
  }

  /** `s` has more than one piece exactly when it contains the separator. */
  lemma SplitSingle(s: string, c: char)
    ensures |Split(s, c)| == 1 <==> c !in s
    ensures c !in s ==> Split(s, c) == [s]
  {
    match CharIndex(s, c)
    case None =>
    case Some(i) =>
  }

  /** The characters `String.prototype.trim` removes: WhiteSpace and
      LineTerminator of ECMAScript (section 12.2 and 12.3 of ECMA-262). */
  predicate IsWhitespace(c: char) {
    || c == '\t' || c == '\n' || c == '\U{000B}' || c == '\U{000C}' || c == '\r'
    || c == ' ' || c == '\U{00A0}' || c == '\U{1680}'
    || ('\U{2000}' <= c <= '\U{200A}')
    || c == '\U{2028}' || c == '\U{2029}' || c == '\U{202F}' || c == '\U{205F}'
    || c == '\U{3000}' || c == '\U{FEFF}'
  }

  function TrimStart(s: string): (r: string)
    ensures |r| <= |s| && r == s[|s| - |r|..]
    ensures |r| > 0 ==> !IsWhitespace(r[0])
    ensures forall k :: 0 <= k < |s| - |r| ==> IsWhitespace(s[k])
  {
    if |s| > 0 && IsWhitespace(s[0]) then TrimStart(s[1..]) else s
  }

  function TrimEnd(s: string): (r: string)
    ensures |r| <= |s| && r == s[..|r|]
    ensures |r| > 0 ==> !IsWhitespace(r[|r| - 1])
    ensures forall k :: |r| <= k < |s| ==> IsWhitespace(s[k])
  {
    if |s| > 0 && IsWhitespace(s[|s| - 1]) then TrimEnd(s[..|s| - 1]) else s
  }

  /** How many leading whitespace characters `s.trim()` drops. */
  function TrimOffset(s: string): nat {
    |s| - |TrimStart(s)|
  }

  /** `s.trim()`: a contiguous infix of `s` that neither starts nor ends with
      whitespace, with only whitespace dropped around it. */
  function Trim(s: string): (r: string)
    ensures TrimOffset(s) + |r| <= |s|
    ensures r == s[TrimOffset(s)..TrimOffset(s) + |r|]
    ensures |r| > 0 ==> !IsWhitespace(r[0]) && !IsWhitespace(r[|r| - 1])
    ensures forall k :: 0 <= k < TrimOffset(s) ==> IsWhitespace(s[k])
    ensures forall k :: TrimOffset(s) + |r| <= k < |s| ==> IsWhitespace(s[k])
  {
    var a := TrimStart(s);
    var b := TrimEnd(a);
    TrimParts(s, a, b);
    b
  }

  /** The end trimmed off the start-trimmed string is the end of `s`. */
  lemma TrimParts(s: string, a: string, b: string)
    requires |a| <= |s| && a == s[|s| - |a|..]
    requires |b| <= |a| && b == a[..|b|]
    requires forall k :: |b| <= k < |a| ==> IsWhitespace(a[k])
    ensures b == s[|s| - |a|..|s| - |a| + |b|]
    ensures forall k :: |s| - |a| + |b| <= k < |s| ==> IsWhitespace(s[k])
  {
    var i := |s| - |a|;
    assert s[i..][..|b|] == s[i..i + |b|];
    forall k | i + |b| <= k < |s|
      ensures IsWhitespace(s[k])
    {
      assert s[k] == a[k - i];
    }
  }

  lemma TrimIdempotent(s: string)
    ensures Trim(Trim(s)) == Trim(s)
  {
    var t := Trim(s);
    assert TrimStart(t) == t;
    assert TrimEnd(t) == t;
  }

  /** The upper-case counterpart of an ASCII lower-case letter; other characters unchanged. */
  function UpperChar(c: char): char {
    if 'a' <= c <= 'z' then (c as int - 32) as char else c
  }

  /** `s.toUpperCase()`, restricted to ASCII letters. */
  function ToUpper(s: string): (r: string)
    ensures |r| == |s|
    ensures forall k :: 0 <= k < |s| ==> r[k] == UpperChar(s[k])
  {
    seq(|s|, k requires 0 <= k < |s| => UpperChar(s[k]))
  }

  /** Decimal digits of a natural number, most significant first, no leading zeros. */
  function NatText(n: nat): (r: string)
    ensures |r| >= 1
    decreases n
  {
    var d := ['0' + (n % 10) as char];
    if n < 10 then d else NatText(n / 10) + d
  }

  /** Decimal text of an integer, as JavaScript prints an integral number. */
  function IntText(n: int): string {
    if n < 0 then "-" + NatText(-n) else NatText(n)
  }
}

=== FILE: use_api.dfy ===
/** The state logic of `hooks/useApi.js`: the page cursor of `usePaginatedApi`
    (next, previous, go-to), how its `fetch` builds the request and reads the
    response, and the form state of `useForm` (change, blur, reset, and the
    rule-by-rule `validate`). A React state update is a function from the old
    state to the new one. */
module UseApi {
  import opened Wrappers
  import opened Js

  // ------------------------------------------------------------ page cursor

  /** The page state of `usePaginatedApi`, numbered from 0. */
  datatype Pager = Pager(page: int, totalPages: int)

  /** `useState(0)` and `useState(1)`. */
  const InitialPager: Pager := Pager(0, 1)

  /** The page exists. */
  predicate InRange(p: Pager) {
    0 <= p.page < p.totalPages
  }

  /** `nextPage`: only before the last page. */
  function NextPage(p: Pager): (r: Pager)
    ensures r.totalPages == p.totalPages
    ensures r.page == p.page + 1 <==> p.page < p.totalPages - 1
    ensures r.page != p.page + 1 ==> r == p
  {
    if p.page < p.totalPages - 1 then p.(page := p.page + 1) else p
  }

  /** `prevPage`: only after the first page. */
  function PrevPage(p: Pager): (r: Pager)
    ensures r.totalPages == p.totalPages
    ensures r.page == p.page - 1 <==> p.page > 0
    ensures r.page != p.page - 1 ==> r == p
  {
    if p.page > 0 then p.(page := p.page - 1) else p
  }

  /** `goToPage(n)`: only to a page that exists. */
  function GoToPage(p: Pager, n: int): (r: Pager)
    ensures r.totalPages == p.totalPages
    ensures 0 <= n < p.totalPages ==> r.page == n
    ensures !(0 <= n < p.totalPages) ==> r == p
  {
    if 0 <= n < p.totalPages then p.(page := n) else p
  }

  /** None of the three moves leaves the existing pages, and a step forward
      followed by a step back returns to where it started. */
  lemma MovesStayInRange(p: Pager, n: int)
    requires InRange(p)
    ensures InRange(NextPage(p)) && InRange(PrevPage(p)) && InRange(GoToPage(p, n))
    ensures NextPage(p) != p ==> PrevPage(NextPage(p)) == p
    ensures PrevPage(p) != p ==> NextPage(PrevPage(p)) == p
    ensures InRange(InitialPager)
  {
  }

  /** On the last page "next" does nothing, and on the first "previous" does
      nothing; a single page admits no move at all. */
  lemma EndsAreFixed(p: Pager, n: int)
    ensures p.page == p.totalPages - 1 ==> NextPage(p) == p
    ensures p.page == 0 ==> PrevPage(p) == p
    ensures p == InitialPager ==> NextPage(p) == p && PrevPage(p) == p && (n != 0 ==> GoToPage(p, n) == p)
  {
  }

  // ------------------------------------------------------------ fetch

  /** `{ page: params.page ?? page, size: params.size ?? defaultPageSize, ...params }`. */
  function FetchRequest(params: Record, page: int, defaultPageSize: int): (r: Record)
    ensures r.Keys == params.Keys + {"page", "size"}
    ensures forall k :: k in params ==> r[k] == params[k]
    ensures "page" !in params ==> r["page"] == Num(page)
    ensures "size" !in params ==> r["size"] == Num(defaultPageSize)
  {
    var p := Get(params, "page");
    var s := Get(params, "size");
    var base := map[
      "page" := if p.Undefined? || p.Null? then Num(page) else p,
      "size" := if s.Undefined? || s.Null? then Num(defaultPageSize) else s];
    base + params
  }

  /** The `??` defaults never apply to a key the caller passed, because the
      spread that follows copies the caller's value back, even `null`. */
  lemma NullPageIsSent(params: Record, page: int, size: int)
    requires "page" in params && params["page"] == Null
    ensures FetchRequest(params, page, size)["page"] == Null
  {
  }

  /** What `fetch` stores from a response. */
  datatype Fetched = Fetched(data: seq<Value>, totalPages: Value, total: Value, page: Value)

  /** The items of a response: `users`, else `courses`, else `data`, else the
      response itself. */
  function ItemsOf(result: Value): (r: Result<Value, Exception>)
    ensures r.Failure? <==> result.Undefined? || result.Null?
    ensures r.Success? ==> !(r.value.Undefined? || r.value.Null?)
  {
    var users :- Member(result, "users");
    Success(Or(Or(Or(users, Field(result, "courses")), Field(result, "data")), result))
  }

  /** The state `fetch` sets from a response; a `null` response throws. */
  function ReadFetch(result: Value): (r: Result<Fetched, Exception>)
    ensures r.Failure? <==> result.Undefined? || result.Null?
    ensures r.Success? ==>
      var items := ItemsOf(result).value;
      (items.Arr? ==> r.value.data == items.items)
      && (!items.Arr? ==> r.value.data == [])
      && Truthy(r.value.totalPages)
      && (!Truthy(Field(result, "totalPages")) ==> r.value.totalPages == Num(1))
      && (!Truthy(Field(result, "page")) ==> r.value.page == Num(0))
      && (!Truthy(Field(result, "total")) && items.Arr? && |items.items| > 0 ==> r.value.total == Num(|items.items|))
  {
    var items :- ItemsOf(result);
    Success(Fetched(
      if items.Arr? then items.items else [],
      Or(Field(result, "totalPages"), Num(1)),
      Or(Or(Field(result, "total"), LengthOf(items)), Num(0)),
      Or(Field(result, "page"), Num(0))))
  }

  /** A bare array response is itself the data, on one page; a response that is
      no list and has no list inside stores no data. */
  lemma FetchShapes(items: seq<Value>, result: Record)
    ensures ReadFetch(Arr(items)) == Success(Fetched(items, Num(1), Or(Num(|items|), Num(0)), Num(0)))
    ensures !Truthy(Get(result, "users")) && !Truthy(Get(result, "courses")) && !Truthy(Get(result, "data")) ==>
      ReadFetch(Obj(result)).value.data == []
  {
  }

  // ------------------------------------------------------------ form state

  /** The state of `useForm`, with the initial values it resets to. */
  datatype Form = Form(initial: Record, values: Record, errors: Record, touched: Record)

  /** `useForm(initialValues)`. */
  function NewForm(initial: Record): (f: Form)
    ensures f.values == initial && f.errors == map[] && f.touched == map[]
  {
    Form(initial, initial, map[], map[])
  }

  /** The parts of `e.target` the handlers read. */
  datatype Target = Target(name: string, value: Value, kind: Value, checked: Value)

  /** `handleChange(e)`: the named field becomes `checked` for a checkbox and
      `value` otherwise. */
  function HandleChange(f: Form, t: Target): (r: Form)
    ensures r.values.Keys == f.values.Keys + {t.name}
    ensures r.values[t.name] == (if StrictEquals(t.kind, Str("checkbox")) then t.checked else t.value)
    ensures forall k :: k in f.values && k != t.name ==> r.values[k] == f.values[k]
    ensures r.initial == f.initial && r.errors == f.errors && r.touched == f.touched
  {
    f.(values := f.values[t.name := if StrictEquals(t.kind, Str("checkbox")) then t.checked else t.value])
  }

  /** `handleBlur(e)`: the named field is marked touched. */
  function HandleBlur(f: Form, name: string): (r: Form)
    ensures r.touched.Keys == f.touched.Keys + {name} && r.touched[name] == Bool(true)
    ensures forall k :: k in f.touched && k != name ==> r.touched[k] == f.touched[k]
    ensures r.initial == f.initial && r.values == f.values && r.errors == f.errors
  {
    f.(touched := f.touched[name := Bool(true)])
  }

  /** `setValue(name, value)`: the named field takes the value. */
  function SetValue(f: Form, name: string, value: Value): (r: Form)
    ensures r.values.Keys == f.values.Keys + {name} && r.values[name] == value
    ensures forall k :: k in f.values && k != name ==> r.values[k] == f.values[k]
    ensures r.initial == f.initial && r.errors == f.errors && r.touched == f.touched
  {
    f.(values := f.values[name := value])
  }

  /** `setFieldError(name, error)`: the named field gets the error, whatever
      the value, and no other error changes. */
  function SetFieldError(f: Form, name: string, error: Value): (r: Form)
    ensures r.errors.Keys == f.errors.Keys + {name} && r.errors[name] == error
    ensures forall k :: k in f.errors && k != name ==> r.errors[k] == f.errors[k]
    ensures r.initial == f.initial && r.values == f.values && r.touched == f.touched
  {
    f.(errors := f.errors[name := error])
  }

  /** A change event from an input that is not a checkbox sets the field as
      `setValue` does, and a checkbox event sets it to its checked state. */
  lemma ChangeIsSetValue(f: Form, t: Target)
    ensures !StrictEquals(t.kind, Str("checkbox")) ==> HandleChange(f, t) == SetValue(f, t.name, t.value)
    ensures StrictEquals(t.kind, Str("checkbox")) ==> HandleChange(f, t) == SetValue(f, t.name, t.checked)
  {
  }

  /** An error set by hand is forgotten by a reset, like every other edit. */
  lemma ResetForgetsFieldError(f: Form, name: string, error: Value)
    ensures Reset(SetFieldError(f, name, error)) == Reset(f)
    ensures SetFieldError(SetFieldError(f, name, error), name, error) == SetFieldError(f, name, error)
  {
  }

  /** `reset()`: back to the initial values, with no errors and nothing touched. */
  function Reset(f: Form): (r: Form)
    ensures r.initial == f.initial && r.values == f.initial
    ensures r.errors == map[] && r.touched == map[]
  {
    Form(f.initial, f.initial, map[], map[])
  }

  /** However the form was edited, a reset gives the fresh form back. */
  lemma ResetForgetsEdits(initial: Record, t: Target, name: string)
    ensures Reset(HandleChange(NewForm(initial), t)) == NewForm(initial)
    ensures Reset(HandleBlur(NewForm(initial), name)) == NewForm(initial)
    ensures Reset(Reset(HandleChange(NewForm(initial), t))) == Reset(HandleChange(NewForm(initial), t))
  {
  }

  /** A checkbox stores its `checked` state, not its `value`. */
  lemma CheckboxStoresChecked(f: Form, name: string, value: Value, checked: Value)
    ensures HandleChange(f, Target(name, value, Str("checkbox"), checked)).values[name] == checked
    ensures HandleChange(f, Target(name, value, Str("text"), checked)).values[name] == value
  {
  }

  // ------------------------------------------------------------ validate

  const RequiredMessage: string := "Trường này không được để trống"
  const InvalidMessage: string := "Giá trị không hợp lệ"

  /** The message of a value shorter than `minLength`. */
  function MinLengthMessage(minLength: Value): (t: string)
    ensures |t| > 0
  {
    "Tối thiểu " + Text(minLength) + " ký tự"
  }

  /** One field's rules: `required`, `minLength`, `pattern` (its `test` on the
      text of the value), `custom` (called with the value and all values) and
      `message`. */
  datatype Rules = Rules(
    required: Value,
    minLength: Value,
    pattern: Option<string -> bool>,
    custom: Option<(Value, Record) -> Value>,
    message: Value)

  /** The first failing rule of one field, checked in the order required,
      minLength, pattern, custom; minLength and pattern only look at a truthy
      value. */
  function FieldError(rules: Rules, value: Value, values: Record): (r: Option<Value>)
    ensures Truthy(rules.required) && !Truthy(value) ==> r == Some(Or(rules.message, Str(RequiredMessage)))
    ensures !Truthy(rules.required) && !Truthy(value) && rules.custom.None? ==> r.None?
    ensures (!(Truthy(rules.required) && !Truthy(value)) && Truthy(rules.minLength) && Truthy(value)
      && LessThan(LengthOf(value), rules.minLength)) ==>
      r == Some(Str(MinLengthMessage(rules.minLength)))
    ensures r.Some? ==> Truthy(r.value)
  {
    if Truthy(rules.required) && !Truthy(value) then
      assert |RequiredMessage| > 0;
      Some(Or(rules.message, Str(RequiredMessage)))
    else if Truthy(rules.minLength) && Truthy(value) && LessThan(LengthOf(value), rules.minLength) then
      Some(Str(MinLengthMessage(rules.minLength)))
    else PatternOrCustomError(rules, value, values)
  }

  /** The pattern and custom rules, checked once required and minLength pass. */
  function PatternOrCustomError(rules: Rules, value: Value, values: Record): (r: Option<Value>)
    ensures !Truthy(value) && rules.custom.None? ==> r.None?
    ensures r.Some? ==> r.value == Or(rules.message, Str(InvalidMessage)) && Truthy(r.value)
  {
    assert |InvalidMessage| > 0;
    if rules.pattern.Some? && Truthy(value) && !rules.pattern.value(Text(value)) then
      Some(Or(rules.message, Str(InvalidMessage)))
    else if rules.custom.Some? && !Truthy(rules.custom.value(value, values)) then
      Some(Or(rules.message, Str(InvalidMessage)))
    else None
  }

  /** The error a schema entry records, if any. */
  function EntryError(entry: (string, Rules), values: Record): Option<Value> {
    FieldError(entry.1, Get(values, entry.0), values)
  }

  /** The errors recorded after the entries of `schema`, in order: each
      failing entry writes its message under its field, so a later entry for
      the same field overwrites an earlier one. */
  function Recorded(schema: seq<(string, Rules)>, values: Record): (m: map<string, Value>)
  {
    if |schema| == 0 then map[]
    else
      var before := Recorded(schema[..|schema| - 1], values);
      var last := schema[|schema| - 1];
      match EntryError(last, values)
      case Some(e) => before[last.0 := e]
      case None => before
  }

  /** A field has an error exactly when some entry for it fails. */
  lemma {:induction false} RecordedFields(schema: seq<(string, Rules)>, values: Record)
    ensures forall f :: f in Recorded(schema, values) <==>
      exists i :: 0 <= i < |schema| && schema[i].0 == f && EntryError(schema[i], values).Some?
  {
    if |schema| > 0 {
      var init := schema[..|schema| - 1];
      RecordedFields(init, values);
      forall f | f in Recorded(schema, values)
        ensures exists i :: 0 <= i < |schema| && schema[i].0 == f && EntryError(schema[i], values).Some?
      {
        if f !in Recorded(init, values) {
          assert schema[|schema| - 1].0 == f;
        } else {
          var i :| 0 <= i < |init| && init[i].0 == f && EntryError(init[i], values).Some?;
          assert schema[i] == init[i];
        }
      }
      forall f, i | 0 <= i < |schema| && schema[i].0 == f && EntryError(schema[i], values).Some?
        ensures f in Recorded(schema, values)
      {
        if i < |init| {
          assert init[i] == schema[i];
        }
      }
    }
  }

  /** The message kept for a field is that of its last entry, when that one
      fails. */
  lemma {:induction false} RecordedLastWins(schema: seq<(string, Rules)>, values: Record, i: nat)
    requires i < |schema| && EntryError(schema[i], values).Some?
    requires forall j :: i < j < |schema| ==> schema[j].0 != schema[i].0
    ensures schema[i].0 in Recorded(schema, values)
    ensures Recorded(schema, values)[schema[i].0] == EntryError(schema[i], values).value
  {
    var init := schema[..|schema| - 1];
    if i < |init| {
      assert init[i] == schema[i];
      RecordedLastWins(init, values, i);
    }
  }

  /** `validate(schema)`: the loop over the schema's entries, in order. It
      returns the errors it records and whether there were none. */
  method Validate(schema: seq<(string, Rules)>, values: Record) returns (errors: map<string, Value>, valid: bool)
    ensures errors == Recorded(schema, values)
    ensures valid <==> errors == map[]
    ensures valid <==> forall i :: 0 <= i < |schema| ==> EntryError(schema[i], values).None?
  {
    errors := map[];
    var n := 0;
    while n < |schema|
      invariant 0 <= n <= |schema|
      invariant errors == Recorded(schema[..n], values)
    {
      var (field, rules) := schema[n];
      var e := FieldError(rules, Get(values, field), values);
      assert schema[..n + 1][..n] == schema[..n];
      if e.Some? {
        errors := errors[field := e.value];
      }
      n := n + 1;
    }
    assert schema[..n] == schema;
    RecordedFields(schema, values);
    valid := |errors| == 0;
    if valid {
      assert forall i :: 0 <= i < |schema| ==> schema[i].0 !in errors;
    } else {
      var f :| f in errors;
    }
  }

  /** A required field left empty yields the required message (or the rule's
      own), and a too-short value the length message, never both. */
  lemma RuleOrder(value: string, minLength: int, message: Value, values: Record)
    requires minLength > 0
    ensures FieldError(Rules(Bool(true), Num(minLength), None, None, message), Str(""), values)
      == Some(Or(message, Str(RequiredMessage)))
    ensures 0 < |value| && |Utf16(value)| < minLength ==>
      FieldError(Rules(Bool(true), Num(minLength), None, None, message), Str(value), values)
        == Some(Str("Tối thiểu " + Text(Num(minLength)) + " ký tự"))
    ensures |Utf16(value)| >= minLength ==>
      FieldError(Rules(Bool(true), Num(minLength), None, None, message), Str(value), values).None?
  {
    assert LengthOf(Str(value)) == Num(|Utf16(value)|);
    CompareNumbers(|Utf16(value)|, minLength);
  }
}

=== FILE: use_case_support.dfy ===
/** What the use cases share: the repository call they make (a parameter, so
    that "fails before any repository call" can be stated as "the result does not
    depend on the repository"), the ordered required-field check, and the ways
    they unwrap a list out of a back-end response. */
module UseCaseSupport {
  import opened Wrappers
  import opened Js

  /** One repository call: the request it is given and the response it resolves
      to, or the error it rejects with. */
  type Call = Value -> Result<Value, Exception>

  /** The message suffix of a missing required field. */
  const Blank: string := " không được để trống"

  /** `for (const field of fields) if (!data[field]) throw new Error(`${field} không được để trống`)`. */
  function RequireFields(data: Record, fields: seq<string>): (r: Outcome<Exception>)
    ensures r.Pass? <==> forall i :: 0 <= i < |fields| ==> Truthy(Get(data, fields[i]))
    ensures r.Fail? ==>
      exists i :: (0 <= i < |fields| && !Truthy(Get(data, fields[i]))
        && (forall j :: 0 <= j < i ==> Truthy(Get(data, fields[j])))
        && r.error == Error(fields[i] + Blank))
  {
    if |fields| == 0 then Pass
    else if !Truthy(Get(data, fields[0])) then Fail(Error(fields[0] + Blank))
    else
      var rest := RequireFields(data, fields[1..]);
      assert forall i :: 1 <= i < |fields| ==> fields[i] == fields[1..][i - 1];
      if rest.Fail? then
        var i :| 0 <= i < |fields[1..]| && !Truthy(Get(data, fields[1..][i]))
          && (forall j :: 0 <= j < i ==> Truthy(Get(data, fields[1..][j])))
          && rest.error == Error(fields[1..][i] + Blank);
        assert forall j :: 0 <= j < i + 1 ==> Truthy(Get(data, fields[j])) by {
          forall j | 0 <= j < i + 1 ensures Truthy(Get(data, fields[j])) {
            if j > 0 {
              assert fields[j] == fields[1..][j - 1];
            }
          }
        }
        rest
      else rest
  }

  /** The first failing field decides the message: a data object missing the
      field at position `i` and having every earlier one fails naming it. */
  lemma {:induction false} FirstMissingFieldNamed(data: Record, fields: seq<string>, i: nat)
    requires i < |fields| && !Truthy(Get(data, fields[i]))
    requires forall j :: 0 <= j < i ==> Truthy(Get(data, fields[j]))
    ensures RequireFields(data, fields) == Fail(Error(fields[i] + Blank))
    decreases i
  {
    if i > 0 {
      assert forall j :: 0 <= j < i - 1 ==> fields[1..][j] == fields[j + 1];
      FirstMissingFieldNamed(data, fields[1..], i - 1);
    }
  }

  /** `Array.isArray(response) ? response : (response.content || [])`. */
  function ListFrom(response: Value): (r: Result<Value, Exception>)
    ensures r.Failure? <==> response.Undefined? || response.Null?
    ensures response.Arr? ==> r == Success(response)
    ensures response.Obj? ==> r == Success(Or(Get(response.fields, "content"), Arr([])))
    ensures r.Success? ==> Truthy(r.value)
  {
    if response.Arr? then Success(response)
    else
      var content :- Member(response, "content");
      Success(Or(content, Arr([])))
  }

  /** `response.content || response.data || response`. */
  function ContentOf(response: Value): (r: Result<Value, Exception>)
    ensures r.Failure? <==> response.Undefined? || response.Null?
    ensures r.Success? && Truthy(Field(response, "content")) ==> r.value == Field(response, "content")
    ensures r.Success? && !Truthy(Field(response, "content")) && Truthy(Field(response, "data")) ==>
      r.value == Field(response, "data")
    ensures r.Success? && !Truthy(Field(response, "content")) && !Truthy(Field(response, "data")) ==>
      r.value == response
  {
    var content :- Member(response, "content");
    Success(Or(Or(content, Field(response, "data")), response))
  }

  /** `xs.map(f)` where `f` may throw: the first exception, in list order. */
  function MapAll<T>(xs: seq<Value>, f: Value -> Result<T, Exception>): (r: Result<seq<T>, Exception>)
    ensures r.Success? <==> forall k :: 0 <= k < |xs| ==> f(xs[k]).Success?
    ensures r.Success? ==> |r.value| == |xs| && forall k :: 0 <= k < |xs| ==> r.value[k] == f(xs[k]).value
    ensures r.Failure? ==>
      exists k :: (0 <= k < |xs| && f(xs[k]) == Failure(r.error)
        && forall j :: 0 <= j < k ==> f(xs[j]).Success?)
  {
    if |xs| == 0 then Success([])
    else
      var first := f(xs[0]);
      if first.Failure? then Failure(first.error)
      else
        var rest := MapAll(xs[1..], f);
        assert forall k :: 1 <= k < |xs| ==> xs[k] == xs[1..][k - 1];
        if rest.Failure? then
          var k :| 0 <= k < |xs[1..]| && f(xs[1..][k]) == Failure(rest.error)
            && forall j :: 0 <= j < k ==> f(xs[1..][j]).Success?;
          assert f(xs[k + 1]) == Failure(rest.error);
          assert forall j :: 0 <= j < k + 1 ==> f(xs[j]).Success? by {
            forall j | 0 <= j < k + 1 ensures f(xs[j]).Success? {
              if j > 0 {
                assert xs[j] == xs[1..][j - 1];
              }
            }
          }
          Failure(rest.error)
        else Success([first.value] + rest.value)
  }

  /** `Array.isArray(content) ? content.map(f) : []`. */
  function MapIfList<T>(content: Value, f: Value -> Result<T, Exception>): (r: Result<seq<T>, Exception>)
    ensures !content.Arr? ==> r == Success([])
    ensures content.Arr? ==> r == MapAll(content.items, f)
  {
    if content.Arr? then MapAll(content.items, f) else Success([])
  }

  /** The pagination fields the list use cases add: `total` (the back end's
      `totalElements`, else the list length), `page` (default 0) and
      `totalPages` (default 1). */
  datatype Paging = Paging(total: Value, page: Value, totalPages: Value)

  function PagingOf(response: Value, count: nat): (p: Paging)
    ensures Truthy(Field(response, "totalElements")) ==> p.total == Field(response, "totalElements")
    ensures !Truthy(Field(response, "totalElements")) ==> p.total == Num(count)
    ensures !Truthy(Field(response, "number")) ==> p.page == Num(0)
    ensures !Truthy(Field(response, "totalPages")) ==> p.totalPages == Num(1)
    ensures Truthy(p.totalPages)
  {
    Paging(
      Or(Field(response, "totalElements"), Num(count)),
      Or(Field(response, "number"), Num(0)),
      Or(Field(response, "totalPages"), Num(1)))
  }
}

=== FILE: user_management.dfy ===
/** The user-management page of `pages/admin/UserManagement.jsx`: the name
    split when a user is opened for editing, the form it fills, the payload a
    submit sends, and the limits a secretary works under (no staff accounts
    created, none deleted, no actions on staff rows, no staff role offered). */
module UserManagement {
  import opened Wrappers
  import opened Js
  import opened UserModel
  import opened UseCaseSupport
  import UserUseCases
  import Strings

  const NoStaffCreate: Exception := Error("Bạn không có quyền tạo tài khoản Admin hoặc Thư ký.")
  const NoStaffDelete: Exception := Error("Bạn không có quyền xóa tài khoản quản trị.")

  /** The signed-in user is a secretary: role `ROLE_SECRETARY` or `SECRETARY`. */
  predicate IsSecretary(currentUser: Value) {
    StrictEquals(Field(currentUser, "role"), Str("ROLE_SECRETARY"))
    || StrictEquals(Field(currentUser, "role"), Str("SECRETARY"))
  }

  /** A role value a secretary may not create, delete or act on. */
  predicate IsStaffRole(role: Value) {
    StrictEquals(role, Str("ADMIN")) || StrictEquals(role, Str("SECRETARY"))
  }

  lemma StaffRoleIff(role: Value)
    ensures IsStaffRole(role) <==> role == Str("ADMIN") || role == Str("SECRETARY")
  {
  }

  /** The first space-separated token of the trimmed name, and the other
      tokens joined back with single spaces. */
  function NameParts(fullName: string): (r: (string, string))
    ensures ' ' !in r.0
    ensures r.0 == Strings.Split(Strings.Trim(fullName), ' ')[0]
    ensures ' ' in Strings.Trim(fullName) ==> r.0 + " " + r.1 == Strings.Trim(fullName)
    ensures ' ' !in Strings.Trim(fullName) ==> r == (Strings.Trim(fullName), "")
  {
    var t := Strings.Trim(fullName);
    var parts := Strings.Split(t, ' ');
    Strings.SplitSingle(t, ' ');
    if |parts| >= 2 then
      Strings.JoinSplit(t, ' ');
      (parts[0], Strings.Join(parts[1..], " "))
    else
      (parts[0], "")
  }

  /** `handleOpenModal(user)`: the first and last name the form starts with.
      The stored names are kept unless both are empty, in which case a
      present full name is split; only a string can be trimmed. */
  function NameSplit(user: Record): (r: Result<(Value, Value), Exception>)
    ensures Truthy(Get(user, "firstName")) || Truthy(Get(user, "lastName")) || !Truthy(Get(user, "fullName")) ==>
      r == Success((Or(Get(user, "firstName"), Str("")), Or(Get(user, "lastName"), Str(""))))
    ensures !Truthy(Get(user, "firstName")) && !Truthy(Get(user, "lastName")) && Truthy(Get(user, "fullName")) ==>
      (r.Success? <==> Get(user, "fullName").Str?)
    ensures r.Success? && !Truthy(Get(user, "firstName")) && !Truthy(Get(user, "lastName")) && Truthy(Get(user, "fullName")) ==>
      r.value.0.Str? && r.value.1.Str? && ' ' !in r.value.0.s
  {
    var first := Or(Get(user, "firstName"), Str(""));
    var last := Or(Get(user, "lastName"), Str(""));
    var full := Get(user, "fullName");
    if !Truthy(first) && !Truthy(last) && Truthy(full) then
      if full.Str? then
        var (f, l) := NameParts(full.s);
        Success((Str(f), Str(l)))
      else Failure(TypeError)
    else Success((first, last))
  }

  /** The fields of the user form. */
  const FormKeys: set<string> := {
    "username", "password", "email", "fullName", "firstName", "lastName",
    "role", "lecturerCode", "studentCode"}

  /** The empty form of a new user: every field empty but the role, STUDENT. */
  const NewForm: Record := map k | k in FormKeys :: if k == "role" then Str("STUDENT") else Str("")

  /** One field of the form filled from the row being edited: the password
      is left empty, the names are the split ones, a missing code is empty
      and the other fields are copied. */
  function EditedField(u: Record, first: Value, last: Value, k: string): Value {
    if k == "password" then Str("")
    else if k == "firstName" then first
    else if k == "lastName" then last
    else if k == "lecturerCode" || k == "studentCode" then Or(Get(u, k), Str(""))
    else Get(u, k)
  }

  /** The form `handleOpenModal` fills: from the row being edited, or empty
      for a new user (with role STUDENT whoever is signed in). */
  function OpenForm(user: Option<Record>): (r: Result<Record, Exception>)
    ensures user.None? ==> r == Success(NewForm)
    ensures user.Some? ==> (r.Success? <==> NameSplit(user.value).Success?)
    ensures r.Success? ==> r.value.Keys == FormKeys
    ensures user.Some? && r.Success? ==>
      r.value["password"] == Str("")
      && r.value["firstName"] == NameSplit(user.value).value.0
      && r.value["lastName"] == NameSplit(user.value).value.1
      && r.value["role"] == Get(user.value, "role")
  {
    match user
    case None => Success(NewForm)
    case Some(u) =>
      var (first, last) :- NameSplit(u);
      FormKeysDistinct();
      Success(map k | k in FormKeys :: EditedField(u, first, last, k))
  }

  /** The form fields the contracts name are different keys. */
  lemma FormKeysDistinct()
    ensures "firstName" != "password" && "lastName" != "password" && "lastName" != "firstName"
    ensures "role" != "password" && "role" != "firstName" && "role" != "lastName"
    ensures "role" != "lecturerCode" && "role" != "studentCode"
  {
    assert "lastName"[0] == 'l' && "password"[0] == 'p';
  }

  /** The six fields every submit sends. */
  const BaseKeys: set<string> := {"username", "email", "fullName", "firstName", "lastName", "role"}

  /** The full name a submit sends: the form's first and last name, joined by
      a space and trimmed. */
  function JoinedName(form: Record): string {
    Strings.Trim(Text(Get(form, "firstName")) + " " + Text(Get(form, "lastName")))
  }

  /** The six fields every submit sends, the full name rebuilt from its parts. */
  function BasePayload(form: Record): (p: Record)
    ensures "fullName" in p && p["fullName"] == Str(JoinedName(form))
    ensures forall k :: k in p && k != "fullName" ==> p[k] == Get(form, k)
    ensures p.Keys == BaseKeys
  {
    map k | k in BaseKeys :: if k == "fullName" then Str(JoinedName(form)) else Get(form, k)
  }

  /** The optional fields are none of the base fields. */
  lemma OptionalKeysAreNew()
    ensures "password" !in BaseKeys && "lecturerCode" !in BaseKeys && "studentCode" !in BaseKeys
  {
    assert "password"[0] == 'p';
    assert "lecturerCode"[0] == 'l' && "lecturerCode"[1] == 'e';
    assert "studentCode"[0] == 's';
  }

  /** The optional fields a submit adds: the password only when one was
      typed, and the code only of the role's own kind. */
  function OptionalKeys(form: Record): (r: set<string>)
    ensures r <= {"password", "lecturerCode", "studentCode"}
    ensures "password" in r <==> Truthy(Get(form, "password"))
    ensures "lecturerCode" in r <==> Get(form, "role") == Str("LECTURER") && Truthy(Get(form, "lecturerCode"))
    ensures "studentCode" in r <==> Get(form, "role") == Str("STUDENT") && Truthy(Get(form, "studentCode"))
  {
    var role := Get(form, "role");
    (if Truthy(Get(form, "password")) then {"password"} else {})
    + (if StrictEquals(role, Str("LECTURER")) && Truthy(Get(form, "lecturerCode")) then {"lecturerCode"} else {})
    + (if StrictEquals(role, Str("STUDENT")) && Truthy(Get(form, "studentCode")) then {"studentCode"} else {})
  }

  /** `dataToSend` of `handleSubmit`: the base fields and the optional ones,
      every value copied from the form except the rebuilt full name. */
  function Payload(form: Record): (p: Record)
    ensures p.Keys == BaseKeys + OptionalKeys(form)
    ensures "fullName" in p && p["fullName"] == Str(JoinedName(form))
    ensures forall k :: k in p && k != "fullName" ==> p[k] == Get(form, k)
  {
    var base := BasePayload(form);
    map k | k in base.Keys + OptionalKeys(form) :: if k in base then base[k] else Get(form, k)
  }

  /** Which optional fields a payload carries. */
  lemma PayloadOptionalFields(form: Record)
    ensures BaseKeys <= Payload(form).Keys <= BaseKeys + {"password", "lecturerCode", "studentCode"}
    ensures "password" in Payload(form) <==> Truthy(Get(form, "password"))
    ensures "lecturerCode" in Payload(form) <==> Get(form, "role") == Str("LECTURER") && Truthy(Get(form, "lecturerCode"))
    ensures "studentCode" in Payload(form) <==> Get(form, "role") == Str("STUDENT") && Truthy(Get(form, "studentCode"))
  {
    OptionalKeysAreNew();
  }

  /** `handleSubmit`: the secretary check, then an update of the selected user
      or the creation of a new one. */
  function Submit(currentUser: Value, form: Record, selected: Option<Record>,
                  createUser: Call, updateUser: UserUseCases.UpdateCall): (r: Result<User, Exception>)
    ensures IsSecretary(currentUser) && IsStaffRole(Get(form, "role")) ==> r == Failure(NoStaffCreate)
    ensures !(IsSecretary(currentUser) && IsStaffRole(Get(form, "role"))) && selected.Some? ==>
      r == UserUseCases.UpdateUser(Get(selected.value, "id"), Obj(Payload(form)), updateUser)
    ensures !(IsSecretary(currentUser) && IsStaffRole(Get(form, "role"))) && selected.None? ==>
      r == UserUseCases.CreateUser(Obj(Payload(form)), createUser)
  {
    if IsSecretary(currentUser) && IsStaffRole(Get(form, "role")) then Failure(NoStaffCreate)
    else if selected.Some? then UserUseCases.UpdateUser(Get(selected.value, "id"), Obj(Payload(form)), updateUser)
    else UserUseCases.CreateUser(Obj(Payload(form)), createUser)
  }

  /** A secretary's attempt at a staff account is refused before any call. */
  lemma SecretaryCannotCreateStaff(currentUser: Value, form: Record, selected: Option<Record>,
                                   createUser: Call, updateUser: UserUseCases.UpdateCall,
                                   otherCreate: Call, otherUpdate: UserUseCases.UpdateCall)
    requires IsSecretary(currentUser) && IsStaffRole(Get(form, "role"))
    ensures Submit(currentUser, form, selected, createUser, updateUser)
         == Submit(currentUser, form, selected, otherCreate, otherUpdate)
  {
  }

  /** `handleDelete`: a secretary may not delete a staff account; otherwise
      the selected user's id goes to the delete use case. */
  function Delete(currentUser: Value, selected: Value, deleteUser: Call): (r: Result<Value, Exception>)
    ensures IsSecretary(currentUser) && IsStaffRole(Field(selected, "role")) ==> r == Failure(NoStaffDelete)
    ensures !(IsSecretary(currentUser) && IsStaffRole(Field(selected, "role"))) && (selected.Null? || selected.Undefined?) ==>
      r == Failure(TypeError)
    ensures !(IsSecretary(currentUser) && IsStaffRole(Field(selected, "role"))) && selected.Obj? ==>
      r == UserUseCases.DeleteUser(Get(selected.fields, "id"), deleteUser)
  {
    if IsSecretary(currentUser) && IsStaffRole(Field(selected, "role")) then Failure(NoStaffDelete)
    else
      var id :- Member(selected, "id");
      UserUseCases.DeleteUser(id, deleteUser)
  }

  /** A secretary's attempt to delete a staff account is refused before any call. */
  lemma SecretaryCannotDeleteStaff(currentUser: Value, selected: Value, deleteUser: Call, other: Call)
    requires IsSecretary(currentUser) && IsStaffRole(Field(selected, "role"))
    ensures Delete(currentUser, selected, deleteUser) == Delete(currentUser, selected, other)
  {
  }

  /** The row actions (edit, reset password, delete) are shown unless a
      secretary looks at a staff row. */
  predicate RowActions(currentUser: Value, record: Value) {
    !(IsSecretary(currentUser) && IsStaffRole(Field(record, "role")))
  }

  /** The rows without actions are exactly the ones whose deletion the page
      refuses: on any other row the delete goes through to the use case. */
  lemma HiddenActionsMatchDeleteGuard(currentUser: Value, record: Value, deleteUser: Call)
    ensures !RowActions(currentUser, record) ==> Delete(currentUser, record, deleteUser) == Failure(NoStaffDelete)
    ensures RowActions(currentUser, record) && record.Obj? ==>
      Delete(currentUser, record, deleteUser) == UserUseCases.DeleteUser(Get(record.fields, "id"), deleteUser)
  {
  }

  /** The role options of the form: the secretary gets lecturer and student only. */
  function RoleOptions(isSecretary: bool): (r: seq<(string, string)>)
    ensures forall k :: 0 <= k < |r| ==> r[k].0 in UserRoles && RoleLabel(r[k].0) == Some(r[k].1)
  {
    if isSecretary then [("LECTURER", "Giảng viên"), ("STUDENT", "Sinh viên")]
    else [("ADMIN", "Quản trị viên"), ("SECRETARY", "Thư ký"), ("LECTURER", "Giảng viên"), ("STUDENT", "Sinh viên")]
  }

  /** A role is offered exactly when the submit check lets it through: every
      role for an admin, the non-staff roles for a secretary. */
  lemma OptionsMatchSubmitGuard(currentUser: Value, role: string)
    requires role in UserRoles
    ensures (exists k :: 0 <= k < |RoleOptions(IsSecretary(currentUser))| && RoleOptions(IsSecretary(currentUser))[k].0 == role)
      <==> !(IsSecretary(currentUser) && IsStaffRole(Str(role)))
  {
    var opts := RoleOptions(IsSecretary(currentUser));
    if !(IsSecretary(currentUser) && IsStaffRole(Str(role))) {
      if IsSecretary(currentUser) {
        assert role == "LECTURER" ==> opts[0].0 == role;
        assert role == "STUDENT" ==> opts[1].0 == role;
      } else {
        assert role == "ADMIN" ==> opts[0].0 == role;
        assert role == "SECRETARY" ==> opts[1].0 == role;
        assert role == "LECTURER" ==> opts[2].0 == role;
        assert role == "STUDENT" ==> opts[3].0 == role;
      }
    }
  }

  /** A trimmed string stays trimmed with a space after it. */
  lemma TrimWithSpace(t: string)
    requires Strings.Trim(t) == t
    ensures Strings.Trim(t + " ") == t
  {
    var s := t + " ";
    if |t| == 0 {
      assert Strings.TrimStart(s) == Strings.TrimStart("");
    } else {
      assert !Strings.IsWhitespace(t[0]) && !Strings.IsWhitespace(t[|t| - 1]);
      assert s[0] == t[0];
      assert Strings.TrimStart(s) == s;
      assert s[..|s| - 1] == t;
      assert Strings.TrimEnd(s) == Strings.TrimEnd(t);
      assert Strings.TrimEnd(t) == t;
    }
  }

  /** Opening a user whose name is stored only as a full name and saving it
      unchanged sends back the trimmed full name. */
  lemma EditKeepsFullName(user: Record)
    requires !Truthy(Get(user, "firstName")) && !Truthy(Get(user, "lastName"))
    requires Get(user, "fullName").Str? && Truthy(Get(user, "fullName"))
    ensures OpenForm(Some(user)).Success?
    ensures Payload(OpenForm(Some(user)).value)["fullName"] == Str(Strings.Trim(Get(user, "fullName").s))
  {
    var full := Get(user, "fullName").s;
    var (f, l) := NameParts(full);
    var form := OpenForm(Some(user)).value;
    assert Get(form, "firstName") == Str(f) && Get(form, "lastName") == Str(l);
    assert JoinedName(form) == Strings.Trim(f + " " + l);
    NamePartsRejoin(full);
  }

  /** Joining the two parts of a name with a space and trimming gives the
      trimmed name back. */
  lemma NamePartsRejoin(full: string)
    ensures Strings.Trim(NameParts(full).0 + " " + NameParts(full).1) == Strings.Trim(full)
  {
    if ' ' in Strings.Trim(full) {
      RejoinSpaced(full);
    } else {
      RejoinSingle(full);
    }
  }

  lemma RejoinSpaced(full: string)
    requires ' ' in Strings.Trim(full)
    ensures Strings.Trim(NameParts(full).0 + " " + NameParts(full).1) == Strings.Trim(full)
  {
    Strings.TrimIdempotent(full);
  }

  lemma RejoinSingle(full: string)
    requires ' ' !in Strings.Trim(full)
    ensures Strings.Trim(NameParts(full).0 + " " + NameParts(full).1) == Strings.Trim(full)
  {
    var t := Strings.Trim(full);
    Strings.TrimIdempotent(full);
    var (f, l) := NameParts(full);
    RejoinParts(t, f, l);
  }

  lemma RejoinParts(t: string, f: string, l: string)
    requires Strings.Trim(t) == t && f == t && l == ""
    ensures Strings.Trim(f + " " + l) == t
  {
    assert f + " " + l == t + " ";
    TrimWithSpace(t);
  }
}

=== FILE: user_model.dfy ===
/** The user entity of `domain/models/User.js`. The back end may send roles with
    a Spring-style `ROLE_` prefix; `fromApi` strips it. */
module UserModel {
  import opened Wrappers
  import opened Js
  import Strings

  /** USER_ROLES. */
  const UserRoles: seq<string> := ["ADMIN", "LECTURER", "STUDENT", "SECRETARY"]

  const RolePrefix: string := "ROLE_"

  /** The Vietnamese name of a role key, if it is one of USER_ROLES. */
  function RoleLabel(key: string): Option<string> {
    if key == "ADMIN" then Some("Quản trị viên")
    else if key == "LECTURER" then Some("Giảng viên")
    else if key == "STUDENT" then Some("Sinh viên")
    else if key == "SECRETARY" then Some("Thư ký")
    else None
  }

  datatype User = User(
    id: Value,
    username: Value,
    email: Value,
    firstName: Value,
    lastName: Value,
    fullName: Value,
    role: Value,
    studentCode: Value,
    lecturerCode: Value,
    department: Value,
    enabled: Value,
    createdAt: Value,
    updatedAt: Value)
  {
    /** `isAdmin()`: the role is exactly the string ADMIN. */
    function IsAdmin(): (r: bool)
      ensures r <==> role == Str("ADMIN")
    {
      StrictEquals(role, Str("ADMIN"))
    }

    /** `isLecturer()`: the role is exactly the string LECTURER. */
    function IsLecturer(): (r: bool)
      ensures r <==> role == Str("LECTURER")
    {
      StrictEquals(role, Str("LECTURER"))
    }

    /** `isStudent()`: the role is exactly the string STUDENT. */
    function IsStudent(): (r: bool)
      ensures r <==> role == Str("STUDENT")
    {
      StrictEquals(role, Str("STUDENT"))
    }

    /** `isSecretary()`: the role is exactly the string SECRETARY. */
    function IsSecretary(): (r: bool)
      ensures r <==> role == Str("SECRETARY")
    {
      StrictEquals(role, Str("SECRETARY"))
    }

    /** `getDisplayName()`: the full name, or the username when it is empty. */
    function DisplayName(): (r: Value)
      ensures Truthy(fullName) ==> r == fullName
      ensures !Truthy(fullName) ==> r == username
    {
      Or(fullName, username)
    }

    /** `getRoleDisplayText()`: the label of a known role, else the role itself. */
    function RoleDisplayText(): (r: Value)
      ensures RoleLabel(Text(role)).Some? ==> r == Str(RoleLabel(Text(role)).value)
      ensures RoleLabel(Text(role)).None? ==> r == role
    {
      match RoleLabel(Text(role))
      case Some(t) => Str(t)
      case None => role
    }
  }

  /** "first last" with the surrounding spaces trimmed. */
  function JoinedName(firstName: Value, lastName: Value): string {
    Strings.Trim(Text(firstName) + " " + Text(lastName))
  }

  /** `new User({...})` with its arguments in declaration order: `undefined`
      arguments take their defaults, and an empty full name is made from the
      first and last names. */
  function Construct(
    id: Value, username: Value, email: Value, fullName: Value, firstName: Value,
    lastName: Value, role: Value, studentCode: Value, lecturerCode: Value,
    department: Value, enabled: Value, createdAt: Value, updatedAt: Value): (u: User)
    ensures KeptOrDefault(id, u.id, Null) && KeptOrDefault(username, u.username, Str(""))
      && KeptOrDefault(email, u.email, Str("")) && KeptOrDefault(firstName, u.firstName, Str(""))
      && KeptOrDefault(lastName, u.lastName, Str("")) && KeptOrDefault(role, u.role, Str("STUDENT"))
      && KeptOrDefault(studentCode, u.studentCode, Null) && KeptOrDefault(lecturerCode, u.lecturerCode, Null)
      && KeptOrDefault(department, u.department, Null) && KeptOrDefault(enabled, u.enabled, Bool(true))
      && KeptOrDefault(createdAt, u.createdAt, Null) && KeptOrDefault(updatedAt, u.updatedAt, Null)
    ensures Truthy(Default(fullName, Str(""))) ==> u.fullName == fullName
    ensures !Truthy(Default(fullName, Str(""))) ==>
      u.fullName == Str(JoinedName(u.firstName, u.lastName))
  {
    var first := Default(firstName, Str(""));
    var last := Default(lastName, Str(""));
    User(
      Default(id, Null), Default(username, Str("")), Default(email, Str("")),
      first, last, Or(Default(fullName, Str("")), Str(JoinedName(first, last))),
      Default(role, Str("STUDENT")), Default(studentCode, Null), Default(lecturerCode, Null),
      Default(department, Null), Default(enabled, Bool(true)), Default(createdAt, Null),
      Default(updatedAt, Null))
  }

  /** The role `fromApi` stores: STUDENT when none is given, and one leading
      `ROLE_` removed. Calling `startsWith` on a truthy non-string throws. */
  function NormalizeRole(raw: Value): (r: Result<string, Exception>)
    ensures !Truthy(raw) ==> r == Success("STUDENT")
    ensures Truthy(raw) && !raw.Str? ==> r == Failure(TypeError)
    ensures raw.Str? && Strings.StartsWith(raw.s, RolePrefix) ==>
      r == Success(raw.s[|RolePrefix|..])
    ensures raw.Str? && Truthy(raw) && !Strings.StartsWith(raw.s, RolePrefix) ==> r == Success(raw.s)
  {
    var role := Or(raw, Str("STUDENT"));
    assert !Strings.StartsWith("STUDENT", RolePrefix) by {
      assert "STUDENT"[0] != RolePrefix[0];
    }
    if !role.Str? then Failure(TypeError)
    else if Strings.StartsWith(role.s, RolePrefix) then
      assert Strings.IndexOf(role.s, RolePrefix) == Some(0);
      assert role.s[..0] + "" + role.s[|RolePrefix|..] == role.s[|RolePrefix|..];
      Success(Strings.ReplaceFirst(role.s, RolePrefix, ""))
    else Success(role.s)
  }

  /** Only one prefix is removed, and a role without the prefix is kept as it is. */
  lemma NormalizeRoleOnce(base: string)
    ensures NormalizeRole(Str(RolePrefix + base)) == Success(base)
    ensures base != "" && !Strings.StartsWith(base, RolePrefix) ==> NormalizeRole(Str(base)) == Success(base)
    ensures NormalizeRole(Str(RolePrefix + RolePrefix + base)) == Success(RolePrefix + base)
  {
    assert Strings.StartsWith(RolePrefix + base, RolePrefix);
    assert (RolePrefix + base)[|RolePrefix|..] == base;
    assert (RolePrefix + RolePrefix + base)[|RolePrefix|..] == RolePrefix + base;
    assert Strings.StartsWith(RolePrefix + RolePrefix + base, RolePrefix);
  }

  /** Normalising a normalised role that does not itself start with the prefix
      changes nothing. */
  lemma NormalizeRoleIdempotent(raw: Value)
    requires NormalizeRole(raw).Success?
    requires !Strings.StartsWith(NormalizeRole(raw).value, RolePrefix)
    requires NormalizeRole(raw).value != ""
    ensures NormalizeRole(Str(NormalizeRole(raw).value)) == NormalizeRole(raw)
  {
  }

  /** `User.fromApi(data)` on an object. */
  function UserFromApi(data: Record): (r: Result<User, Exception>)
    ensures r.Success? <==> NormalizeRole(Get(data, "role")).Success?
    ensures r.Success? ==> r.value.role == Str(NormalizeRole(Get(data, "role")).value)
    ensures r.Success? && Get(data, "enabled").Undefined? ==> r.value.enabled == Bool(true)
    ensures r.Success? && !Get(data, "enabled").Undefined? ==> r.value.enabled == data["enabled"]
    ensures r.Success? && Truthy(Get(data, "fullName")) ==> r.value.fullName == data["fullName"]
  {
    var role :- NormalizeRole(Get(data, "role"));
    Success(Construct(
      Get(data, "id"),
      Get(data, "username"),
      Get(data, "email"),
      Or(Get(data, "fullName"), Str("")),
      Or(Get(data, "firstName"), Str("")),
      Or(Get(data, "lastName"), Str("")),
      Str(role),
      Get(data, "studentCode"),
      Get(data, "lecturerCode"),
      Get(data, "department"),
      if !Get(data, "enabled").Undefined? then Get(data, "enabled") else Bool(true),
      Get(data, "createdAt"),
      Get(data, "updatedAt")))
  }

  /** `User.fromApi(response)` on whatever the back end returned. */
  function UserFromResponse(response: Value): (r: Result<User, Exception>)
    ensures (response.Undefined? || response.Null?) ==> r == Failure(TypeError)
    ensures response.Obj? ==> r == UserFromApi(response.fields)
  {
    var data :- Props(response);
    UserFromApi(data)
  }

  /** A user read without any name fields is named from its first and last
      names, and a user with no names at all is shown by its username. */
  lemma FullNameFromParts(data: Record)
    requires UserFromApi(data).Success?
    requires !Truthy(Get(data, "fullName"))
    ensures var u := UserFromApi(data).value;
      u.fullName == Str(JoinedName(Or(Get(data, "firstName"), Str("")), Or(Get(data, "lastName"), Str(""))))
    ensures !Truthy(Get(data, "firstName")) && !Truthy(Get(data, "lastName")) ==>
      UserFromApi(data).value.DisplayName() == Default(Get(data, "username"), Str(""))
  {
    JoinedNameEmpty();
  }

  /** Two empty names join to the empty string. */
  lemma JoinedNameEmpty()
    ensures JoinedName(Str(""), Str("")) == ""
  {
    assert Text(Str("")) + " " + Text(Str("")) == " ";
    assert Strings.TrimStart(" ") == "";
  }

  /** At most one role predicate holds; one holds exactly for a USER_ROLES role,
      which is then shown by its own label. */
  lemma RolePredicatesExclusive(u: User)
    ensures IncludesStr(UserRoles, u.role) <==>
      u.IsAdmin() || u.IsLecturer() || u.IsStudent() || u.IsSecretary()
    ensures !(u.IsAdmin() && u.IsLecturer()) && !(u.IsAdmin() && u.IsStudent())
    ensures !(u.IsAdmin() && u.IsSecretary()) && !(u.IsLecturer() && u.IsStudent())
    ensures !(u.IsLecturer() && u.IsSecretary()) && !(u.IsStudent() && u.IsSecretary())
    ensures IncludesStr(UserRoles, u.role) ==> u.RoleDisplayText() != u.role
  {
  }

  /** A `ROLE_`-prefixed role from the back end satisfies the same predicate as the bare one. */
  lemma PrefixedRoleRecognised(data: Record, base: string)
    requires base in UserRoles
    requires Get(data, "role") == Str(RolePrefix + base)
    ensures UserFromApi(data).Success?
    ensures UserFromApi(data).value.role == Str(base)
    ensures base == "ADMIN" ==> UserFromApi(data).value.IsAdmin()
    ensures base == "SECRETARY" ==> UserFromApi(data).value.IsSecretary()
  {
    NormalizeRoleOnce(base);
  }

  /** `toJson()`: the fields the back end accepts. */
  function UserToJson(u: User): (r: Record)
    ensures r.Keys == {"id", "username", "email", "fullName", "role", "studentCode", "lecturerCode"}
  {
    map[
      "id" := u.id, "username" := u.username, "email" := u.email, "fullName" := u.fullName,
      "role" := u.role, "studentCode" := u.studentCode, "lecturerCode" := u.lecturerCode]
  }

  /** A user whose role is a USER_ROLES constant reads back from its own JSON
      with the same identity, role, codes and display name. */
  lemma UserJsonRoundTrip(u: User)
    requires IncludesStr(UserRoles, u.role)
    requires !u.id.Undefined? && !u.username.Undefined? && !u.email.Undefined?
    requires !u.studentCode.Undefined? && !u.lecturerCode.Undefined?
    requires Truthy(u.fullName)
    ensures UserFromApi(UserToJson(u)).Success?
    ensures var v := UserFromApi(UserToJson(u)).value;
      v.id == u.id && v.username == u.username && v.email == u.email && v.role == u.role
      && v.studentCode == u.studentCode && v.lecturerCode == u.lecturerCode
      && v.DisplayName() == u.DisplayName()
  {
    var s := u.role.s;
    assert !Strings.StartsWith(s, RolePrefix) by {
      assert s[0] != RolePrefix[0];
    }
    var j := UserToJson(u);
    assert Get(j, "role") == u.role && Get(j, "fullName") == u.fullName;
    assert NormalizeRole(u.role) == Success(s);
    var v := UserFromApi(j).value;
    assert v.fullName == u.fullName;
  }
}

=== FILE: user_use_cases.dfy ===
/** The user use cases of `usecases/users/userUseCases.js`: creation checks,
    the client-side role filter over the listed users, and the id guards. */
module UserUseCases {
  import opened Wrappers
  import opened Js
  import opened UseCaseSupport
  import opened UserModel
  import Strings

  /** The fields a new user needs, in the order they are checked. */
  const UserRequired: seq<string> := ["username", "password", "email", "fullName", "role"]

  /** The roles a new user may have. */
  const ValidRoles: seq<string> := ["ADMIN", "LECTURER", "STUDENT", "SECRETARY"]

  const BadRole: Exception := Error("Role không hợp lệ")
  const NoLecturerCode: Exception := Error("Mã giảng viên không được để trống")
  const NoStudentCode: Exception := Error("Mã sinh viên không được để trống")
  const NoUserId: Exception := Error("ID người dùng không được để trống")
  const NoUsername: Exception := Error("Tên đăng nhập không được để trống")

  /** The checks of `createUserUseCase` on an object: required fields, then the
      role, then the code the role needs. */
  function CheckNewUser(data: Record): (r: Outcome<Exception>)
    ensures RequireFields(data, UserRequired).Fail? ==> r == RequireFields(data, UserRequired)
    ensures r.Pass? <==>
      RequireFields(data, UserRequired).Pass? && IncludesStr(ValidRoles, Get(data, "role"))
      && (Get(data, "role") == Str("LECTURER") ==> Truthy(Get(data, "lecturerCode")))
      && (Get(data, "role") == Str("STUDENT") ==> Truthy(Get(data, "studentCode")))
    ensures RequireFields(data, UserRequired).Pass? && !IncludesStr(ValidRoles, Get(data, "role")) ==>
      r == Fail(BadRole)
    ensures (RequireFields(data, UserRequired).Pass? && Get(data, "role") == Str("LECTURER")
      && !Truthy(Get(data, "lecturerCode"))) ==> r == Fail(NoLecturerCode)
    ensures (RequireFields(data, UserRequired).Pass? && Get(data, "role") == Str("STUDENT")
      && !Truthy(Get(data, "studentCode"))) ==> r == Fail(NoStudentCode)
  {
    var role := Get(data, "role");
    if RequireFields(data, UserRequired).Fail? then RequireFields(data, UserRequired)
    else if !IncludesStr(ValidRoles, role) then Fail(BadRole)
    else if StrictEquals(role, Str("LECTURER")) && !Truthy(Get(data, "lecturerCode")) then Fail(NoLecturerCode)
    else if StrictEquals(role, Str("STUDENT")) && !Truthy(Get(data, "studentCode")) then Fail(NoStudentCode)
    else Pass
  }

  /** `createUserUseCase(userData)`. */
  function CreateUser(userData: Value, createUser: Call): (r: Result<User, Exception>)
    ensures (userData.Undefined? || userData.Null?) ==> r == Failure(TypeError)
    ensures userData.Obj? && CheckNewUser(userData.fields).Fail? ==> r == Failure(CheckNewUser(userData.fields).error)
    ensures userData.Obj? && CheckNewUser(userData.fields).Pass? ==>
      match createUser(userData)
      case Failure(e) => r == Failure(e)
      case Success(v) => r == UserFromResponse(v)
  {
    var data :- Props(userData);
    :- CheckNewUser(data);
    var response :- createUser(userData);
    UserFromResponse(response)
  }

  /** The accepted roles are the model's USER_ROLES, and an administrator or
      secretary needs no code. */
  lemma ValidRolesAreUserRoles(data: Record)
    requires RequireFields(data, UserRequired).Pass?
    requires Get(data, "role") == Str("ADMIN") || Get(data, "role") == Str("SECRETARY")
    ensures CheckNewUser(data).Pass?
    ensures forall r :: r in ValidRoles <==> r in UserRoles
  {
  }

  /** A missing role is reported as a missing field, not as an invalid one. */
  lemma MissingRoleIsRequiredField(data: Record)
    requires Truthy(Get(data, "username")) && Truthy(Get(data, "password"))
    requires Truthy(Get(data, "email")) && Truthy(Get(data, "fullName"))
    requires !Truthy(Get(data, "role"))
    ensures CheckNewUser(data) == Fail(Error("role" + Blank))
  {
    FirstMissingFieldNamed(data, UserRequired, 4);
  }

  /** `(u.role || '').toString().toUpperCase()`. */
  function RoleKey(u: User): string {
    Strings.ToUpper(Text(Or(u.role, Str(""))))
  }

  /** The client-side filter as written: equal to the target, equal to the
      prefixed target, or containing it. */
  predicate RoleMatches(u: User, target: string) {
    var current := RoleKey(u);
    current == target || current == "ROLE_" + target || Strings.Contains(current, target)
  }

  /** The two equality tests add nothing: the filter is the containment test. */
  lemma RoleMatchIsContainment(u: User, target: string)
    ensures RoleMatches(u, target) <==> Strings.Contains(RoleKey(u), target)
  {
    var current := RoleKey(u);
    if current == target {
      Strings.PrefixContained(current, target);
    } else if current == "ROLE_" + target {
      assert Strings.OccursAt(current, target, 5) by {
        assert current[5..5 + |target|] == target;
      }
      Strings.ContainsIff(current, target);
    }
  }

  /** A filter on `LECTURER` also keeps a user whose role merely contains it. */
  lemma RoleFilterIsLoose(u: User)
    requires u.role == Str("NOT_LECTURER")
    ensures RoleMatches(u, "LECTURER")
  {
    assert Text(Str("NOT_LECTURER")) == "NOT_LECTURER";
    assert Strings.ToUpper("NOT_LECTURER") == "NOT_LECTURER";
    assert Strings.OccursAt("NOT_LECTURER", "LECTURER", 4);
    Strings.ContainsIff("NOT_LECTURER", "LECTURER");
  }

  /** The result of `getUsersUseCase`. */
  datatype UserList = UserList(users: seq<User>, paging: Paging)

  /** `getUsersUseCase(params)`. */
  function GetUsers(params: Record, getUsers: Call): (r: Result<UserList, Exception>)
    ensures getUsers(Obj(params)).Failure? ==> r == Failure(getUsers(Obj(params)).error)
    ensures r.Success? ==> r.value.paging == PagingOf(getUsers(Obj(params)).value, |r.value.users|)
  {
    var response :- getUsers(Obj(params));
    var content :- ContentOf(response);
    var all :- MapIfList(content, UserFromResponse);
    var users := if Truthy(Get(params, "role"))
      then Filter(all, u => RoleMatches(u, Strings.ToUpper(Text(params["role"]))))
      else all;
    Success(UserList(users, PagingOf(response, |users|)))
  }

  /** The users read from a list response: all of them without a role
      parameter; with one, exactly those whose upper-cased role contains the
      upper-cased parameter, in their original order and multiplicity (the
      filter of `Js.Filter`). The total counts the filtered users unless the back
      end sent `totalElements`. */
  lemma GetUsersFilter(params: Record, getUsers: Call, items: seq<Value>)
    requires getUsers(Obj(params)) == Success(Arr(items))
    requires forall k :: 0 <= k < |items| ==> items[k].Obj?
    requires forall k :: 0 <= k < |items| ==> UserFromResponse(items[k]).Success?
    ensures GetUsers(params, getUsers).Success?
    ensures var all := MapAll(items, UserFromResponse).value;
      var r := GetUsers(params, getUsers).value;
      (!Truthy(Get(params, "role")) ==> r.users == all)
      && (Truthy(Get(params, "role")) ==>
            var target := Strings.ToUpper(Text(params["role"]));
            r.users == Filter(all, u => Strings.Contains(RoleKey(u), target))
            && (forall k :: 0 <= k < |r.users| ==> Strings.Contains(RoleKey(r.users[k]), target) && r.users[k] in all)
            && (forall k :: 0 <= k < |all| && Strings.Contains(RoleKey(all[k]), target) ==> all[k] in r.users))
      && r.paging.total == Num(|r.users|)
  {
    var all := MapAll(items, UserFromResponse).value;
    var r := GetUsers(params, getUsers).value;
    if Truthy(Get(params, "role")) {
      var target := Strings.ToUpper(Text(params["role"]));
      forall k | 0 <= k < |all|
        ensures RoleMatches(all[k], target) == Strings.Contains(RoleKey(all[k]), target)
      {
        RoleMatchIsContainment(all[k], target);
      }
      FilterCongruent(all, u => RoleMatches(u, target), u => Strings.Contains(RoleKey(u), target));
      forall k | 0 <= k < |r.users|
        ensures Strings.Contains(RoleKey(r.users[k]), target)
      {
        RoleMatchIsContainment(r.users[k], target);
      }
      forall k | 0 <= k < |all| && Strings.Contains(RoleKey(all[k]), target)
        ensures all[k] in r.users
      {
        RoleMatchIsContainment(all[k], target);
      }
    }
  }

  /** `getUserByIdUseCase(userId)`. */
  function GetUserById(userId: Value, getUserById: Call): (r: Result<User, Exception>)
    ensures !Truthy(userId) ==> r == Failure(NoUserId)
    ensures Truthy(userId) ==>
      match getUserById(userId)
      case Failure(e) => r == Failure(e)
      case Success(v) => r == UserFromResponse(v)
  {
    if !Truthy(userId) then Failure(NoUserId) else
    var response :- getUserById(userId);
    UserFromResponse(response)
  }

  /** The repository call of an update: the id and the new data. */
  type UpdateCall = (Value, Value) -> Result<Value, Exception>

  /** `updateUserUseCase(userId, userData)`. */
  function UpdateUser(userId: Value, userData: Value, updateUser: UpdateCall): (r: Result<User, Exception>)
    ensures !Truthy(userId) ==> r == Failure(NoUserId)
    ensures Truthy(userId) ==>
      match updateUser(userId, userData)
      case Failure(e) => r == Failure(e)
      case Success(v) => r == UserFromResponse(v)
  {
    if !Truthy(userId) then Failure(NoUserId) else
    var response :- updateUser(userId, userData);
    UserFromResponse(response)
  }

  /** `deleteUserUseCase(userId)`: resolves to nothing. */
  function DeleteUser(userId: Value, deleteUser: Call): (r: Result<Value, Exception>)
    ensures !Truthy(userId) ==> r == Failure(NoUserId)
    ensures Truthy(userId) && deleteUser(userId).Failure? ==> r == Failure(deleteUser(userId).error)
    ensures Truthy(userId) && deleteUser(userId).Success? ==> r == Success(Undefined)
  {
    if !Truthy(userId) then Failure(NoUserId) else
    var _ :- deleteUser(userId);
    Success(Undefined)
  }

  /** `resetPasswordUseCase(username)`. */
  function ResetPassword(username: Value, resetPassword: Call): (r: Result<Value, Exception>)
    ensures !Truthy(username) ==> r == Failure(NoUsername)
    ensures Truthy(username) ==> r == resetPassword(username)
  {
    if !Truthy(username) then Failure(NoUsername) else
    resetPassword(username)
  }

  /** None of the id-guarded use cases consults the repository for a falsy id. */
  lemma IdGuardsBeforeRepository(userId: Value, data: Value, one: Call, other: Call, u1: UpdateCall, u2: UpdateCall)
    requires !Truthy(userId)
    ensures GetUserById(userId, one) == GetUserById(userId, other)
    ensures UpdateUser(userId, data, u1) == UpdateUser(userId, data, u2)
    ensures DeleteUser(userId, one) == DeleteUser(userId, other)
    ensures ResetPassword(userId, one) == ResetPassword(userId, other)
  {
  }
}

=== FILE: wrappers.dfy ===
/** Failure-compatible datatypes shared by the whole model. */
module Wrappers {

  /** A value that may be absent (`null`/`undefined` in the modelled code). */
  datatype Option<+T> = None | Some(value: T) {
    predicate IsFailure() { None? }

    function PropagateFailure<U>(): Option<U>
      requires None?
    {
      None
    }

    function Extract(): T
      requires Some?
    {
      value
    }

    function GetOr(default: T): T {
      match this
      case Some(v) => v
      case None => default
    }
  }

  /** The outcome of an operation that either returns a value or throws an error. */
  datatype Result<+R, +E> = Success(value: R) | Failure(error: E) {
    predicate IsFailure() { Failure? }

    function PropagateFailure<U>(): Result<U, E>
      requires Failure?
    {
      Failure(error)
    }

    function Extract(): R
      requires Success?
    {
      value
    }
  }

  /** Either passes or fails with an error; used for validators that return nothing. */
  datatype Outcome<+E> = Pass | Fail(error: E) {
    predicate IsFailure() { Fail? }

    function PropagateFailure<U>(): Result<U, E>
      requires Fail?
    {
      Failure(error)
    }
  }
}
